=== FILE: README.md ===
# LoeschMich request lifecycle in Dafny

LoeschMich drafts data-protection requests to companies, sends them by e-mail and tracks each
one until the company answers. The requests are mostly deletion requests under article 17 of
the GDPR ("DSGVO Löschantrag"). This project models the engine that drives the life of a
request and proves properties of that model:

- **Creation.** `create_and_send_request` composes a subject and body, stores a DRAFT request
  and can send it at once.
- **Sending.** `send_request` mails the stored subject and body to the company. On delivery the
  request becomes SENT and two follow-up tasks are scheduled: a reminder after 14 days and a
  final notice after 30. On failure the request becomes FAILED.
- **Follow-ups.** `send_reminder` and `send_escalation` refuse COMPLETED or REJECTED requests.
  Otherwise they send the German reminder or final notice. A delivered reminder raises the
  reminder count. A delivered escalation sets ESCALATED.
- **Replies.** `process_response` classifies the company's reply, maps the verdict onto the
  request status and stores the reply text.
- **The batch of due tasks.** `execute_pending_tasks` runs every due task once in due order, marks each
  one "completed" or "failed" and returns how many completed.

The engine is modelled over the layers it relies on:

- **The persistence layer** (`database.py`) is an immutable store of three maps from row id to
  record. Ids are issued as SQLite's AUTOINCREMENT issues them. The store carries the rule that
  stamps a timestamp for each status, the reminder counter, the query for due tasks and the
  recording of each task's result.
- **The response analyzer** has three parts: the short-circuit for an empty reply, the
  coercion of the language model's type string, and the keyword classifier, which checks
  substrings in priority order.
- **The template manager** provides the template key table, the default date and the three
  subject tables.
- **The request generator** chooses between a template body and a language-model rewrite. It
  also renders the original date of a reminder or escalation as `dd.mm.yyyy`.

Some behaviour is left to the caller as explicit arguments:

- The clock is a `now` argument counted in seconds since the Unix epoch. `CURRENT_TIMESTAMP`
  and `datetime.now()` are both read from it.
- E-mail delivery is a boolean oracle argument. Each sending operation also reports the
  message it would hand to the mail server.
- The language model is an argument saying what it answered. `Generator` covers the request
  rewrite and `Classifier` covers the reply analysis.
- The batch takes `env: nat -> Attempt`, the outcome for the i-th fetched task. The outcome is
  either a delivery answer or an exception raised before anything was written.

Modules, in dependency order:

| module | file | models |
|---|---|---|
| `Wrappers` | wrappers.dfy | `Option`, `Result` |
| `Models` | models.dfy | `src/core/models.py` |
| `Calendar` | calendar.dfy | `strftime("%d.%m.%Y")`, `isoformat()` |
| `Sorting` | sorting.dfy | the ordering behind `ORDER BY` |
| `Store` | store.dfy | `src/core/database.py` |
| `Templates` | templates.dfy | `src/utils/templates.py` |
| `ResponseAnalyzer` | analyzer.dfy | `src/ai/response_analyzer.py` |
| `ClassifierCases` | classifier_cases.dfy | the classifier on the repository's test sentences |
| `RequestGenerator` | generator.dfy | `src/ai/request_generator.py` |
| `Workflow` | orchestrator.dfy | `src/workflow/orchestrator.py` |

Behaviour of the code worth knowing, each with the lemma that states it:

- **A follow-up for a closed request fails.** `send_reminder` and `send_escalation` log that
  they skip a COMPLETED or REJECTED request and return False
  (src/workflow/orchestrator.py:150-155). The batch then marks the task "failed" and does not
  count it (`Workflow.FollowUpForClosedRequestFails`).
- **Replies apply from any status.** `process_response` applies its status mapping to every
  current status, DRAFT and the closed statuses included
  (`Workflow.InformationRequestReopensClosedRequest`, `Workflow.AcknowledgedWithoutSending`).
- **Missing rows are logged, not raised.** A missing request or company makes the operation
  log an error and return False, or return the analysis without writing, and the model does
  the same.
- **No resend guard.** `send_request` sends whatever the current status is
  (`Workflow.ResendingClosedRequest`).
- **The batch always runs as of now.** `execute_pending_tasks` calls `get_pending_tasks()`
  without a `before` argument (src/workflow/orchestrator.py:272), so the query uses the current
  time (src/core/database.py:250).
- **Due tasks have no tie-break.** The query orders by `scheduled_at` alone
  (src/core/database.py:256), so the model promises no order among tasks due at the same time.

## Model

| member | source | states |
|---|---|---|
| Models.TypeFromValue | src/core/models.py:10-16 | parsing a stored type string gives back a type whose value is that string |
| Models.StatusFromValue | src/core/models.py:19-29 | parsing a stored status string gives back a status whose value is that string |
| Models.TypeValueRoundTrip | src/core/models.py:10-16 | each request type is read back as written, and exactly the four listed strings are accepted |
| Models.StatusValueRoundTrip | src/core/models.py:19-29 | each status is read back as written, and exactly the eight listed strings are accepted |
| Models.EnumerationsAreComplete | src/core/models.py:10-29 | every status and type is listed; there are exactly eight statuses and four types, all distinct |
| Models.NewCompany | src/core/models.py:32-43 | a new company has no id; name and e-mail are as given; every optional field is None |
| Models.NewRequest | src/core/models.py:56-78 | a new request has no id, status DRAFT and reminder count 0; every lifecycle timestamp, the reply and the notes are None; the given fields are kept |
| Models.NewTask | src/core/models.py:115-125 | a new task is "pending" with no id, no execution time, no result and no error |
| Calendar.PadDecimal | src/ai/request_generator.py:136 | the rendering is all digits, reads back as the number, and is exactly `width` long when the number fits |
| Calendar.FormatDateRoundTrip | src/ai/request_generator.py:136 | a `dd.mm.yyyy` rendering is ten characters and parses back to the date it came from |
| Calendar.CivilDate | src/ai/request_generator.py:136 | the calendar date of a time has a month from 1 to 12, a day from 1 to 31 and a year from 1600 on |
| Calendar.YearOfEra | src/ai/request_generator.py:136 | day `doe` of a 400-year era is the days of the whole years before it (365 a year, plus the leap days) plus a day of the year, and day 365 is reached only in a year whose February has 29 days |
| Calendar.MonthDay | src/ai/request_generator.py:136 | the month and day of a day of a year that starts on 1 March, counted in the month lengths of a common year; only 29 February exceeds a common month |
| Calendar.CivilDateRoundTrip | src/ai/request_generator.py:136 | every time falls on a valid Gregorian date, and counting the days from 1 January 1970 to it with the reference month and year lengths gives the time's day number back |
| Calendar.DaysBeforeYearClosed | src/ai/request_generator.py:136 | summing the Gregorian year lengths up to a year gives the closed form 365 days a year plus the years divisible by 4, less those by 100, plus those by 400 |
| Calendar.MarchFirstStep | src/ai/request_generator.py:136 | consecutive 1 Marches are a year length apart, 366 days exactly when the later year is a leap year |
| Calendar.CivilDateExample | tests/test_ai.py:71-76 | 20362 days after the epoch is 1 October 2025 |
| Calendar.FormatTimeExample | tests/test_ai.py:71-76 | 1 October 2025 renders as "01.10.2025" |
| Calendar.IsoFormatReadsBack | src/workflow/orchestrator.py:101 | the `isoformat()` text of a time has its separators in place; its date fields read back as the civil date of the time, and its clock fields as an hour below 24, a minute and a second below 60 that add up to the seconds since midnight |
| Calendar.IsoFormatExample | src/workflow/orchestrator.py:218 | one hour, two minutes and three seconds into 1 October 2025 renders as "2025-10-01T01:02:03" |
| Store.AddCompany | src/core/database.py:103-112 | the insert takes a fresh positive id, stores the fields with both timestamps now, and leaves every other row alone |
| Store.AddThenGetCompany | src/core/database.py:103-120 | reading the returned id gives back the stored fields; every other id reads as before |
| Store.GetCompanyByName | src/core/database.py:122-128 | a stored company with that name is returned iff one exists |
| Store.UpdateCompany | src/core/database.py:137-148 | only the company with the given id changes: its editable fields are overwritten and `updated_at` becomes now; an absent id changes nothing |
| Store.SortedSelection | src/core/database.py:130-135 | selecting the stored rows that pass a filter gives each such row exactly once, nothing else, in order when the ordering is total and transitive, and nothing exactly when no row passes |
| Store.ListCompanies | src/core/database.py:130-135 | every stored company appears exactly once, ordered by name |
| Store.AddRequest | src/core/database.py:151-165 | the insert takes a fresh positive id; only the inserted columns come from the argument and the rest take the schema defaults |
| Store.AddThenGetRequest | src/core/database.py:151-178 | reading the returned id gives back the inserted fields with no reminders, no lifecycle timestamps, no reply and no notes |
| Store.ListRequests | src/core/database.py:180-196 | exactly the stored requests that match the status filter (all of them without one) appear, each once, newest first |
| Store.StampTableIsInjective | src/core/database.py:203-210 | exactly SENT, ACKNOWLEDGED and COMPLETED stamp a column, and no two of them stamp the same one |
| Store.UpdateRequestStatus | src/core/database.py:198-223 | sets the status, overwrites the notes even with None, stamps the matching timestamp exactly for SENT, ACKNOWLEDGED and COMPLETED, and changes nothing else |
| Store.AddReminder | src/core/database.py:225-234 | the reminder count rises by exactly one and `last_reminder_at` becomes now; no other field or row changes |
| Store.SetResponseText | src/workflow/orchestrator.py:256-261 | the reply text is stored verbatim and nothing else changes |
| Store.AddTask | src/core/database.py:237-246 | the insert takes a fresh positive id with no execution time, result or error, and leaves every other row alone |
| Store.GetPendingTasks | src/core/database.py:248-258 | exactly the stored tasks that are "pending" and due by the given time appear, each once, in non-decreasing due time |
| Store.UpdateTaskStatus | src/core/database.py:260-269 | the named task gets the status, result, error and execution time; other tasks are untouched; an unknown id changes nothing |
| Store.MarkedTaskLeavesQueue | src/core/database.py:248-269 | a task set to anything but "pending" is never returned by a later due-task query |
| Templates.TemplateKeys | src/utils/templates.py:108-113 | the template table has exactly the four keys (deletion, de), (deletion, en), (reminder, de) and (escalation, de), each naming its own template |
| Templates.RenderTemplate | src/utils/templates.py:115-131 | rendering succeeds exactly for the four keys of the template table, uses the caller's date or else today's, and fails with the "Template not found" message otherwise |
| Templates.NoEnglishFollowUpTemplates | src/utils/templates.py:108-123 | there is no English reminder or escalation template |
| Templates.GetSubject | src/utils/templates.py:133-147 | the four specific subjects for deletion or access in German or English; "DSGVO Antrag" exactly for every other key |
| Templates.GetReminderSubject | src/utils/templates.py:149-154 | the German subject iff the language is "de", otherwise the English one |
| Templates.GetEscalationSubject | src/utils/templates.py:156-161 | the German subject iff the language is "de", otherwise the English one |
| ResponseAnalyzer.CoerceResponseType | src/ai/response_analyzer.py:104-109 | a recognised type string maps to the member whose value it is; anything else maps to UNKNOWN |
| ResponseAnalyzer.CoercionRoundTrip | src/ai/response_analyzer.py:104-109 | every member's own value coerces back to it, and any string outside the five values becomes UNKNOWN |
| ResponseAnalyzer.Contains | src/ai/response_analyzer.py:137 | the substring test holds iff the keyword occurs at some position of the text |
| ResponseAnalyzer.ContainsAny | src/ai/response_analyzer.py:137 | the group test holds iff some keyword of the group occurs in the text |
| ResponseAnalyzer.KeywordAnalyze | src/ai/response_analyzer.py:123-219 | the first group with a keyword in the lowered text decides, in the order completion, acknowledgement, rejection, needs-info (each verdict iff); no match gives UNKNOWN at 30%; only COMPLETED needs no action |
| ResponseAnalyzer.LowerIdempotent | src/ai/response_analyzer.py:126 | lowering twice is lowering once |
| Sorting.InsertionSort | src/core/database.py:134 | the sorted rows are a permutation of the input, ordered whenever the ordering is total and transitive |
| ResponseAnalyzer.KeywordAnalyzeIgnoresCase | src/ai/response_analyzer.py:126 | texts that lower to the same string get the same verdict |
| ResponseAnalyzer.AnalyzeResponse | src/ai/response_analyzer.py:33-59 | a blank reply gives the fixed empty-response result whatever the classifier; otherwise the coerced model answer or, with no usable answer, the keyword verdict |
| ResponseAnalyzer.EmptyReplyShortCircuits | src/ai/response_analyzer.py:47-54 | the empty reply is UNKNOWN, needs action and has confidence 100% |
| ClassifierCases.CompletedReplyClassifies | tests/test_ai.py:79-87 | "Ihre Daten wurden vollständig gelöscht." is COMPLETED |
| ClassifierCases.AcknowledgedReplyClassifies | tests/test_ai.py:90-98 | "Wir haben Ihre Anfrage erhalten und werden diese bearbeiten." is ACKNOWLEDGED |
| ClassifierCases.RejectedReplyClassifies | tests/test_ai.py:101-109 | the reply citing "nicht erfüllen" and "Aufbewahrungspflichten" is REJECTED |
| ClassifierCases.NeedsInfoReplyClassifies | tests/test_ai.py:112-120 | "Zur Identifizierung benötigen wir weitere Informationen von Ihnen." is NEEDS_INFO |
| RequestGenerator.AiEnhancedBody | src/ai/request_generator.py:64-116 | a failing base template propagates; a non-empty model text is used; an empty text, no text or an exception falls back to the base template |
| RequestGenerator.GenerateDeletionRequest | src/ai/request_generator.py:23-62 | succeeds iff the language is "de" or "en"; the subject always comes from the subject table; the body is the model's text exactly when there is a model, a non-empty reason and a non-empty reply; otherwise it is the deletion template bound to the company name, the requester's name and address and the reason |
| RequestGenerator.GenerateReminder | src/ai/request_generator.py:118-139 | succeeds iff the language is "de"; reminder subject and template, with the original date as `dd.mm.yyyy` |
| RequestGenerator.GenerateEscalation | src/ai/request_generator.py:141-162 | succeeds iff the language is "de"; escalation subject and template, with the original date as `dd.mm.yyyy` |
| RequestGenerator.ReminderDateExample | tests/test_ai.py:63-76 | a reminder for a request sent on 1 October 2025 carries "01.10.2025" |
| Workflow.ScheduleFollowups | src/workflow/orchestrator.py:115-140 | exactly two new pending tasks: a reminder due after the retry delay and an escalation due after the escalation delay; companies and requests unchanged |
| Workflow.MarkSent | src/workflow/orchestrator.py:96-105 | the delivered branch: only the sent request changes, to SENT with `sent_at` now and the "Sent at" note, and exactly the two follow-ups are added |
| Workflow.SendRequest | src/workflow/orchestrator.py:78-113 | a missing request or company gives False with nothing written or sent; otherwise the stored subject and body go to the company; delivered: SENT, `sent_at` now, "Sent at" note, both follow-ups; not delivered: FAILED, failure note, no tasks |
| Workflow.SendReminder | src/workflow/orchestrator.py:142-180 | a missing, closed or company-less request gives False with nothing written or sent; otherwise the German reminder citing the send (else creation) date; on delivery exactly one more reminder and nothing else changes |
| Workflow.SendEscalation | src/workflow/orchestrator.py:182-224 | the same guard; otherwise the German final notice; on delivery ESCALATED with an "Escalated at" note; on failure nothing changes |
| Workflow.MarkEscalated | src/workflow/orchestrator.py:214-219 | the delivered branch: only the escalated request changes, to ESCALATED with the "Escalated at" note; no timestamp, task or company changes |
| Workflow.StatusAfterReply | src/workflow/orchestrator.py:238-246 | ACKNOWLEDGED, COMPLETED and REJECTED map to the status of the same name, NEEDS_INFO to PENDING, and UNKNOWN keeps the current status |
| Workflow.ProcessResponse | src/workflow/orchestrator.py:226-267 | returns the analysis; an unknown id writes nothing; otherwise the mapped status with its timestamp stamped, the summary note and the reply stored verbatim, from any current status |
| Workflow.InsertDraft | src/workflow/orchestrator.py:41-67 | fails with nothing written unless generation succeeded and the company has an id; otherwise exactly one new row under a fresh positive id: a DRAFT deletion request with the generated subject and body, the company's id and name, the requester's details and no reminders; no task, company or earlier request changes and nothing is sent |
| Workflow.CreationFrame | src/workflow/orchestrator.py:54-76 | the created request is the only new request row; companies and every earlier request are kept, whether or not it was then sent |
| Workflow.CreatedRequestFields | src/workflow/orchestrator.py:41-67 | the stored row carries its own id, the company's id and name, the deletion type, the subject from the subject table, the requester's details, the creation time, no reminders and no reply, also after an auto-send |
| Workflow.CreationWithoutSending | src/workflow/orchestrator.py:54-76 | without auto-send, or when no company is stored under the id, the new request stays an unsent DRAFT, no task is added and no mail goes out |
| Workflow.CreationSends | src/workflow/orchestrator.py:70-76 | with auto-send and a stored company the draft is mailed to that company's stored address and ends SENT with a send time and both follow-ups, or FAILED with no send time and no tasks |
| Workflow.CreateAndSendRequest | src/workflow/orchestrator.py:24-76 | an id is returned iff the language has a deletion template ("de" or "en") and the company has an id, and it names a stored request even when auto-send fails; a failure writes and sends nothing |
| Workflow.MarkTask | src/workflow/orchestrator.py:287-298 | only the task's own row gets the status, result, error and execution time |
| Workflow.Dispatch | src/workflow/orchestrator.py:279-285 | succeeds exactly when the mail is delivered, the task is a reminder or escalation and its request is open with a stored company; a failure writes nothing; a delivered reminder raises the count by one and stamps the reminder time, a delivered escalation sets ESCALATED with its note, and nothing else in the row changes; the mail goes to the company's address under the matching subject |
| Workflow.ExecuteTask | src/workflow/orchestrator.py:275-298 | the task ends "completed" exactly when delivery succeeds for a reminder or escalation of an open request with a stored company; its row gets the status, the execution time, "Success" or the error (the exception message on a fault); a failed task changes no request; only its request and its own row can change |
| Workflow.ExecuteTaskKeepsGuard | src/workflow/orchestrator.py:150-155 | running a task never changes whether a follow-up for any request is allowed: a follow-up never closes a request and never touches companies |
| Workflow.FoldKeepsGuard | src/workflow/orchestrator.py:272-298 | a run of steps that keep the follow-up guard leaves the guard as it was before the run |
| Workflow.FoldFinalMark | src/workflow/orchestrator.py:288-298 | after a run over distinct stored tasks, each task keeps the mark its own step gave it |
| Workflow.BatchTaskOutcome | src/workflow/orchestrator.py:275-298 | in a batch, task j ends "completed" exactly when its attempt delivers, its type is reminder or escalation and its request was open with a stored company before the batch, and "failed" otherwise |
| Workflow.DueTaskOutcomes | src/workflow/orchestrator.py:269-298 | in the batch over the tasks due now, every fetched task ends "completed" exactly when its attempt delivers, its type is reminder or escalation and its request was open with a stored company before the batch, and "failed" otherwise |
| Workflow.BatchFrame | src/workflow/orchestrator.py:272-298 | a batch marks every fetched task as no longer pending, leaves unlisted tasks and all companies alone, and adds or removes no row |
| Workflow.RunTasks | src/workflow/orchestrator.py:272-301 | the loop over the fetched tasks computes the same store and count as running the steps one after another, and the count is at most the number of tasks |
| Workflow.FoldCount | src/workflow/orchestrator.py:288-298 | for any step that marks only its own task and marks it by its outcome, the running count equals the number of distinct stored tasks left "completed" |
| Workflow.BatchCount | src/workflow/orchestrator.py:288-298 | the batch's count equals the number of fetched tasks left marked "completed" |
| Workflow.BatchKeepsClosedRequests | src/workflow/orchestrator.py:150-155 | a COMPLETED or REJECTED request passes through a whole batch unchanged |
| Workflow.ExecuteTaskReminderStep | src/workflow/orchestrator.py:174-177 | one task adds at most one reminder to any request and never removes one |
| Workflow.BatchReminderCounts | src/workflow/orchestrator.py:174-177 | over a batch a reminder count never falls and rises by at most the number of tasks |
| Workflow.BatchOverDueTasks | src/workflow/orchestrator.py:269-301 | after a batch over the tasks due now none is left due, the count is the number marked "completed", tasks not due and closed requests are untouched |
| Workflow.NoDueTaskLeft | src/core/database.py:248-269 | a batch over the tasks due now leaves none of them due |
| Workflow.ExecutePendingTasks | src/workflow/orchestrator.py:269-301 | the loop computes the batch over the due tasks: no due task remains, each fetched task ends "completed" exactly when its attempt delivers for a reminder or escalation of a request that was open with a stored company, the count is the number marked "completed" and at most the number fetched, and tasks not fetched and closed requests are untouched |
| Workflow.ReminderFallsDue | src/workflow/orchestrator.py:115-127 | after a delivered send, the reminder task is among the tasks due once the retry delay has passed |
| Workflow.FollowUpForClosedRequestFails | src/workflow/orchestrator.py:150-155 | a follow-up task for a closed request is marked "failed", not counted, and changes no request |
| Workflow.ResendingClosedRequest | src/workflow/orchestrator.py:78-113 | a COMPLETED request sent again becomes SENT with a fresh pair of follow-ups |
| Workflow.AcknowledgedWithoutSending | src/workflow/orchestrator.py:239-251 | a model verdict of "acknowledged" on a never-sent DRAFT makes it ACKNOWLEDGED with an acknowledgement time and still no send time |
| Workflow.InformationRequestReopensClosedRequest | src/workflow/orchestrator.py:239-251 | a needs-info verdict reopens a COMPLETED request as PENDING |
| Workflow.EmptyReplyRestampsSentAt | src/workflow/orchestrator.py:246-251 | an empty reply keeps a SENT request SENT but moves `sent_at` to the reply time |

## Left out

- SQLite itself is not modelled: connections, transactions, the schema DDL and the indexes. The store is three maps with AUTOINCREMENT counters.
- The `user_data` argument of `create_and_send_request` is not modelled, so the model covers only requests without user data. `add_request` stores non-empty user data as the text `str(dict)` (src/core/database.py:163). `get_request` and `list_requests` rebuild the row with `GDPRRequest(**data)`, whose `user_data` field accepts only a dict, so reading such a row back raises. For such a request, `send_request`, the auto-send of `create_and_send_request`, `send_reminder`, `send_escalation` and `process_response` would all raise. The model never stores such a row.
- Templates.RenderTemplate: the failure message spells the deletion kind as "deletion". The generator passes the `RequestType.DELETION` member, and from Python 3.11 on an f-string formats that member as "RequestType.DELETION". The message for the string kinds "reminder" and "escalation" is as modelled.
- SMTP delivery (`src/communication/email_sender.py`) is a boolean argument.
- The language-model client (`src/ai/ollama_client.py`) is left out, along with the prompts and the JSON extraction in the AI analysis. Only the type coercion is modelled. The model's answer is an argument: parsed, or unusable (no reply, no JSON, bad JSON, or an exception).
- A missing "summary" key in the model's JSON is not modelled: such an answer is taken to carry a summary.
- The Jinja template text is not modelled. A rendered body is the template identifier plus its bindings.
- Configuration loading (`src/core/config.py`) is replaced by a `Config` argument. Its defaults (14 days, 30 days, no auto-send) are `Workflow.DefaultConfig`.
- Workflow.Config: the two follow-up delays are natural numbers. `config.py` reads them with `int(...)` from the environment and accepts negative values. With a negative delay `timedelta` schedules the follow-up in the past, so the next batch runs it at once. The model does not cover that case.
- Workflow.ExecutePendingTasks: the whole batch reads the clock once, as `now`. That single reading stamps `last_reminder_at`, the "Escalated at" note and each task's execution time. The code reads the clock at every write: `datetime.now()` for the "Escalated at" note (src/workflow/orchestrator.py:218) and for the due query (src/core/database.py:250), and `CURRENT_TIMESTAMP` for `last_reminder_at` (src/core/database.py:232) and for the execution time (src/core/database.py:267). So in the code these stamps can differ by the time the batch takes.
- Logging, the command-line interface and the return values that are only logged are left out.
- Time zones and microseconds are not modelled: the clock counts whole seconds.
- ResponseAnalyzer.Lower: lowers only ASCII, the Latin-1 capitals and capital sharp s, not all of Unicode. That covers every keyword and test sentence.
- ResponseAnalyzer.KeywordAnalyze: the contract states the verdict, the 30% confidence of UNKNOWN and the action flag. The other confidences (70%, 60%) and the German summaries are fixed constants in the body.
- ResponseAnalyzer.AnalyzeResponse: for a parsed model answer the contract states the coerced type and the summary. The action flag, suggested action and confidence pass through unchecked.
- Confidences are integer percentages rather than floats.
- Pydantic validation is not modelled (`EmailStr` for the requester's address). A company without an id fails request creation in `Workflow.InsertDraft`, where Pydantic would reject `company_id=None`.
- Workflow.ExecuteTask: an exception is modelled only before anything is written. An exception between the e-mail and the database update is not modelled.
- Store.GetCompanyByName: when several companies share a name, SQLite returns an unspecified one. The model returns the one with the lowest id, and the contract promises only some company of that name.
- Calendar.FormatDateRoundTrip: holds for four-digit years. Earlier years are padded but the round trip is not stated for them.
- Workflow.SendReminder: the follow-up language is always "de", as the orchestrator passes no language. `GenerateReminder` and `GenerateEscalation` are modelled for every language.
- Workflow.SendEscalation: the follow-up language is always "de", as the orchestrator passes no language.
- `get_company` and `get_request` are plain map lookups. Their contracts are stated by `Store.AddThenGetCompany` and `Store.AddThenGetRequest`.

=== FILE: analyzer.dfy ===
/** The response classifier (src/ai/response_analyzer.py): an empty-input short-circuit,
    an optional language-model answer whose type string is coerced into the enumeration,
    and the deterministic keyword classifier. Confidence is an integer percentage. */
module ResponseAnalyzer {
  import opened Wrappers

  datatype ResponseType = RespAcknowledged | RespCompleted | RespRejected | RespNeedsInfo | RespUnknown

  function ResponseValue(t: ResponseType): string {
    match t
    case RespAcknowledged => "acknowledged"
    case RespCompleted => "completed"
    case RespRejected => "rejected"
    case RespNeedsInfo => "needs_info"
    case RespUnknown => "unknown"
  }

  /** `ResponseType(v)` with ValueError mapped to UNKNOWN. */
  function CoerceResponseType(v: string): (r: ResponseType)
    ensures r != RespUnknown ==> ResponseValue(r) == v
  {
    if v == "acknowledged" then RespAcknowledged
    else if v == "completed" then RespCompleted
    else if v == "rejected" then RespRejected
    else if v == "needs_info" then RespNeedsInfo
    else RespUnknown
  }

  /** Every member's own string coerces back to it; any string outside the five becomes UNKNOWN. */
  lemma CoercionRoundTrip(t: ResponseType, v: string)
    ensures CoerceResponseType(ResponseValue(t)) == t
    ensures v !in ["acknowledged", "completed", "rejected", "needs_info", "unknown"] ==> CoerceResponseType(v) == RespUnknown
  {
  }

  datatype Analysis = Analysis(
    kind: ResponseType,
    summary: string,
    actionRequired: bool,
    suggestedAction: string,
    confidence: int)

  /** What the language model produced: a parsed JSON object, or nothing usable (no reply,
      no JSON, unparsable JSON, or an exception) which falls back to the keyword classifier. */
  datatype AiAnswer =
    | Parsed(typeValue: string, summary: string, actionRequired: bool, suggestedAction: string, confidence: int)
    | Unusable

  /** Which classifier the analyzer uses: the keyword rules alone (no model, or the model
      unavailable at construction), or the model's answer. */
  datatype Classifier = KeywordOnly | ModelAssisted(answer: AiAnswer)

  /** Python's `str.isspace` characters. */
  predicate IsSpace(c: char) {
    || c == ' ' || ('\t' <= c <= '\r') || ('\U{1c}' <= c <= '\U{1f}')
    || c == '\U{85}' || c == '\U{a0}' || c == '\U{1680}' || ('\U{2000}' <= c <= '\U{200a}')
    || c == '\U{2028}' || c == '\U{2029}' || c == '\U{202f}' || c == '\U{205f}' || c == '\U{3000}'
  }

  /** `not text or not text.strip()`. */
  predicate IsBlank(text: string) {
    forall i :: 0 <= i < |text| ==> IsSpace(text[i])
  }

  /** `str.lower` on ASCII, the Latin-1 capitals (umlauts included) and capital sharp s. */
  function LowerChar(c: char): char {
    if 'A' <= c <= 'Z' || ('À' <= c <= 'Þ' && c != '×') then (c as int + 32) as char
    else if c == 'ẞ' then 'ß'
    else c
  }

  function Lower(s: string): (r: string)
    ensures |r| == |s| && forall i :: 0 <= i < |s| ==> r[i] == LowerChar(s[i])
  {
    seq(|s|, i requires 0 <= i < |s| => LowerChar(s[i]))
  }

  /** Lowering twice is lowering once. */
  lemma LowerIdempotent(s: string)
    ensures Lower(Lower(s)) == Lower(s)
  {
  }

  /** `kw` occurs in `text` at position `i`. */
  ghost predicate OccursAt(kw: string, text: string, i: int) {
    0 <= i && i + |kw| <= |text| && text[i..i + |kw|] == kw
  }

  ghost predicate Occurs(kw: string, text: string) {
    exists i :: OccursAt(kw, text, i)
  }

  /** Python's `kw in text` for strings. */
  function Contains(text: string, kw: string): (b: bool)
    ensures b <==> Occurs(kw, text)
    decreases |text|
  {
    if |kw| <= |text| && text[..|kw|] == kw then
      assert OccursAt(kw, text, 0);
      true
    else if |text| <= |kw| then
      assert !OccursAt(kw, text, 0);
      false
    else
      var b := Contains(text[1..], kw);
      assert forall i :: OccursAt(kw, text[1..], i) <==> OccursAt(kw, text, i + 1) by {
        forall i ensures OccursAt(kw, text[1..], i) <==> OccursAt(kw, text, i + 1) {
          if 0 <= i && i + |kw| <= |text[1..]| {
            assert text[1..][i..i + |kw|] == text[i + 1..i + 1 + |kw|];
          }
        }
      }
      assert Occurs(kw, text) ==> Occurs(kw, text[1..]) by {
        if Occurs(kw, text) {
          var i :| OccursAt(kw, text, i);
          assert i != 0;
          assert OccursAt(kw, text[1..], i - 1);
        }
      }
      b
  }

  /** `any(kw in text for kw in kws)`. */
  function ContainsAny(text: string, kws: seq<string>): (b: bool)
    ensures b <==> exists j :: 0 <= j < |kws| && Occurs(kws[j], text)
  {
    if |kws| == 0 then false
    else if Contains(text, kws[0]) then true
    else
      var b := ContainsAny(text, kws[1..]);
      assert forall j :: 1 <= j < |kws| ==> kws[1..][j - 1] == kws[j];
      b
  }

  const CompletionKeywords: seq<string> :=
    ["gelöscht", "deleted", "entfernt", "removed", "vollständig gelöscht", "completely deleted"]
  const AcknowledgementKeywords: seq<string> :=
    ["bestätigen", "erhalten", "bearbeiten", "prüfen", "acknowledge", "received", "processing"]
  const RejectionKeywords: seq<string> :=
    ["ablehnen", "abgelehnt", "nicht möglich", "nicht erfüllen", "reject", "rejected", "cannot",
     "can not", "unable", "gesetzliche aufbewahrungspflicht", "gesetzlichen aufbewahrungspflichten",
     "aufbewahrungspflicht", "aufbewahrungspflichten", "legal obligation", "legal obligations",
     "retention obligation", "retention obligations"]
  const InformationKeywords: seq<string> :=
    ["weitere informationen", "more information", "identifizierung", "identification", "nachweis", "proof"]

  /** Some keyword of the group occurs in the lowered text. */
  ghost predicate Mentions(text: string, kws: seq<string>) {
    exists j :: 0 <= j < |kws| && Occurs(kws[j], Lower(text))
  }

  const CompletedAnalysis := Analysis(RespCompleted, "Daten wurden gelöscht", false, "Keine weitere Aktion erforderlich", 70)
  const AcknowledgedAnalysis := Analysis(RespAcknowledged, "Anfrage wurde bestätigt", true, "Warten auf Abschluss, ggf. Erinnerung senden", 60)
  const RejectedAnalysis := Analysis(RespRejected, "Anfrage wurde abgelehnt", true, "Begründung prüfen, ggf. Beschwerde einreichen", 70)
  const NeedsInfoAnalysis := Analysis(RespNeedsInfo, "Unternehmen benötigt weitere Informationen", true, "Angeforderte Informationen bereitstellen", 60)
  const UndeterminedAnalysis := Analysis(RespUnknown, "Antworttyp konnte nicht bestimmt werden", true, "Manuelle Prüfung erforderlich", 30)
  const EmptyAnalysis := Analysis(RespUnknown, "Empty response", true, "Wait for response or send reminder", 100)

  /** `_keyword_analyze`: the first group, in the order completion, acknowledgement,
      rejection, needs-info, that has a keyword in the lowered text decides; no match is
      UNKNOWN at 30%. Only COMPLETED needs no further action. */
  function KeywordAnalyze(text: string): (r: Analysis)
    ensures r.kind == RespCompleted <==> Mentions(text, CompletionKeywords)
    ensures r.kind == RespAcknowledged <==>
      !Mentions(text, CompletionKeywords) && Mentions(text, AcknowledgementKeywords)
    ensures r.kind == RespRejected <==>
      !Mentions(text, CompletionKeywords) && !Mentions(text, AcknowledgementKeywords)
      && Mentions(text, RejectionKeywords)
    ensures r.kind == RespNeedsInfo <==>
      !Mentions(text, CompletionKeywords) && !Mentions(text, AcknowledgementKeywords)
      && !Mentions(text, RejectionKeywords) && Mentions(text, InformationKeywords)
    ensures r.kind == RespUnknown ==> r.confidence == 30
    ensures r.actionRequired <==> r.kind != RespCompleted
  {
    var lowered := Lower(text);
    if ContainsAny(lowered, CompletionKeywords) then CompletedAnalysis
    else if ContainsAny(lowered, AcknowledgementKeywords) then AcknowledgedAnalysis
    else if ContainsAny(lowered, RejectionKeywords) then RejectedAnalysis
    else if ContainsAny(lowered, InformationKeywords) then NeedsInfoAnalysis
    else UndeterminedAnalysis
  }

  /** The keyword classifier sees only the lowered text: case never changes its verdict. */
  lemma KeywordAnalyzeIgnoresCase(a: string, b: string)
    requires Lower(a) == Lower(b)
    ensures KeywordAnalyze(a) == KeywordAnalyze(b)
    ensures KeywordAnalyze(Lower(a)) == KeywordAnalyze(a)
  {
    LowerIdempotent(a);
  }

  /** `analyze_response`: empty or whitespace-only text is UNKNOWN, action required, full
      confidence, whatever the classifier; otherwise the model's answer with its type coerced,
      or the keyword verdict when there is no model or its answer is unusable. */
  function AnalyzeResponse(text: string, classifier: Classifier): (r: Analysis)
    ensures IsBlank(text) ==> r == EmptyAnalysis
    ensures !IsBlank(text) && (classifier.KeywordOnly? || classifier.answer.Unusable?) ==> r == KeywordAnalyze(text)
    ensures !IsBlank(text) && classifier.ModelAssisted? && classifier.answer.Parsed? ==>
      r.kind == CoerceResponseType(classifier.answer.typeValue) && r.summary == classifier.answer.summary
  {
    if IsBlank(text) then EmptyAnalysis
    else match classifier
      case KeywordOnly => KeywordAnalyze(text)
      case ModelAssisted(Unusable) => KeywordAnalyze(text)
      case ModelAssisted(Parsed(v, summary, action, suggested, confidence)) =>
        Analysis(CoerceResponseType(v), summary, action, suggested, confidence)
  }

  /** The empty reply is UNKNOWN, needs action and has confidence 100%. */
  lemma EmptyReplyShortCircuits(classifier: Classifier)
    ensures AnalyzeResponse("", classifier).kind == RespUnknown
    ensures AnalyzeResponse("", classifier).actionRequired
    ensures AnalyzeResponse("", classifier).confidence == 100
  {
  }
}

=== FILE: calendar.dfy ===
/** Calendar dates and the `%d.%m.%Y` rendering used for request dates. */
module Calendar {
  import opened Wrappers
  import opened Models

  const SecondsPerDay: nat := 86400

  datatype Date = Date(year: int, month: int, day: int)

  predicate IsDigit(c: char) {
    '0' <= c <= '9'
  }

  function Digit(d: nat): (c: char)
    requires d < 10
    ensures IsDigit(c)
  {
    ('0' as int + d) as char
  }

  function DigitValue(c: char): nat
    requires IsDigit(c)
  {
    c as int - '0' as int
  }

  function Pow10(k: nat): (p: nat)
    ensures p >= 1
  {
    if k == 0 then 1 else 10 * Pow10(k - 1)
  }

  /** The value of a string of decimal digits. */
  function DecimalValue(s: string): nat
    requires forall i :: 0 <= i < |s| ==> IsDigit(s[i])
  {
    if |s| == 0 then 0 else 10 * DecimalValue(s[..|s| - 1]) + DigitValue(s[|s| - 1])
  }

  /** Zero-padded decimal rendering of `n` with at least `width` digits. */
  function PadDecimal(n: nat, width: nat): (s: string)
    ensures forall i :: 0 <= i < |s| ==> IsDigit(s[i])
    ensures DecimalValue(s) == n
    ensures |s| >= 1 && |s| >= width
    ensures 1 <= width && n < Pow10(width) ==> |s| == width
    decreases n + width
  {
    if n < 10 && width <= 1 then [Digit(n)]
    else
      var prefix := PadDecimal(n / 10, if width == 0 then 0 else width - 1);
      var s := prefix + [Digit(n % 10)];
      QuotientBound(n, Pow10(if width == 0 then 0 else width - 1));
      assert s[..|s| - 1] == prefix;
      s
  }

  /** Dropping the last decimal digit of a number below `10 * p` leaves one below `p`. */
  lemma QuotientBound(n: nat, p: nat)
    ensures n < 10 * p ==> n / 10 < p
  {
  }

  /** `strftime("%d.%m.%Y")`. */
  function FormatDate(d: Date): (s: string)
    requires 0 <= d.day && 0 <= d.month && 0 <= d.year
  {
    PadDecimal(d.day, 2) + "." + PadDecimal(d.month, 2) + "." + PadDecimal(d.year, 4)
  }

  /** Reads a `dd.mm.yyyy` string back into a date. */
  function ParseDate(s: string): Option<Date> {
    if |s| == 10 && s[2] == '.' && s[5] == '.'
       && (forall i :: 0 <= i < 10 && i != 2 && i != 5 ==> IsDigit(s[i]))
    then Some(Date(DecimalValue(s[6..10]), DecimalValue(s[3..5]), DecimalValue(s[0..2])))
    else None
  }

  /** A rendered date is read back as the date it came from, for every day and month
      below 100 and every four-digit year. */
  lemma FormatDateRoundTrip(d: Date)
    requires 0 <= d.day < 100 && 0 <= d.month < 100 && 1000 <= d.year < 10000
    ensures |FormatDate(d)| == 10
    ensures ParseDate(FormatDate(d)) == Some(d)
  {
    var dd, mm, yy := PadDecimal(d.day, 2), PadDecimal(d.month, 2), PadDecimal(d.year, 4);
    assert Pow10(2) == 100 && Pow10(4) == 10000;
    var s := FormatDate(d);
    assert s == dd + "." + mm + "." + yy;
    assert s[0..2] == dd && s[3..5] == mm && s[6..10] == yy;
  }

  /** Gregorian leap years: every fourth year, except centuries not divisible by 400. */
  predicate IsLeapYear(y: int) {
    y % 4 == 0 && (y % 100 != 0 || y % 400 == 0)
  }

  function YearLength(y: int): int {
    if IsLeapYear(y) then 366 else 365
  }

  /** The length of month `m` in a year that is not a leap year. */
  function CommonMonthLength(m: int): int
    requires 1 <= m <= 12
  {
    if m == 2 then 28 else if m == 4 || m == 6 || m == 9 || m == 11 then 30 else 31
  }

  function DaysInMonth(y: int, m: int): int
    requires 1 <= m <= 12
  {
    if m == 2 && IsLeapYear(y) then 29 else CommonMonthLength(m)
  }

  predicate ValidDate(d: Date) {
    1 <= d.year && 1 <= d.month <= 12 && 1 <= d.day <= DaysInMonth(d.year, d.month)
  }

  /** Days of year `y` before the first of month `m`: the lengths of the earlier months. */
  function DaysBeforeMonth(y: int, m: int): int
    requires 1 <= m <= 12
  {
    if m == 1 then 0 else DaysBeforeMonth(y, m - 1) + DaysInMonth(y, m - 1)
  }

  /** Days from 1 January of year 1 to 1 January of year `y`: the lengths of the earlier years. */
  function DaysBeforeYear(y: int): int
    requires 1 <= y
  {
    if y == 1 then 0 else DaysBeforeYear(y - 1) + YearLength(y - 1)
  }

  /** The reference count of days from 1 January 1970 to a valid date (719162 days lie
      between 1 January of year 1 and 1 January 1970). */
  function DaysFromCivil(d: Date): int
    requires ValidDate(d)
  {
    DaysBeforeYear(d.year) + DaysBeforeMonth(d.year, d.month) + d.day - 1 - 719162
  }

  /** Days from 1 March of year 0 to 1 March of year `x`, in closed form. */
  function DaysToMarchFirst(x: int): int {
    365 * x + x / 4 - x / 100 + x / 400
  }

  /** Splits day `doe` (0 to 146096) of a 400-year era that starts on 1 March into the year
      of the era and the day of that year: centuries of 36524 days (the last one a day
      longer), four-year cycles of 1461 days (the last one of a short century a day shorter),
      and years of 365 days (the last one of a cycle a day longer). The day of the year is
      what is left after the whole years, and only a year whose February has 29 days reaches
      day 365. */
  function YearOfEra(doe: int): (r: (int, int))
    requires 0 <= doe < 146097
    ensures 0 <= r.0 <= 399 && 0 <= r.1 <= 365
    ensures doe == 365 * r.0 + r.0 / 4 - r.0 / 100 + r.1
    ensures r.1 == 365 ==> IsLeapYear(r.0 + 1)
  {
    var c := if doe / 36524 < 3 then doe / 36524 else 3;
    var doc := doe - 36524 * c;
    var q := doc / 1461;
    var doq := doc - 1461 * q;
    var y := if doq / 365 < 3 then doq / 365 else 3;
    assert 0 <= q <= 24 && 0 <= doq <= 1460;
    var yoe := 100 * c + 4 * q + y;
    DivMod(yoe, 4, 25 * c + q, y);
    DivMod(yoe, 100, c, 4 * q + y);
    assert doq - 365 * y == 365 ==> y == 3 && (q == 24 ==> c == 3);
    LongEraYear(c, q);
    (yoe, doq - 365 * y)
  }

  /** The year after the last year of a four-year cycle is a leap year, unless it ends a
      century that is not the last one of the era. */
  lemma LongEraYear(c: int, q: int)
    requires 0 <= c <= 3 && 0 <= q <= 24
    ensures (q == 24 ==> c == 3) ==> IsLeapYear(100 * c + 4 * q + 4)
  {
    DivMod(100 * c + 4 * q + 4, 4, 25 * c + q + 1, 0);
    if q < 24 {
      DivMod(100 * c + 4 * q + 4, 100, c, 4 * q + 4);
    }
  }

  /** The month and day of day `doy` of a year that starts on 1 March. Counted in the
      months of a common year, `doy` is the days from 1 March to that day; a day past the
      length of a common month is only 29 February, on the last day of the year. */
  function MonthDay(doy: int): (r: (int, int))
    requires 0 <= doy <= 365
    ensures 1 <= r.0 <= 12 && 1 <= r.1
    ensures r.0 >= 3 ==> doy == DaysBeforeMonth(1, r.0) - 59 + r.1 - 1
    ensures r.0 <= 2 ==> doy == 306 + DaysBeforeMonth(1, r.0) + r.1 - 1
    ensures r.1 <= CommonMonthLength(r.0) || (r.0 == 2 && r.1 == 29 && doy == 365)
  {
    var mp := (5 * doy + 2) / 153;
    assert 0 <= mp <= 11;
    var day := doy - (153 * mp + 2) / 5 + 1;
    CommonMonthStarts();
    assert mp == 0 || mp == 1 || mp == 2 || mp == 3 || mp == 4 || mp == 5
        || mp == 6 || mp == 7 || mp == 8 || mp == 9 || mp == 10 || mp == 11;
    (if mp < 10 then mp + 3 else mp - 9, day)
  }

  /** The first days of the months of a common year. */
  lemma CommonMonthStarts()
    ensures DaysBeforeMonth(1, 1) == 0 && DaysBeforeMonth(1, 2) == 31 && DaysBeforeMonth(1, 3) == 59
    ensures DaysBeforeMonth(1, 4) == 90 && DaysBeforeMonth(1, 5) == 120 && DaysBeforeMonth(1, 6) == 151
    ensures DaysBeforeMonth(1, 7) == 181 && DaysBeforeMonth(1, 8) == 212 && DaysBeforeMonth(1, 9) == 243
    ensures DaysBeforeMonth(1, 10) == 273 && DaysBeforeMonth(1, 11) == 304 && DaysBeforeMonth(1, 12) == 334
  {
  }

  /** The civil (proleptic Gregorian) date of a timestamp, by the days-to-civil algorithm. */
  function CivilDate(t: Time): (d: Date)
    ensures 1 <= d.month <= 12 && 1 <= d.day <= 31 && 1600 <= d.year
  {
    var z := t / SecondsPerDay + 719468;
    var era := z / 146097;
    var doe := z % 146097;
    var yd := YearOfEra(doe);
    var md := MonthDay(yd.1);
    var year := yd.0 + era * 400 + (if md.0 <= 2 then 1 else 0);
    Date(year, md.0, md.1)
  }

  /** A leap year only adds a day after February. */
  lemma {:induction false} DaysBeforeMonthLeap(y: int, m: int)
    requires 1 <= m <= 12
    ensures DaysBeforeMonth(y, m) == DaysBeforeMonth(1, m) + (if m >= 3 && IsLeapYear(y) then 1 else 0)
  {
    if m > 1 {
      DaysBeforeMonthLeap(y, m - 1);
    }
  }

  /** Euclidean division by 4, 100, 400, 60 or 3600 is determined by its quotient and
      remainder. */
  lemma DivMod(x: int, k: int, q: int, r: int)
    requires k == 4 || k == 100 || k == 400 || k == 60 || k == 3600
    requires 0 <= r < k && x == k * q + r
    ensures x / k == q && x % k == r
  {
    if k == 4 {
      assert x == 4 * (x / 4) + x % 4;
    } else if k == 100 {
      assert x == 100 * (x / 100) + x % 100;
    } else if k == 400 {
      assert x == 400 * (x / 400) + x % 400;
    } else if k == 60 {
      assert x == 60 * (x / 60) + x % 60;
    } else {
      assert x == 3600 * (x / 3600) + x % 3600;
    }
  }

  /** The seconds since midnight split into an hour, a minute and a second. */
  lemma ClockSplit(secs: int)
    requires 0 <= secs < SecondsPerDay
    ensures secs / 3600 < 24 && secs % 3600 / 60 < 60 && secs % 60 < 60
    ensures secs / 3600 * 3600 + secs % 3600 / 60 * 60 + secs % 60 == secs
  {
    var h, r := secs / 3600, secs % 3600;
    DivMod(secs, 3600, h, r);
    var m, c := r / 60, r % 60;
    DivMod(r, 60, m, c);
    DivMod(secs, 60, 60 * h + m, c);
  }

  /** The quotient by `k` drops by one exactly when `x` is a multiple of `k`. */
  lemma PredecessorQuotient(x: int, k: int)
    requires k == 4 || k == 100 || k == 400
    ensures (x - 1) / k == (if x % k == 0 then x / k - 1 else x / k)
  {
    var q, m := x / k, x % k;
    assert x == k * q + m && 0 <= m < k;
    if m == 0 {
      DivMod(x - 1, k, q - 1, k - 1);
    } else {
      DivMod(x - 1, k, q, m - 1);
    }
  }

  /** A multiple of 400 is a multiple of 100, and a multiple of 100 a multiple of 4. */
  lemma MultipleChain(x: int)
    ensures x % 400 == 0 ==> x % 100 == 0
    ensures x % 100 == 0 ==> x % 4 == 0
  {
    if x % 400 == 0 {
      DivMod(x, 400, x / 400, 0);
      DivMod(x, 100, 4 * (x / 400), 0);
    }
    if x % 100 == 0 {
      DivMod(x, 100, x / 100, 0);
      DivMod(x, 4, 25 * (x / 100), 0);
    }
  }

  /** From 1 March of year `x - 1` to 1 March of year `x` lies the February of year `x`. */
  lemma MarchFirstStep(x: int)
    ensures DaysToMarchFirst(x) == DaysToMarchFirst(x - 1) + YearLength(x)
  {
    PredecessorQuotient(x, 4);
    PredecessorQuotient(x, 100);
    PredecessorQuotient(x, 400);
    MultipleChain(x);
  }

  /** Summing the year lengths gives the closed form. */
  lemma {:induction false} DaysBeforeYearClosed(y: int)
    requires 1 <= y
    ensures DaysBeforeYear(y) == DaysToMarchFirst(y - 1)
  {
    if y > 1 {
      DaysBeforeYearClosed(y - 1);
      MarchFirstStep(y - 1);
    }
  }

  /** A 400-year era has 146097 days, and the leap rule repeats every 400 years. */
  lemma EraShift(era: int, yoe: int)
    requires 0 <= era && 0 <= yoe <= 399
    ensures DaysToMarchFirst(400 * era + yoe) == 146097 * era + 365 * yoe + yoe / 4 - yoe / 100
    ensures IsLeapYear(400 * era + yoe + 1) == IsLeapYear(yoe + 1)
  {
    var x := 400 * era + yoe;
    DivMod(x, 4, 100 * era + yoe / 4, yoe % 4);
    DivMod(x, 100, 4 * era + yoe / 100, yoe % 100);
    DivMod(x, 400, era, yoe);
    var y := yoe + 1;
    DivMod(x + 1, 4, 100 * era + y / 4, y % 4);
    DivMod(x + 1, 100, 4 * era + y / 100, y % 100);
    DivMod(x + 1, 400, era + y / 400, y % 400);
  }

  /** The date built from year `y` counted from 1 March (so that January and February
      belong to the next civil year) and the month and day of day `doy` of that year. */
  function MarchYearDate(y: int, doy: int): Date
    requires 0 <= doy <= 365
  {
    var md := MonthDay(doy);
    Date(y + (if md.0 <= 2 then 1 else 0), md.0, md.1)
  }

  lemma MarchYearDateValid(y: int, doy: int)
    requires 1 <= y && 0 <= doy <= 365
    requires doy == 365 ==> IsLeapYear(y + 1)
    ensures ValidDate(MarchYearDate(y, doy))
  {
  }

  /** Day `doy` of the year starting on 1 March of year `y` is day
      `DaysToMarchFirst(y) + doy` counted from 1 March of year 0, which is 306 days
      before 1 January of year 1. */
  lemma MarchYearDateDays(y: int, doy: int)
    requires 1 <= y && 0 <= doy <= 365
    requires doy == 365 ==> IsLeapYear(y + 1)
    ensures ValidDate(MarchYearDate(y, doy))
    ensures DaysFromCivil(MarchYearDate(y, doy)) == DaysToMarchFirst(y) + doy - 306 - 719162
  {
    MarchYearDateValid(y, doy);
    var d := MarchYearDate(y, doy);
    DaysBeforeYearClosed(d.year);
    DaysBeforeMonthLeap(d.year, d.month);
    if d.month >= 3 {
      MarchFirstStep(y);
    }
  }

  /** The date of day `doe` of era `era` (counted in 400-year eras from 1 March of year 0)
      is valid and lies `146097 * era + doe - 306` days after 1 January of year 1. */
  lemma EraDayDate(era: int, doe: int)
    requires 1 <= era && 0 <= doe < 146097
    ensures ValidDate(MarchYearDate(400 * era + YearOfEra(doe).0, YearOfEra(doe).1))
    ensures DaysFromCivil(MarchYearDate(400 * era + YearOfEra(doe).0, YearOfEra(doe).1))
      == 146097 * era + doe - 306 - 719162
  {
    var yd := YearOfEra(doe);
    EraShift(era, yd.0);
    MarchYearDateDays(400 * era + yd.0, yd.1);
  }

  /** Every timestamp falls on a valid date, and counting the days from 1 January 1970 to
      that date with the reference month and year lengths gives back the day of the
      timestamp: the days-to-civil arithmetic inverts the calendar. */
  lemma CivilDateRoundTrip(t: Time)
    ensures ValidDate(CivilDate(t))
    ensures DaysFromCivil(CivilDate(t)) == t / SecondsPerDay
  {
    var z := t / SecondsPerDay + 719468;
    CivilDateByEra(t);
    EraDayDate(z / 146097, z % 146097);
  }

  /** The date of a timestamp is the date of its day within its 400-year era. */
  lemma CivilDateByEra(t: Time)
    ensures var z := t / SecondsPerDay + 719468;
      4 <= z / 146097 && 146097 * (z / 146097) + z % 146097 == z
      && CivilDate(t) == MarchYearDate(400 * (z / 146097) + YearOfEra(z % 146097).0, YearOfEra(z % 146097).1)
  {
  }

  /** `datetime.strftime("%d.%m.%Y")` of a timestamp. */
  function FormatTime(t: Time): string {
    FormatDate(CivilDate(t))
  }

  predicate AllDigits(s: string) {
    forall i :: 0 <= i < |s| ==> IsDigit(s[i])
  }

  /** `s` is a string of decimal digits whose value is `n`. */
  predicate Reads(s: string, n: int) {
    AllDigits(s) && DecimalValue(s) == n
  }

  /** `datetime.isoformat()` of a whole-second timestamp: `YYYY-MM-DDTHH:MM:SS`
      (the microsecond part is omitted when it is zero, as it always is on this clock). */
  function IsoFormat(t: Time): (s: string)
    ensures |s| >= 19 && s[|s| - 9] == 'T'
  {
    var d := CivilDate(t);
    var secs := t % SecondsPerDay;
    assert Pow10(2) == 100;
    var clock := PadDecimal(secs / 3600, 2) + ":" + PadDecimal(secs % 3600 / 60, 2) + ":" + PadDecimal(secs % 60, 2);
    PadDecimal(d.year, 4) + "-" + PadDecimal(d.month, 2) + "-" + PadDecimal(d.day, 2) + "T" + clock
  }

  /** An ISO timestamp reads back as its time: the date fields are the civil date of the
      time, and the clock fields are an hour, a minute and a second that add up to the
      seconds since midnight. */
  lemma IsoFormatReadsBack(t: Time)
    ensures var s := IsoFormat(t);
      s[|s| - 15] == '-' && s[|s| - 12] == '-' && s[|s| - 9] == 'T'
      && s[|s| - 6] == ':' && s[|s| - 3] == ':'
    ensures var s := IsoFormat(t);
      Reads(s[..|s| - 15], CivilDate(t).year)
      && Reads(s[|s| - 14..|s| - 12], CivilDate(t).month)
      && Reads(s[|s| - 11..|s| - 9], CivilDate(t).day)
    ensures var s := IsoFormat(t);
      var hh, mm, ss := s[|s| - 8..|s| - 6], s[|s| - 5..|s| - 3], s[|s| - 2..];
      AllDigits(hh) && AllDigits(mm) && AllDigits(ss)
      && DecimalValue(hh) < 24 && DecimalValue(mm) < 60 && DecimalValue(ss) < 60
      && DecimalValue(hh) * 3600 + DecimalValue(mm) * 60 + DecimalValue(ss) == t % SecondsPerDay
  {
    var d := CivilDate(t);
    var secs := t % SecondsPerDay;
    assert Pow10(2) == 100;
    var yy, mo, dd := PadDecimal(d.year, 4), PadDecimal(d.month, 2), PadDecimal(d.day, 2);
    var hh, mi, ss := PadDecimal(secs / 3600, 2), PadDecimal(secs % 3600 / 60, 2), PadDecimal(secs % 60, 2);
    var s := yy + "-" + mo + "-" + dd + "T" + hh + ":" + mi + ":" + ss;
    assert IsoFormat(t) == s;
    ClockSplit(secs);
    IsoFields(s, yy, mo, dd, hh, mi, ss);
  }

  /** Where the fields of an ISO timestamp of two-digit month, day and clock fields lie. */
  lemma IsoFields(s: string, yy: string, mo: string, dd: string, hh: string, mi: string, ss: string)
    requires |mo| == 2 && |dd| == 2 && |hh| == 2 && |mi| == 2 && |ss| == 2
    requires s == yy + "-" + mo + "-" + dd + "T" + hh + ":" + mi + ":" + ss
    ensures |s| == |yy| + 15
    ensures s[|s| - 15] == '-' && s[|s| - 12] == '-' && s[|s| - 9] == 'T'
      && s[|s| - 6] == ':' && s[|s| - 3] == ':'
    ensures s[..|s| - 15] == yy && s[|s| - 14..|s| - 12] == mo && s[|s| - 11..|s| - 9] == dd
    ensures s[|s| - 8..|s| - 6] == hh && s[|s| - 5..|s| - 3] == mi && s[|s| - 2..] == ss
  {
  }

  /** 1 October 2025 renders as "01.10.2025". */
  lemma FormatTimeExample()
    ensures FormatTime(20362 * SecondsPerDay) == "01.10.2025"
  {
    CivilDateExample();
    PadDecimalExamples();
  }

  /** One hour, two minutes and three seconds into 1 October 2025 renders as
      "2025-10-01T01:02:03". */
  lemma IsoFormatExample()
    ensures IsoFormat(20362 * SecondsPerDay + 3723) == "2025-10-01T01:02:03"
  {
    var t := 20362 * SecondsPerDay + 3723;
    IsoExampleDate();
    IsoExampleClock();
    PadDecimalExamples();
    assert IsoFormat(t) == PadDecimal(2025, 4) + "-" + PadDecimal(10, 2) + "-" + PadDecimal(1, 2)
      + "T" + PadDecimal(1, 2) + ":" + PadDecimal(2, 2) + ":" + PadDecimal(3, 2);
    IsoExampleText();
  }

  lemma IsoExampleText()
    ensures "2025" + "-" + "10" + "-" + "01" + "T" + "01" + ":" + "02" + ":" + "03" == "2025-10-01T01:02:03"
  {
  }

  lemma IsoExampleDate()
    ensures CivilDate(20362 * SecondsPerDay + 3723) == Date(2025, 10, 1)
  {
    assert (20362 * SecondsPerDay + 3723) / SecondsPerDay == 20362;
    assert 739830 / 146097 == 5 && 739830 % 146097 == 9345;
    assert YearOfEra(9345) == (25, 214) by {
      assert 9345 / 36524 == 0 && 9345 / 1461 == 6 && 579 / 365 == 1;
    }
    assert MonthDay(214) == (10, 1) by {
      assert (5 * 214 + 2) / 153 == 7 && (153 * 7 + 2) / 5 == 214;
    }
  }

  lemma IsoExampleClock()
    ensures var secs := (20362 * SecondsPerDay + 3723) % SecondsPerDay;
      secs / 3600 == 1 && secs % 3600 / 60 == 2 && secs % 60 == 3
    ensures PadDecimal(2, 2) == "02" && PadDecimal(3, 2) == "03"
  {
    assert (20362 * SecondsPerDay + 3723) % SecondsPerDay == 3723;
    assert PadDecimal(2, 1) == "2" && PadDecimal(3, 1) == "3";
  }

  /** Day 20362 after the epoch is 1 October 2025 (day 9345 of the era starting in 2000). */
  lemma CivilDateExample()
    ensures CivilDate(20362 * SecondsPerDay) == Date(2025, 10, 1)
  {
    var t := 20362 * SecondsPerDay;
    assert t / SecondsPerDay == 20362;
    assert 739830 / 146097 == 5 && 739830 % 146097 == 9345;
    assert YearOfEra(9345) == (25, 214) by {
      assert 9345 / 36524 == 0 && 9345 / 1461 == 6 && 579 / 365 == 1;
    }
    assert MonthDay(214) == (10, 1) by {
      assert (5 * 214 + 2) / 153 == 7 && (153 * 7 + 2) / 5 == 214;
    }
  }

  lemma PadDecimalExamples()
    ensures PadDecimal(1, 2) == "01" && PadDecimal(10, 2) == "10" && PadDecimal(2025, 4) == "2025"
  {
    assert PadDecimal(1, 2) == "01";
    assert PadDecimal(10, 2) == "10";
    assert PadDecimal(2, 1) == "2";
    assert PadDecimal(20, 2) == "20";
    assert PadDecimal(202, 3) == "202";
  }
}

=== FILE: classifier_cases.dfy ===
/** The reply sentences the classifier is expected to recognise (tests/test_ai.py), and the
    scanning lemmas that let the verifier settle that a keyword does NOT occur in one. */
module ClassifierCases {
  import opened ResponseAnalyzer

  /** The one- or two-character pattern `pat` starts at `i` in the lowered `text`. */
  predicate MatchesLoweredAt(text: string, pat: string, i: nat) {
    1 <= |pat| <= 2 && i + |pat| <= |text|
    && LowerChar(text[i]) == pat[0] && (|pat| == 1 || LowerChar(text[i + 1]) == pat[1])
  }

  /** No match of `pat` in the lowered `text` starts at or after `i`; written as a scan so
      that it can be evaluated on a literal. */
  predicate PatternFreeFrom(text: string, pat: string, i: nat)
    decreases |text| - i
  {
    if i >= |text| || i + |pat| > |text| then true
    else if MatchesLoweredAt(text, pat, i) then false
    else PatternFreeFrom(text, pat, i + 1)
  }

  lemma {:induction false} PatternFreeMeans(text: string, pat: string, i: nat, j: nat)
    requires PatternFreeFrom(text, pat, i) && i <= j && j + |pat| <= |text| && 1 <= |pat|
    ensures !MatchesLoweredAt(text, pat, j)
    decreases j - i
  {
    if i < j {
      PatternFreeMeans(text, pat, i + 1, j);
    }
  }

  lemma {:induction false} PatternFreeIntro(text: string, pat: string, i: nat)
    requires 1 <= |pat|
    requires forall j :: i <= j && j + |pat| <= |text| ==> !MatchesLoweredAt(text, pat, j)
    ensures PatternFreeFrom(text, pat, i)
    decreases |text| - i
  {
    if i < |text| && i + |pat| <= |text| {
      PatternFreeIntro(text, pat, i + 1);
    }
  }

  /** A match inside the left piece of `a + b` would be a match in `a`. */
  lemma NoMatchInLeft(a: string, b: string, pat: string, j: nat)
    requires 1 <= |pat| <= 2 && PatternFreeFrom(a, pat, 0) && j + |pat| <= |a|
    ensures !MatchesLoweredAt(a + b, pat, j)
  {
    PatternFreeMeans(a, pat, 0, j);
    assert (a + b)[j] == a[j];
    if |pat| == 2 {
      assert (a + b)[j + 1] == a[j + 1];
    }
  }

  /** A match inside the right piece of `a + b` would be a match in `b`. */
  lemma NoMatchInRight(a: string, b: string, pat: string, j: nat)
    requires 1 <= |pat| <= 2 && PatternFreeFrom(b, pat, 0) && |a| <= j && j + |pat| <= |a| + |b|
    ensures !MatchesLoweredAt(a + b, pat, j)
  {
    PatternFreeMeans(b, pat, 0, j - |a|);
    assert (a + b)[j] == b[j - |a|];
    if |pat| == 2 {
      assert (a + b)[j + 1] == b[j + 1 - |a|];
    }
  }

  /** Two pattern-free pieces with no match across the seam join into a pattern-free text. */
  lemma PatternFreeAppend(a: string, b: string, pat: string)
    requires 1 <= |pat| <= 2 && |a| > 0 && |b| > 0
    requires PatternFreeFrom(a, pat, 0) && PatternFreeFrom(b, pat, 0)
    requires |pat| == 2 ==> !(LowerChar(a[|a| - 1]) == pat[0] && LowerChar(b[0]) == pat[1])
    ensures PatternFreeFrom(a + b, pat, 0)
  {
    forall j | 0 <= j && j + |pat| <= |a + b| ensures !MatchesLoweredAt(a + b, pat, j) {
      if j + |pat| <= |a| {
        NoMatchInLeft(a, b, pat, j);
      } else if j >= |a| {
        NoMatchInRight(a, b, pat, j);
      } else {
        assert (a + b)[j] == a[|a| - 1] && (a + b)[j + 1] == b[0];
      }
    }
    PatternFreeIntro(a + b, pat, 0);
  }

  /** A keyword containing a pattern that never occurs in the lowered text does not occur in
      it either. */
  lemma PatternExcludes(text: string, pat: string, kw: string, p: nat)
    requires 1 <= |pat| <= 2 && PatternFreeFrom(text, pat, 0)
    requires p + |pat| <= |kw| && kw[p] == pat[0] && (|pat| == 2 ==> kw[p + 1] == pat[1])
    ensures !Occurs(kw, Lower(text))
  {
    if Occurs(kw, Lower(text)) {
      var m :| OccursAt(kw, Lower(text), m);
      assert Lower(text)[m + p] == kw[p] == pat[0];
      if |pat| == 2 {
        assert Lower(text)[m + p + 1] == kw[p + 1] == pat[1];
      }
      PatternFreeMeans(text, pat, 0, m + p);
    }
  }

  /** Ihre Daten wurden vollständig gelöscht. */
  const CompletedReply := CompletedPart0 + (CompletedPart1 + (CompletedPart2 + CompletedPart3))
  const CompletedPart0 := "Ihre Daten"
  const CompletedPart1 := " wurden vo"
  const CompletedPart2 := "llständig "
  const CompletedPart3 := "gelöscht."
  /** Wir haben Ihre Anfrage erhalten und werden diese bearbeiten. */
  const AcknowledgedReply := AcknowledgedPart0 + (AcknowledgedPart1 + (AcknowledgedPart2 + (AcknowledgedPart3 + (AcknowledgedPart4 + AcknowledgedPart5))))
  const AcknowledgedPart0 := "Wir haben "
  const AcknowledgedPart1 := "Ihre Anfra"
  const AcknowledgedPart2 := "ge erhalte"
  const AcknowledgedPart3 := "n und werd"
  const AcknowledgedPart4 := "en diese b"
  const AcknowledgedPart5 := "earbeiten."
  /** Wir können Ihre Anfrage leider nicht erfüllen aufgrund gesetzlicher Aufbewahrungspflichten. */
  const RejectedReply := RejectedPart0 + (RejectedPart1 + (RejectedPart2 + (RejectedPart3 + (RejectedPart4 + (RejectedPart5 + (RejectedPart6 + (RejectedPart7 + (RejectedPart8 + RejectedPart9))))))))
  const RejectedPart0 := "Wir können"
  const RejectedPart1 := " Ihre Anfr"
  const RejectedPart2 := "age leider"
  const RejectedPart3 := " nicht erf"
  const RejectedPart4 := "üllen aufg"
  const RejectedPart5 := "rund geset"
  const RejectedPart6 := "zlicher Au"
  const RejectedPart7 := "fbewahrung"
  const RejectedPart8 := "spflichten"
  const RejectedPart9 := "."
  /** Zur Identifizierung benötigen wir weitere Informationen von Ihnen. */
  const NeedsInfoReply := NeedsInfoPart0 + (NeedsInfoPart1 + (NeedsInfoPart2 + (NeedsInfoPart3 + (NeedsInfoPart4 + (NeedsInfoPart5 + NeedsInfoPart6)))))
  const NeedsInfoPart0 := "Zur Identi"
  const NeedsInfoPart1 := "fizierung "
  const NeedsInfoPart2 := "benötigen "
  const NeedsInfoPart3 := "wir weiter"
  const NeedsInfoPart4 := "e Informat"
  const NeedsInfoPart5 := "ionen von "
  const NeedsInfoPart6 := "Ihnen."

  /** The keyword classifier reads this reply as RespCompleted. */
  lemma CompletedReplyClassifies()
    ensures KeywordAnalyze(CompletedReply).kind == RespCompleted
  {
    assert Lower(CompletedReply)[30..38] == "gelöscht";
    assert OccursAt("gelöscht", Lower(CompletedReply), 30);
    assert CompletionKeywords[0] == "gelöscht";
    assert Mentions(CompletedReply, CompletionKeywords);
  }

  lemma AcknowledgedTailAvoidsCFrom1()
    ensures PatternFreeFrom(AcknowledgedPart1 + (AcknowledgedPart2 + (AcknowledgedPart3 + (AcknowledgedPart4 + AcknowledgedPart5))), "c", 0)
  {
    PatternFreeAppend(AcknowledgedPart4, AcknowledgedPart5, "c");
    PatternFreeAppend(AcknowledgedPart3, AcknowledgedPart4 + AcknowledgedPart5, "c");
    PatternFreeAppend(AcknowledgedPart2, AcknowledgedPart3 + (AcknowledgedPart4 + AcknowledgedPart5), "c");
    PatternFreeAppend(AcknowledgedPart1, AcknowledgedPart2 + (AcknowledgedPart3 + (AcknowledgedPart4 + AcknowledgedPart5)), "c");
  }

  /** The lowered reply contains no 'c'. */
  lemma AcknowledgedReplyAvoidsC()
    ensures PatternFreeFrom(AcknowledgedReply, "c", 0)
  {
    AcknowledgedTailAvoidsCFrom1();
    PatternFreeAppend(AcknowledgedPart0, AcknowledgedPart1 + (AcknowledgedPart2 + (AcknowledgedPart3 + (AcknowledgedPart4 + AcknowledgedPart5))), "c");
  }

  lemma AcknowledgedTailAvoidsOFrom1()
    ensures PatternFreeFrom(AcknowledgedPart1 + (AcknowledgedPart2 + (AcknowledgedPart3 + (AcknowledgedPart4 + AcknowledgedPart5))), "o", 0)
  {
    PatternFreeAppend(AcknowledgedPart4, AcknowledgedPart5, "o");
    PatternFreeAppend(AcknowledgedPart3, AcknowledgedPart4 + AcknowledgedPart5, "o");
    PatternFreeAppend(AcknowledgedPart2, AcknowledgedPart3 + (AcknowledgedPart4 + AcknowledgedPart5), "o");
    PatternFreeAppend(AcknowledgedPart1, AcknowledgedPart2 + (AcknowledgedPart3 + (AcknowledgedPart4 + AcknowledgedPart5)), "o");
  }

  /** The lowered reply contains no 'o'. */
  lemma AcknowledgedReplyAvoidsO()
    ensures PatternFreeFrom(AcknowledgedReply, "o", 0)
  {
    AcknowledgedTailAvoidsOFrom1();
    PatternFreeAppend(AcknowledgedPart0, AcknowledgedPart1 + (AcknowledgedPart2 + (AcknowledgedPart3 + (AcknowledgedPart4 + AcknowledgedPart5))), "o");
  }

  lemma AcknowledgedTailAvoidsElFrom1()
    ensures PatternFreeFrom(AcknowledgedPart1 + (AcknowledgedPart2 + (AcknowledgedPart3 + (AcknowledgedPart4 + AcknowledgedPart5))), "el", 0)
  {
    PatternFreeAppend(AcknowledgedPart4, AcknowledgedPart5, "el");
    PatternFreeAppend(AcknowledgedPart3, AcknowledgedPart4 + AcknowledgedPart5, "el");
    PatternFreeAppend(AcknowledgedPart2, AcknowledgedPart3 + (AcknowledgedPart4 + AcknowledgedPart5), "el");
    PatternFreeAppend(AcknowledgedPart1, AcknowledgedPart2 + (AcknowledgedPart3 + (AcknowledgedPart4 + AcknowledgedPart5)), "el");
  }

  /** The lowered reply contains no 'el'. */
  lemma AcknowledgedReplyAvoidsEl()
    ensures PatternFreeFrom(AcknowledgedReply, "el", 0)
  {
    AcknowledgedTailAvoidsElFrom1();
    PatternFreeAppend(AcknowledgedPart0, AcknowledgedPart1 + (AcknowledgedPart2 + (AcknowledgedPart3 + (AcknowledgedPart4 + AcknowledgedPart5))), "el");
  }

  lemma AcknowledgedTailAvoidsTfFrom1()
    ensures PatternFreeFrom(AcknowledgedPart1 + (AcknowledgedPart2 + (AcknowledgedPart3 + (AcknowledgedPart4 + AcknowledgedPart5))), "tf", 0)
  {
    PatternFreeAppend(AcknowledgedPart4, AcknowledgedPart5, "tf");
    PatternFreeAppend(AcknowledgedPart3, AcknowledgedPart4 + AcknowledgedPart5, "tf");
    PatternFreeAppend(AcknowledgedPart2, AcknowledgedPart3 + (AcknowledgedPart4 + AcknowledgedPart5), "tf");
    PatternFreeAppend(AcknowledgedPart1, AcknowledgedPart2 + (AcknowledgedPart3 + (AcknowledgedPart4 + AcknowledgedPart5)), "tf");
  }

  /** The lowered reply contains no 'tf'. */
  lemma AcknowledgedReplyAvoidsTf()
    ensures PatternFreeFrom(AcknowledgedReply, "tf", 0)
  {
    AcknowledgedTailAvoidsTfFrom1();
    PatternFreeAppend(AcknowledgedPart0, AcknowledgedPart1 + (AcknowledgedPart2 + (AcknowledgedPart3 + (AcknowledgedPart4 + AcknowledgedPart5))), "tf");
  }

  /** No completion keyword occurs in the lowered reply. */
  lemma AcknowledgedReplyLacksCompletion()
    ensures !Mentions(AcknowledgedReply, CompletionKeywords)
  {
    AcknowledgedReplyAvoidsC();
    AcknowledgedReplyAvoidsO();
    AcknowledgedReplyAvoidsEl();
    AcknowledgedReplyAvoidsTf();
    forall j | 0 <= j < |CompletionKeywords| ensures !Occurs(CompletionKeywords[j], Lower(AcknowledgedReply)) {
      if j == 0 {
        PatternExcludes(AcknowledgedReply, "c", "gelöscht", 5);
      } else if j == 1 {
        PatternExcludes(AcknowledgedReply, "el", "deleted", 1);
      } else if j == 2 {
        PatternExcludes(AcknowledgedReply, "tf", "entfernt", 2);
      } else if j == 3 {
        PatternExcludes(AcknowledgedReply, "o", "removed", 3);
      } else if j == 4 {
        PatternExcludes(AcknowledgedReply, "c", "vollständig gelöscht", 17);
      } else {
        PatternExcludes(AcknowledgedReply, "c", "completely deleted", 0);
      }
    }
  }

  /** The keyword classifier reads this reply as RespAcknowledged. */
  lemma AcknowledgedReplyClassifies()
    ensures KeywordAnalyze(AcknowledgedReply).kind == RespAcknowledged
  {
    AcknowledgedReplyLacksCompletion();
    assert Lower(AcknowledgedReply)[23..31] == "erhalten";
    assert OccursAt("erhalten", Lower(AcknowledgedReply), 23);
    assert AcknowledgementKeywords[1] == "erhalten";
    assert Mentions(AcknowledgedReply, AcknowledgementKeywords);
  }

  lemma RejectedTailAvoidsOFrom5()
    ensures PatternFreeFrom(RejectedPart5 + (RejectedPart6 + (RejectedPart7 + (RejectedPart8 + RejectedPart9))), "o", 0)
  {
    PatternFreeAppend(RejectedPart8, RejectedPart9, "o");
    PatternFreeAppend(RejectedPart7, RejectedPart8 + RejectedPart9, "o");
    PatternFreeAppend(RejectedPart6, RejectedPart7 + (RejectedPart8 + RejectedPart9), "o");
    PatternFreeAppend(RejectedPart5, RejectedPart6 + (RejectedPart7 + (RejectedPart8 + RejectedPart9)), "o");
  }

  lemma RejectedTailAvoidsOFrom1()
    ensures PatternFreeFrom(RejectedPart1 + (RejectedPart2 + (RejectedPart3 + (RejectedPart4 + (RejectedPart5 + (RejectedPart6 + (RejectedPart7 + (RejectedPart8 + RejectedPart9))))))), "o", 0)
  {
    RejectedTailAvoidsOFrom5();
    PatternFreeAppend(RejectedPart4, RejectedPart5 + (RejectedPart6 + (RejectedPart7 + (RejectedPart8 + RejectedPart9))), "o");
    PatternFreeAppend(RejectedPart3, RejectedPart4 + (RejectedPart5 + (RejectedPart6 + (RejectedPart7 + (RejectedPart8 + RejectedPart9)))), "o");
    PatternFreeAppend(RejectedPart2, RejectedPart3 + (RejectedPart4 + (RejectedPart5 + (RejectedPart6 + (RejectedPart7 + (RejectedPart8 + RejectedPart9))))), "o");
    PatternFreeAppend(RejectedPart1, RejectedPart2 + (RejectedPart3 + (RejectedPart4 + (RejectedPart5 + (RejectedPart6 + (RejectedPart7 + (RejectedPart8 + RejectedPart9)))))), "o");
  }

  /** The lowered reply contains no 'o'. */
  lemma RejectedReplyAvoidsO()
    ensures PatternFreeFrom(RejectedReply, "o", 0)
  {
    RejectedTailAvoidsOFrom1();
    PatternFreeAppend(RejectedPart0, RejectedPart1 + (RejectedPart2 + (RejectedPart3 + (RejectedPart4 + (RejectedPart5 + (RejectedPart6 + (RejectedPart7 + (RejectedPart8 + RejectedPart9))))))), "o");
  }

  lemma RejectedTailAvoidsVFrom5()
    ensures PatternFreeFrom(RejectedPart5 + (RejectedPart6 + (RejectedPart7 + (RejectedPart8 + RejectedPart9))), "v", 0)
  {
    PatternFreeAppend(RejectedPart8, RejectedPart9, "v");
    PatternFreeAppend(RejectedPart7, RejectedPart8 + RejectedPart9, "v");
    PatternFreeAppend(RejectedPart6, RejectedPart7 + (RejectedPart8 + RejectedPart9), "v");
    PatternFreeAppend(RejectedPart5, RejectedPart6 + (RejectedPart7 + (RejectedPart8 + RejectedPart9)), "v");
  }

  lemma RejectedTailAvoidsVFrom1()
    ensures PatternFreeFrom(RejectedPart1 + (RejectedPart2 + (RejectedPart3 + (RejectedPart4 + (RejectedPart5 + (RejectedPart6 + (RejectedPart7 + (RejectedPart8 + RejectedPart9))))))), "v", 0)
  {
    RejectedTailAvoidsVFrom5();
    PatternFreeAppend(RejectedPart4, RejectedPart5 + (RejectedPart6 + (RejectedPart7 + (RejectedPart8 + RejectedPart9))), "v");
    PatternFreeAppend(RejectedPart3, RejectedPart4 + (RejectedPart5 + (RejectedPart6 + (RejectedPart7 + (RejectedPart8 + RejectedPart9)))), "v");
    PatternFreeAppend(RejectedPart2, RejectedPart3 + (RejectedPart4 + (RejectedPart5 + (RejectedPart6 + (RejectedPart7 + (RejectedPart8 + RejectedPart9))))), "v");
    PatternFreeAppend(RejectedPart1, RejectedPart2 + (RejectedPart3 + (RejectedPart4 + (RejectedPart5 + (RejectedPart6 + (RejectedPart7 + (RejectedPart8 + RejectedPart9)))))), "v");
  }

  /** The lowered reply contains no 'v'. */
  lemma RejectedReplyAvoidsV()
    ensures PatternFreeFrom(RejectedReply, "v", 0)
  {
    RejectedTailAvoidsVFrom1();
    PatternFreeAppend(RejectedPart0, RejectedPart1 + (RejectedPart2 + (RejectedPart3 + (RejectedPart4 + (RejectedPart5 + (RejectedPart6 + (RejectedPart7 + (RejectedPart8 + RejectedPart9))))))), "v");
  }

  lemma RejectedTailAvoidsAeFrom5()
    ensures PatternFreeFrom(RejectedPart5 + (RejectedPart6 + (RejectedPart7 + (RejectedPart8 + RejectedPart9))), "ä", 0)
  {
    PatternFreeAppend(RejectedPart8, RejectedPart9, "ä");
    PatternFreeAppend(RejectedPart7, RejectedPart8 + RejectedPart9, "ä");
    PatternFreeAppend(RejectedPart6, RejectedPart7 + (RejectedPart8 + RejectedPart9), "ä");
    PatternFreeAppend(RejectedPart5, RejectedPart6 + (RejectedPart7 + (RejectedPart8 + RejectedPart9)), "ä");
  }

  lemma RejectedTailAvoidsAeFrom1()
    ensures PatternFreeFrom(RejectedPart1 + (RejectedPart2 + (RejectedPart3 + (RejectedPart4 + (RejectedPart5 + (RejectedPart6 + (RejectedPart7 + (RejectedPart8 + RejectedPart9))))))), "ä", 0)
  {
    RejectedTailAvoidsAeFrom5();
    PatternFreeAppend(RejectedPart4, RejectedPart5 + (RejectedPart6 + (RejectedPart7 + (RejectedPart8 + RejectedPart9))), "ä");
    PatternFreeAppend(RejectedPart3, RejectedPart4 + (RejectedPart5 + (RejectedPart6 + (RejectedPart7 + (RejectedPart8 + RejectedPart9)))), "ä");
    PatternFreeAppend(RejectedPart2, RejectedPart3 + (RejectedPart4 + (RejectedPart5 + (RejectedPart6 + (RejectedPart7 + (RejectedPart8 + RejectedPart9))))), "ä");
    PatternFreeAppend(RejectedPart1, RejectedPart2 + (RejectedPart3 + (RejectedPart4 + (RejectedPart5 + (RejectedPart6 + (RejectedPart7 + (RejectedPart8 + RejectedPart9)))))), "ä");
  }

  /** The lowered reply contains no 'ä'. */
  lemma RejectedReplyAvoidsAe()
    ensures PatternFreeFrom(RejectedReply, "ä", 0)
  {
    RejectedTailAvoidsAeFrom1();
    PatternFreeAppend(RejectedPart0, RejectedPart1 + (RejectedPart2 + (RejectedPart3 + (RejectedPart4 + (RejectedPart5 + (RejectedPart6 + (RejectedPart7 + (RejectedPart8 + RejectedPart9))))))), "ä");
  }

  lemma RejectedTailAvoidsElFrom5()
    ensures PatternFreeFrom(RejectedPart5 + (RejectedPart6 + (RejectedPart7 + (RejectedPart8 + RejectedPart9))), "el", 0)
  {
    PatternFreeAppend(RejectedPart8, RejectedPart9, "el");
    PatternFreeAppend(RejectedPart7, RejectedPart8 + RejectedPart9, "el");
    PatternFreeAppend(RejectedPart6, RejectedPart7 + (RejectedPart8 + RejectedPart9), "el");
    PatternFreeAppend(RejectedPart5, RejectedPart6 + (RejectedPart7 + (RejectedPart8 + RejectedPart9)), "el");
  }

  lemma RejectedTailAvoidsElFrom1()
    ensures PatternFreeFrom(RejectedPart1 + (RejectedPart2 + (RejectedPart3 + (RejectedPart4 + (RejectedPart5 + (RejectedPart6 + (RejectedPart7 + (RejectedPart8 + RejectedPart9))))))), "el", 0)
  {
    RejectedTailAvoidsElFrom5();
    PatternFreeAppend(RejectedPart4, RejectedPart5 + (RejectedPart6 + (RejectedPart7 + (RejectedPart8 + RejectedPart9))), "el");
    PatternFreeAppend(RejectedPart3, RejectedPart4 + (RejectedPart5 + (RejectedPart6 + (RejectedPart7 + (RejectedPart8 + RejectedPart9)))), "el");
    PatternFreeAppend(RejectedPart2, RejectedPart3 + (RejectedPart4 + (RejectedPart5 + (RejectedPart6 + (RejectedPart7 + (RejectedPart8 + RejectedPart9))))), "el");
    PatternFreeAppend(RejectedPart1, RejectedPart2 + (RejectedPart3 + (RejectedPart4 + (RejectedPart5 + (RejectedPart6 + (RejectedPart7 + (RejectedPart8 + RejectedPart9)))))), "el");
  }

  /** The lowered reply contains no 'el'. */
  lemma RejectedReplyAvoidsEl()
    ensures PatternFreeFrom(RejectedReply, "el", 0)
  {
    RejectedTailAvoidsElFrom1();
    PatternFreeAppend(RejectedPart0, RejectedPart1 + (RejectedPart2 + (RejectedPart3 + (RejectedPart4 + (RejectedPart5 + (RejectedPart6 + (RejectedPart7 + (RejectedPart8 + RejectedPart9))))))), "el");
  }

  lemma RejectedTailAvoidsTfFrom5()
    ensures PatternFreeFrom(RejectedPart5 + (RejectedPart6 + (RejectedPart7 + (RejectedPart8 + RejectedPart9))), "tf", 0)
  {
    PatternFreeAppend(RejectedPart8, RejectedPart9, "tf");
    PatternFreeAppend(RejectedPart7, RejectedPart8 + RejectedPart9, "tf");
    PatternFreeAppend(RejectedPart6, RejectedPart7 + (RejectedPart8 + RejectedPart9), "tf");
    PatternFreeAppend(RejectedPart5, RejectedPart6 + (RejectedPart7 + (RejectedPart8 + RejectedPart9)), "tf");
  }

  lemma RejectedTailAvoidsTfFrom1()
    ensures PatternFreeFrom(RejectedPart1 + (RejectedPart2 + (RejectedPart3 + (RejectedPart4 + (RejectedPart5 + (RejectedPart6 + (RejectedPart7 + (RejectedPart8 + RejectedPart9))))))), "tf", 0)
  {
    RejectedTailAvoidsTfFrom5();
    PatternFreeAppend(RejectedPart4, RejectedPart5 + (RejectedPart6 + (RejectedPart7 + (RejectedPart8 + RejectedPart9))), "tf");
    PatternFreeAppend(RejectedPart3, RejectedPart4 + (RejectedPart5 + (RejectedPart6 + (RejectedPart7 + (RejectedPart8 + RejectedPart9)))), "tf");
    PatternFreeAppend(RejectedPart2, RejectedPart3 + (RejectedPart4 + (RejectedPart5 + (RejectedPart6 + (RejectedPart7 + (RejectedPart8 + RejectedPart9))))), "tf");
    PatternFreeAppend(RejectedPart1, RejectedPart2 + (RejectedPart3 + (RejectedPart4 + (RejectedPart5 + (RejectedPart6 + (RejectedPart7 + (RejectedPart8 + RejectedPart9)))))), "tf");
  }

  /** The lowered reply contains no 'tf'. */
  lemma RejectedReplyAvoidsTf()
    ensures PatternFreeFrom(RejectedReply, "tf", 0)
  {
    RejectedTailAvoidsTfFrom1();
    PatternFreeAppend(RejectedPart0, RejectedPart1 + (RejectedPart2 + (RejectedPart3 + (RejectedPart4 + (RejectedPart5 + (RejectedPart6 + (RejectedPart7 + (RejectedPart8 + RejectedPart9))))))), "tf");
  }

  lemma RejectedTailAvoidsRhFrom5()
    ensures PatternFreeFrom(RejectedPart5 + (RejectedPart6 + (RejectedPart7 + (RejectedPart8 + RejectedPart9))), "rh", 0)
  {
    PatternFreeAppend(RejectedPart8, RejectedPart9, "rh");
    PatternFreeAppend(RejectedPart7, RejectedPart8 + RejectedPart9, "rh");
    PatternFreeAppend(RejectedPart6, RejectedPart7 + (RejectedPart8 + RejectedPart9), "rh");
    PatternFreeAppend(RejectedPart5, RejectedPart6 + (RejectedPart7 + (RejectedPart8 + RejectedPart9)), "rh");
  }

  lemma RejectedTailAvoidsRhFrom1()
    ensures PatternFreeFrom(RejectedPart1 + (RejectedPart2 + (RejectedPart3 + (RejectedPart4 + (RejectedPart5 + (RejectedPart6 + (RejectedPart7 + (RejectedPart8 + RejectedPart9))))))), "rh", 0)
  {
    RejectedTailAvoidsRhFrom5();
    PatternFreeAppend(RejectedPart4, RejectedPart5 + (RejectedPart6 + (RejectedPart7 + (RejectedPart8 + RejectedPart9))), "rh");
    PatternFreeAppend(RejectedPart3, RejectedPart4 + (RejectedPart5 + (RejectedPart6 + (RejectedPart7 + (RejectedPart8 + RejectedPart9)))), "rh");
    PatternFreeAppend(RejectedPart2, RejectedPart3 + (RejectedPart4 + (RejectedPart5 + (RejectedPart6 + (RejectedPart7 + (RejectedPart8 + RejectedPart9))))), "rh");
    PatternFreeAppend(RejectedPart1, RejectedPart2 + (RejectedPart3 + (RejectedPart4 + (RejectedPart5 + (RejectedPart6 + (RejectedPart7 + (RejectedPart8 + RejectedPart9)))))), "rh");
  }

  /** The lowered reply contains no 'rh'. */
  lemma RejectedReplyAvoidsRh()
    ensures PatternFreeFrom(RejectedReply, "rh", 0)
  {
    RejectedTailAvoidsRhFrom1();
    PatternFreeAppend(RejectedPart0, RejectedPart1 + (RejectedPart2 + (RejectedPart3 + (RejectedPart4 + (RejectedPart5 + (RejectedPart6 + (RejectedPart7 + (RejectedPart8 + RejectedPart9))))))), "rh");
  }

  lemma RejectedTailAvoidsRbFrom5()
    ensures PatternFreeFrom(RejectedPart5 + (RejectedPart6 + (RejectedPart7 + (RejectedPart8 + RejectedPart9))), "rb", 0)
  {
    PatternFreeAppend(RejectedPart8, RejectedPart9, "rb");
    PatternFreeAppend(RejectedPart7, RejectedPart8 + RejectedPart9, "rb");
    PatternFreeAppend(RejectedPart6, RejectedPart7 + (RejectedPart8 + RejectedPart9), "rb");
    PatternFreeAppend(RejectedPart5, RejectedPart6 + (RejectedPart7 + (RejectedPart8 + RejectedPart9)), "rb");
  }

  lemma RejectedTailAvoidsRbFrom1()
    ensures PatternFreeFrom(RejectedPart1 + (RejectedPart2 + (RejectedPart3 + (RejectedPart4 + (RejectedPart5 + (RejectedPart6 + (RejectedPart7 + (RejectedPart8 + RejectedPart9))))))), "rb", 0)
  {
    RejectedTailAvoidsRbFrom5();
    PatternFreeAppend(RejectedPart4, RejectedPart5 + (RejectedPart6 + (RejectedPart7 + (RejectedPart8 + RejectedPart9))), "rb");
    PatternFreeAppend(RejectedPart3, RejectedPart4 + (RejectedPart5 + (RejectedPart6 + (RejectedPart7 + (RejectedPart8 + RejectedPart9)))), "rb");
    PatternFreeAppend(RejectedPart2, RejectedPart3 + (RejectedPart4 + (RejectedPart5 + (RejectedPart6 + (RejectedPart7 + (RejectedPart8 + RejectedPart9))))), "rb");
    PatternFreeAppend(RejectedPart1, RejectedPart2 + (RejectedPart3 + (RejectedPart4 + (RejectedPart5 + (RejectedPart6 + (RejectedPart7 + (RejectedPart8 + RejectedPart9)))))), "rb");
  }

  /** The lowered reply contains no 'rb'. */
  lemma RejectedReplyAvoidsRb()
    ensures PatternFreeFrom(RejectedReply, "rb", 0)
  {
    RejectedTailAvoidsRbFrom1();
    PatternFreeAppend(RejectedPart0, RejectedPart1 + (RejectedPart2 + (RejectedPart3 + (RejectedPart4 + (RejectedPart5 + (RejectedPart6 + (RejectedPart7 + (RejectedPart8 + RejectedPart9))))))), "rb");
  }

  lemma RejectedTailAvoidsPrFrom5()
    ensures PatternFreeFrom(RejectedPart5 + (RejectedPart6 + (RejectedPart7 + (RejectedPart8 + RejectedPart9))), "pr", 0)
  {
    PatternFreeAppend(RejectedPart8, RejectedPart9, "pr");
    PatternFreeAppend(RejectedPart7, RejectedPart8 + RejectedPart9, "pr");
    PatternFreeAppend(RejectedPart6, RejectedPart7 + (RejectedPart8 + RejectedPart9), "pr");
    PatternFreeAppend(RejectedPart5, RejectedPart6 + (RejectedPart7 + (RejectedPart8 + RejectedPart9)), "pr");
  }

  lemma RejectedTailAvoidsPrFrom1()
    ensures PatternFreeFrom(RejectedPart1 + (RejectedPart2 + (RejectedPart3 + (RejectedPart4 + (RejectedPart5 + (RejectedPart6 + (RejectedPart7 + (RejectedPart8 + RejectedPart9))))))), "pr", 0)
  {
    RejectedTailAvoidsPrFrom5();
    PatternFreeAppend(RejectedPart4, RejectedPart5 + (RejectedPart6 + (RejectedPart7 + (RejectedPart8 + RejectedPart9))), "pr");
    PatternFreeAppend(RejectedPart3, RejectedPart4 + (RejectedPart5 + (RejectedPart6 + (RejectedPart7 + (RejectedPart8 + RejectedPart9)))), "pr");
    PatternFreeAppend(RejectedPart2, RejectedPart3 + (RejectedPart4 + (RejectedPart5 + (RejectedPart6 + (RejectedPart7 + (RejectedPart8 + RejectedPart9))))), "pr");
    PatternFreeAppend(RejectedPart1, RejectedPart2 + (RejectedPart3 + (RejectedPart4 + (RejectedPart5 + (RejectedPart6 + (RejectedPart7 + (RejectedPart8 + RejectedPart9)))))), "pr");
  }

  /** The lowered reply contains no 'pr'. */
  lemma RejectedReplyAvoidsPr()
    ensures PatternFreeFrom(RejectedReply, "pr", 0)
  {
    RejectedTailAvoidsPrFrom1();
    PatternFreeAppend(RejectedPart0, RejectedPart1 + (RejectedPart2 + (RejectedPart3 + (RejectedPart4 + (RejectedPart5 + (RejectedPart6 + (RejectedPart7 + (RejectedPart8 + RejectedPart9))))))), "pr");
  }

  /** No completion keyword occurs in the lowered reply. */
  lemma RejectedReplyLacksCompletion()
    ensures !Mentions(RejectedReply, CompletionKeywords)
  {
    RejectedReplyAvoidsO();
    RejectedReplyAvoidsEl();
    RejectedReplyAvoidsTf();
    forall j | 0 <= j < |CompletionKeywords| ensures !Occurs(CompletionKeywords[j], Lower(RejectedReply)) {
      if j == 0 {
        PatternExcludes(RejectedReply, "el", "gelöscht", 1);
      } else if j == 1 {
        PatternExcludes(RejectedReply, "el", "deleted", 1);
      } else if j == 2 {
        PatternExcludes(RejectedReply, "tf", "entfernt", 2);
      } else if j == 3 {
        PatternExcludes(RejectedReply, "o", "removed", 3);
      } else if j == 4 {
        PatternExcludes(RejectedReply, "o", "vollständig gelöscht", 1);
      } else {
        PatternExcludes(RejectedReply, "o", "completely deleted", 1);
      }
    }
  }

  /** No acknowledgement keyword occurs in the lowered reply. */
  lemma RejectedReplyLacksAcknowledgement()
    ensures !Mentions(RejectedReply, AcknowledgementKeywords)
  {
    RejectedReplyAvoidsO();
    RejectedReplyAvoidsV();
    RejectedReplyAvoidsAe();
    RejectedReplyAvoidsRh();
    RejectedReplyAvoidsRb();
    RejectedReplyAvoidsPr();
    forall j | 0 <= j < |AcknowledgementKeywords| ensures !Occurs(AcknowledgementKeywords[j], Lower(RejectedReply)) {
      if j == 0 {
        PatternExcludes(RejectedReply, "ä", "bestätigen", 4);
      } else if j == 1 {
        PatternExcludes(RejectedReply, "rh", "erhalten", 1);
      } else if j == 2 {
        PatternExcludes(RejectedReply, "rb", "bearbeiten", 3);
      } else if j == 3 {
        PatternExcludes(RejectedReply, "pr", "prüfen", 0);
      } else if j == 4 {
        PatternExcludes(RejectedReply, "o", "acknowledge", 4);
      } else if j == 5 {
        PatternExcludes(RejectedReply, "v", "received", 5);
      } else {
        PatternExcludes(RejectedReply, "o", "processing", 2);
      }
    }
  }

  /** The keyword classifier reads this reply as RespRejected. */
  lemma RejectedReplyClassifies()
    ensures KeywordAnalyze(RejectedReply).kind == RespRejected
  {
    RejectedReplyLacksCompletion();
    RejectedReplyLacksAcknowledgement();
    RejectedReplyMentionsRejection();
  }

  /** "nicht erfüllen" occurs at position 31 of the lowered reply. */
  lemma RejectedReplyMentionsRejection()
    ensures Mentions(RejectedReply, RejectionKeywords)
  {
    assert Lower(RejectedReply)[31..45] == "nicht erfüllen";
    assert OccursAt("nicht erfüllen", Lower(RejectedReply), 31);
    assert RejectionKeywords[3] == "nicht erfüllen";
  }

  lemma NeedsInfoTailAvoidsLFrom2()
    ensures PatternFreeFrom(NeedsInfoPart2 + (NeedsInfoPart3 + (NeedsInfoPart4 + (NeedsInfoPart5 + NeedsInfoPart6))), "l", 0)
  {
    PatternFreeAppend(NeedsInfoPart5, NeedsInfoPart6, "l");
    PatternFreeAppend(NeedsInfoPart4, NeedsInfoPart5 + NeedsInfoPart6, "l");
    PatternFreeAppend(NeedsInfoPart3, NeedsInfoPart4 + (NeedsInfoPart5 + NeedsInfoPart6), "l");
    PatternFreeAppend(NeedsInfoPart2, NeedsInfoPart3 + (NeedsInfoPart4 + (NeedsInfoPart5 + NeedsInfoPart6)), "l");
  }

  /** The lowered reply contains no 'l'. */
  lemma NeedsInfoReplyAvoidsL()
    ensures PatternFreeFrom(NeedsInfoReply, "l", 0)
  {
    NeedsInfoTailAvoidsLFrom2();
    PatternFreeAppend(NeedsInfoPart1, NeedsInfoPart2 + (NeedsInfoPart3 + (NeedsInfoPart4 + (NeedsInfoPart5 + NeedsInfoPart6))), "l");
    PatternFreeAppend(NeedsInfoPart0, NeedsInfoPart1 + (NeedsInfoPart2 + (NeedsInfoPart3 + (NeedsInfoPart4 + (NeedsInfoPart5 + NeedsInfoPart6)))), "l");
  }

  lemma NeedsInfoTailAvoidsCFrom2()
    ensures PatternFreeFrom(NeedsInfoPart2 + (NeedsInfoPart3 + (NeedsInfoPart4 + (NeedsInfoPart5 + NeedsInfoPart6))), "c", 0)
  {
    PatternFreeAppend(NeedsInfoPart5, NeedsInfoPart6, "c");
    PatternFreeAppend(NeedsInfoPart4, NeedsInfoPart5 + NeedsInfoPart6, "c");
    PatternFreeAppend(NeedsInfoPart3, NeedsInfoPart4 + (NeedsInfoPart5 + NeedsInfoPart6), "c");
    PatternFreeAppend(NeedsInfoPart2, NeedsInfoPart3 + (NeedsInfoPart4 + (NeedsInfoPart5 + NeedsInfoPart6)), "c");
  }

  /** The lowered reply contains no 'c'. */
  lemma NeedsInfoReplyAvoidsC()
    ensures PatternFreeFrom(NeedsInfoReply, "c", 0)
  {
    NeedsInfoTailAvoidsCFrom2();
    PatternFreeAppend(NeedsInfoPart1, NeedsInfoPart2 + (NeedsInfoPart3 + (NeedsInfoPart4 + (NeedsInfoPart5 + NeedsInfoPart6))), "c");
    PatternFreeAppend(NeedsInfoPart0, NeedsInfoPart1 + (NeedsInfoPart2 + (NeedsInfoPart3 + (NeedsInfoPart4 + (NeedsInfoPart5 + NeedsInfoPart6)))), "c");
  }

  lemma NeedsInfoTailAvoidsSFrom2()
    ensures PatternFreeFrom(NeedsInfoPart2 + (NeedsInfoPart3 + (NeedsInfoPart4 + (NeedsInfoPart5 + NeedsInfoPart6))), "s", 0)
  {
    PatternFreeAppend(NeedsInfoPart5, NeedsInfoPart6, "s");
    PatternFreeAppend(NeedsInfoPart4, NeedsInfoPart5 + NeedsInfoPart6, "s");
    PatternFreeAppend(NeedsInfoPart3, NeedsInfoPart4 + (NeedsInfoPart5 + NeedsInfoPart6), "s");
    PatternFreeAppend(NeedsInfoPart2, NeedsInfoPart3 + (NeedsInfoPart4 + (NeedsInfoPart5 + NeedsInfoPart6)), "s");
  }

  /** The lowered reply contains no 's'. */
  lemma NeedsInfoReplyAvoidsS()
    ensures PatternFreeFrom(NeedsInfoReply, "s", 0)
  {
    NeedsInfoTailAvoidsSFrom2();
    PatternFreeAppend(NeedsInfoPart1, NeedsInfoPart2 + (NeedsInfoPart3 + (NeedsInfoPart4 + (NeedsInfoPart5 + NeedsInfoPart6))), "s");
    PatternFreeAppend(NeedsInfoPart0, NeedsInfoPart1 + (NeedsInfoPart2 + (NeedsInfoPart3 + (NeedsInfoPart4 + (NeedsInfoPart5 + NeedsInfoPart6)))), "s");
  }

  lemma NeedsInfoTailAvoidsPFrom2()
    ensures PatternFreeFrom(NeedsInfoPart2 + (NeedsInfoPart3 + (NeedsInfoPart4 + (NeedsInfoPart5 + NeedsInfoPart6))), "p", 0)
  {
    PatternFreeAppend(NeedsInfoPart5, NeedsInfoPart6, "p");
    PatternFreeAppend(NeedsInfoPart4, NeedsInfoPart5 + NeedsInfoPart6, "p");
    PatternFreeAppend(NeedsInfoPart3, NeedsInfoPart4 + (NeedsInfoPart5 + NeedsInfoPart6), "p");
    PatternFreeAppend(NeedsInfoPart2, NeedsInfoPart3 + (NeedsInfoPart4 + (NeedsInfoPart5 + NeedsInfoPart6)), "p");
  }

  /** The lowered reply contains no 'p'. */
  lemma NeedsInfoReplyAvoidsP()
    ensures PatternFreeFrom(NeedsInfoReply, "p", 0)
  {
    NeedsInfoTailAvoidsPFrom2();
    PatternFreeAppend(NeedsInfoPart1, NeedsInfoPart2 + (NeedsInfoPart3 + (NeedsInfoPart4 + (NeedsInfoPart5 + NeedsInfoPart6))), "p");
    PatternFreeAppend(NeedsInfoPart0, NeedsInfoPart1 + (NeedsInfoPart2 + (NeedsInfoPart3 + (NeedsInfoPart4 + (NeedsInfoPart5 + NeedsInfoPart6)))), "p");
  }

  lemma NeedsInfoTailAvoidsTfFrom2()
    ensures PatternFreeFrom(NeedsInfoPart2 + (NeedsInfoPart3 + (NeedsInfoPart4 + (NeedsInfoPart5 + NeedsInfoPart6))), "tf", 0)
  {
    PatternFreeAppend(NeedsInfoPart5, NeedsInfoPart6, "tf");
    PatternFreeAppend(NeedsInfoPart4, NeedsInfoPart5 + NeedsInfoPart6, "tf");
    PatternFreeAppend(NeedsInfoPart3, NeedsInfoPart4 + (NeedsInfoPart5 + NeedsInfoPart6), "tf");
    PatternFreeAppend(NeedsInfoPart2, NeedsInfoPart3 + (NeedsInfoPart4 + (NeedsInfoPart5 + NeedsInfoPart6)), "tf");
  }

  /** The lowered reply contains no 'tf'. */
  lemma NeedsInfoReplyAvoidsTf()
    ensures PatternFreeFrom(NeedsInfoReply, "tf", 0)
  {
    NeedsInfoTailAvoidsTfFrom2();
    PatternFreeAppend(NeedsInfoPart1, NeedsInfoPart2 + (NeedsInfoPart3 + (NeedsInfoPart4 + (NeedsInfoPart5 + NeedsInfoPart6))), "tf");
    PatternFreeAppend(NeedsInfoPart0, NeedsInfoPart1 + (NeedsInfoPart2 + (NeedsInfoPart3 + (NeedsInfoPart4 + (NeedsInfoPart5 + NeedsInfoPart6)))), "tf");
  }

  lemma NeedsInfoTailAvoidsOvFrom2()
    ensures PatternFreeFrom(NeedsInfoPart2 + (NeedsInfoPart3 + (NeedsInfoPart4 + (NeedsInfoPart5 + NeedsInfoPart6))), "ov", 0)
  {
    PatternFreeAppend(NeedsInfoPart5, NeedsInfoPart6, "ov");
    PatternFreeAppend(NeedsInfoPart4, NeedsInfoPart5 + NeedsInfoPart6, "ov");
    PatternFreeAppend(NeedsInfoPart3, NeedsInfoPart4 + (NeedsInfoPart5 + NeedsInfoPart6), "ov");
    PatternFreeAppend(NeedsInfoPart2, NeedsInfoPart3 + (NeedsInfoPart4 + (NeedsInfoPart5 + NeedsInfoPart6)), "ov");
  }

  /** The lowered reply contains no 'ov'. */
  lemma NeedsInfoReplyAvoidsOv()
    ensures PatternFreeFrom(NeedsInfoReply, "ov", 0)
  {
    NeedsInfoTailAvoidsOvFrom2();
    PatternFreeAppend(NeedsInfoPart1, NeedsInfoPart2 + (NeedsInfoPart3 + (NeedsInfoPart4 + (NeedsInfoPart5 + NeedsInfoPart6))), "ov");
    PatternFreeAppend(NeedsInfoPart0, NeedsInfoPart1 + (NeedsInfoPart2 + (NeedsInfoPart3 + (NeedsInfoPart4 + (NeedsInfoPart5 + NeedsInfoPart6)))), "ov");
  }

  lemma NeedsInfoTailAvoidsRbFrom2()
    ensures PatternFreeFrom(NeedsInfoPart2 + (NeedsInfoPart3 + (NeedsInfoPart4 + (NeedsInfoPart5 + NeedsInfoPart6))), "rb", 0)
  {
    PatternFreeAppend(NeedsInfoPart5, NeedsInfoPart6, "rb");
    PatternFreeAppend(NeedsInfoPart4, NeedsInfoPart5 + NeedsInfoPart6, "rb");
    PatternFreeAppend(NeedsInfoPart3, NeedsInfoPart4 + (NeedsInfoPart5 + NeedsInfoPart6), "rb");
    PatternFreeAppend(NeedsInfoPart2, NeedsInfoPart3 + (NeedsInfoPart4 + (NeedsInfoPart5 + NeedsInfoPart6)), "rb");
  }

  /** The lowered reply contains no 'rb'. */
  lemma NeedsInfoReplyAvoidsRb()
    ensures PatternFreeFrom(NeedsInfoReply, "rb", 0)
  {
    NeedsInfoTailAvoidsRbFrom2();
    PatternFreeAppend(NeedsInfoPart1, NeedsInfoPart2 + (NeedsInfoPart3 + (NeedsInfoPart4 + (NeedsInfoPart5 + NeedsInfoPart6))), "rb");
    PatternFreeAppend(NeedsInfoPart0, NeedsInfoPart1 + (NeedsInfoPart2 + (NeedsInfoPart3 + (NeedsInfoPart4 + (NeedsInfoPart5 + NeedsInfoPart6)))), "rb");
  }

  /** No completion keyword occurs in the lowered reply. */
  lemma NeedsInfoReplyLacksCompletion()
    ensures !Mentions(NeedsInfoReply, CompletionKeywords)
  {
    NeedsInfoReplyAvoidsL();
    NeedsInfoReplyAvoidsTf();
    NeedsInfoReplyAvoidsOv();
    forall j | 0 <= j < |CompletionKeywords| ensures !Occurs(CompletionKeywords[j], Lower(NeedsInfoReply)) {
      if j == 0 {
        PatternExcludes(NeedsInfoReply, "l", "gelöscht", 2);
      } else if j == 1 {
        PatternExcludes(NeedsInfoReply, "l", "deleted", 2);
      } else if j == 2 {
        PatternExcludes(NeedsInfoReply, "tf", "entfernt", 2);
      } else if j == 3 {
        PatternExcludes(NeedsInfoReply, "ov", "removed", 3);
      } else if j == 4 {
        PatternExcludes(NeedsInfoReply, "l", "vollständig gelöscht", 14);
      } else {
        PatternExcludes(NeedsInfoReply, "l", "completely deleted", 13);
      }
    }
  }

  /** No acknowledgement keyword occurs in the lowered reply. */
  lemma NeedsInfoReplyLacksAcknowledgement()
    ensures !Mentions(NeedsInfoReply, AcknowledgementKeywords)
  {
    NeedsInfoReplyAvoidsL();
    NeedsInfoReplyAvoidsC();
    NeedsInfoReplyAvoidsS();
    NeedsInfoReplyAvoidsP();
    NeedsInfoReplyAvoidsRb();
    forall j | 0 <= j < |AcknowledgementKeywords| ensures !Occurs(AcknowledgementKeywords[j], Lower(NeedsInfoReply)) {
      if j == 0 {
        PatternExcludes(NeedsInfoReply, "s", "bestätigen", 2);
      } else if j == 1 {
        PatternExcludes(NeedsInfoReply, "l", "erhalten", 4);
      } else if j == 2 {
        PatternExcludes(NeedsInfoReply, "rb", "bearbeiten", 3);
      } else if j == 3 {
        PatternExcludes(NeedsInfoReply, "p", "prüfen", 0);
      } else if j == 4 {
        PatternExcludes(NeedsInfoReply, "l", "acknowledge", 6);
      } else if j == 5 {
        PatternExcludes(NeedsInfoReply, "c", "received", 2);
      } else {
        PatternExcludes(NeedsInfoReply, "c", "processing", 3);
      }
    }
  }

  /** The first nine rejection keywords do not occur in the lowered reply. */
  lemma NeedsInfoReplyLacksShortRejections()
    ensures forall j :: 0 <= j < 9 ==> !Occurs(RejectionKeywords[j], Lower(NeedsInfoReply))
  {
    NeedsInfoReplyAvoidsL();
    NeedsInfoReplyAvoidsC();
    forall j | 0 <= j < 9 ensures !Occurs(RejectionKeywords[j], Lower(NeedsInfoReply)) {
      if j == 0 {
        PatternExcludes(NeedsInfoReply, "l", "ablehnen", 2);
      } else if j == 1 {
        PatternExcludes(NeedsInfoReply, "l", "abgelehnt", 4);
      } else if j == 2 {
        PatternExcludes(NeedsInfoReply, "l", "nicht möglich", 9);
      } else if j == 3 {
        PatternExcludes(NeedsInfoReply, "l", "nicht erfüllen", 11);
      } else if j == 4 {
        PatternExcludes(NeedsInfoReply, "c", "reject", 4);
      } else if j == 5 {
        PatternExcludes(NeedsInfoReply, "c", "rejected", 4);
      } else if j == 6 {
        PatternExcludes(NeedsInfoReply, "c", "cannot", 0);
      } else if j == 7 {
        PatternExcludes(NeedsInfoReply, "c", "can not", 0);
      } else {
        PatternExcludes(NeedsInfoReply, "l", "unable", 4);
      }
    }
  }

  /** Nor do the remaining eight. */
  lemma NeedsInfoReplyLacksLongRejections()
    ensures forall j :: 9 <= j < 17 ==> !Occurs(RejectionKeywords[j], Lower(NeedsInfoReply))
  {
    NeedsInfoReplyAvoidsL();
    NeedsInfoReplyAvoidsC();
    forall j | 9 <= j < 17 ensures !Occurs(RejectionKeywords[j], Lower(NeedsInfoReply)) {
      if j == 9 {
        PatternExcludes(NeedsInfoReply, "l", "gesetzliche aufbewahrungspflicht", 27);
      } else if j == 10 {
        PatternExcludes(NeedsInfoReply, "l", "gesetzlichen aufbewahrungspflichten", 28);
      } else if j == 11 {
        PatternExcludes(NeedsInfoReply, "l", "aufbewahrungspflicht", 15);
      } else if j == 12 {
        PatternExcludes(NeedsInfoReply, "l", "aufbewahrungspflichten", 15);
      } else if j == 13 {
        PatternExcludes(NeedsInfoReply, "l", "legal obligation", 8);
      } else if j == 14 {
        PatternExcludes(NeedsInfoReply, "l", "legal obligations", 8);
      } else if j == 15 {
        PatternExcludes(NeedsInfoReply, "l", "retention obligation", 12);
      } else {
        PatternExcludes(NeedsInfoReply, "l", "retention obligations", 12);
      }
    }
  }

  /** No rejection keyword occurs in the lowered reply. */
  lemma NeedsInfoReplyLacksRejection()
    ensures !Mentions(NeedsInfoReply, RejectionKeywords)
  {
    NeedsInfoReplyLacksShortRejections();
    NeedsInfoReplyLacksLongRejections();
    assert |RejectionKeywords| == 17;
  }

  /** The keyword classifier reads this reply as RespNeedsInfo. */
  lemma NeedsInfoReplyClassifies()
    ensures KeywordAnalyze(NeedsInfoReply).kind == RespNeedsInfo
  {
    NeedsInfoReplyLacksCompletion();
    NeedsInfoReplyLacksAcknowledgement();
    NeedsInfoReplyLacksRejection();
    assert Lower(NeedsInfoReply)[4..19] == "identifizierung";
    assert OccursAt("identifizierung", Lower(NeedsInfoReply), 4);
    assert InformationKeywords[2] == "identifizierung";
    assert Mentions(NeedsInfoReply, InformationKeywords);
  }
}

=== FILE: generator.dfy ===
/** Message composition (src/ai/request_generator.py): subjects from the subject table,
    bodies from template rendering, optionally replaced by a language-model rewrite. */
module RequestGenerator {
  import opened Wrappers
  import opened Models
  import opened Calendar
  import opened Templates

  /** What the language model returned for a rewrite request. */
  datatype ModelOutcome = Generated(text: string) | NoText | GenerationError

  /** `use_ai and self.ollama`: the model is configured and was reachable at construction. */
  datatype Generator = TemplatesOnly | WithModel(outcome: ModelOutcome)

  /** Python truthiness of an optional string. */
  predicate Truthy(s: Option<string>) {
    s.Some? && |s.value| > 0
  }

  /** The deletion template rendered for this company and requester. */
  function DeletionTemplate(company: Company, userName: Option<string>, userEmail: Option<string>,
                            reason: Option<string>, language: string, now: Time): Result<Body, string> {
    RenderTemplate(TypeValue(Deletion), language, Some(company.name), userName, userEmail, reason, None, None, now)
  }

  /** `_generate_ai_enhanced_request`: renders the base template (which can fail), then uses
      the model's text unless it is empty, missing or the call raised. */
  function AiEnhancedBody(outcome: ModelOutcome, company: Company, userName: Option<string>,
                          userEmail: Option<string>, reason: Option<string>, language: string, now: Time): (r: Result<Body, string>)
    ensures DeletionTemplate(company, userName, userEmail, reason, language, now).Failure? ==>
      r == DeletionTemplate(company, userName, userEmail, reason, language, now)
    ensures DeletionTemplate(company, userName, userEmail, reason, language, now).Success? ==>
      r.Success? &&
      (if outcome.Generated? && |outcome.text| > 0 then r.value == AiWritten(outcome.text)
       else r == DeletionTemplate(company, userName, userEmail, reason, language, now))
  {
    match DeletionTemplate(company, userName, userEmail, reason, language, now)
    case Failure(e) => Failure(e)
    case Success(base) =>
      match outcome
      case Generated(text) => if |text| > 0 then Success(AiWritten(text)) else Success(base)
      case _ => Success(base)
  }

  /** `generate_deletion_request`: the subject always comes from the subject table; the
      model's rewrite is used only with a model, a non-empty reason and a non-empty reply;
      otherwise the body is the rendered template. Fails exactly for a language without a
      deletion template. */
  function GenerateDeletionRequest(gen: Generator, company: Company, userName: Option<string>,
                                   userEmail: Option<string>, reason: Option<string>,
                                   language: string, now: Time): (r: Result<(string, Body), string>)
    ensures r.Success? <==> language in {"de", "en"}
    ensures r.Success? ==> r.value.0 == GetSubject(Deletion, language)
    ensures r.Success? && r.value.1.AiWritten? ==>
      gen.WithModel? && Truthy(reason) && gen.outcome == Generated(r.value.1.text) && |r.value.1.text| > 0
    ensures r.Success? && gen.WithModel? && Truthy(reason) && gen.outcome.Generated? && |gen.outcome.text| > 0 ==>
      r.value.1 == AiWritten(gen.outcome.text)
    ensures r.Success? && !(gen.WithModel? && Truthy(reason) && gen.outcome.Generated? && |gen.outcome.text| > 0) ==>
      r.value.1.Templated? && Some(r.value.1.template) == TemplateFor("deletion", language)
      && r.value.1.vars.companyName == Some(company.name) && r.value.1.vars.userName == userName
      && r.value.1.vars.userEmail == userEmail && r.value.1.vars.reason == reason
  {
    var subject := GetSubject(Deletion, language);
    var body :=
      if gen.WithModel? && Truthy(reason) then AiEnhancedBody(gen.outcome, company, userName, userEmail, reason, language, now)
      else DeletionTemplate(company, userName, userEmail, reason, language, now);
    match body
    case Failure(e) => Failure(e)
    case Success(b) => Success((subject, b))
  }

  /** `generate_reminder`: reminder subject, reminder template, original date as `dd.mm.yyyy`;
      fails (no template) for any language but "de". */
  function GenerateReminder(company: Company, originalDate: Time, userName: Option<string>,
                            language: string, now: Time): (r: Result<(string, Body), string>)
    ensures r.Success? <==> language == "de"
    ensures r.Success? ==> (r.value.0 == GetReminderSubject(language)
      && r.value.1.Templated? && r.value.1.template == ReminderDe
      && r.value.1.vars.originalDate == Some(FormatTime(originalDate))
      && r.value.1.vars.companyName == Some(company.name) && r.value.1.vars.userName == userName)
  {
    var subject := GetReminderSubject(language);
    match RenderTemplate("reminder", language, Some(company.name), userName, None, None,
                         Some(FormatTime(originalDate)), None, now)
    case Failure(e) => Failure(e)
    case Success(b) => Success((subject, b))
  }

  /** `generate_escalation`: as the reminder, with the escalation subject and template. */
  function GenerateEscalation(company: Company, originalDate: Time, userName: Option<string>,
                              language: string, now: Time): (r: Result<(string, Body), string>)
    ensures r.Success? <==> language == "de"
    ensures r.Success? ==> (r.value.0 == GetEscalationSubject(language)
      && r.value.1.Templated? && r.value.1.template == EscalationDe
      && r.value.1.vars.originalDate == Some(FormatTime(originalDate))
      && r.value.1.vars.companyName == Some(company.name) && r.value.1.vars.userName == userName)
  {
    var subject := GetEscalationSubject(language);
    match RenderTemplate("escalation", language, Some(company.name), userName, None, None,
                         Some(FormatTime(originalDate)), None, now)
    case Failure(e) => Failure(e)
    case Success(b) => Success((subject, b))
  }

  /** A reminder for a request first sent on 1 October 2025 carries "01.10.2025". */
  lemma ReminderDateExample(company: Company, now: Time)
    ensures GenerateReminder(company, 20362 * SecondsPerDay, None, "de", now).Success?
    ensures GenerateReminder(company, 20362 * SecondsPerDay, None, "de", now).value.1.vars.originalDate == Some("01.10.2025")
  {
    FormatTimeExample();
  }
}

=== FILE: models.dfy ===
/** Records and enumerations of the request tracker (src/core/models.py).
    Timestamps are seconds since the Unix epoch on the model's single clock. */
module Models {
  import opened Wrappers

  type Time = nat

  /** Kind of data-protection request (articles 15, 16, 17 and 21 of the GDPR). */
  datatype RequestType = Deletion | Access | Rectification | Objection

  /** Lifecycle status of a request. */
  datatype RequestStatus = Draft | Pending | Sent | Acknowledged | Completed | Rejected | Escalated | Failed

  const AllRequestTypes: seq<RequestType> := [Deletion, Access, Rectification, Objection]
  const AllStatuses: seq<RequestStatus> :=
    [Draft, Pending, Sent, Acknowledged, Completed, Rejected, Escalated, Failed]

  /** The string stored in the `request_type` column. */
  function TypeValue(t: RequestType): string {
    match t
    case Deletion => "deletion"
    case Access => "access"
    case Rectification => "rectification"
    case Objection => "objection"
  }

  /** `RequestType(v)`: `None` where Python raises ValueError. */
  function TypeFromValue(v: string): (r: Option<RequestType>)
    ensures r.Some? ==> TypeValue(r.value) == v
  {
    if v == "deletion" then Some(Deletion)
    else if v == "access" then Some(Access)
    else if v == "rectification" then Some(Rectification)
    else if v == "objection" then Some(Objection)
    else None
  }

  /** The string stored in the `status` column. */
  function StatusValue(s: RequestStatus): string {
    match s
    case Draft => "draft"
    case Pending => "pending"
    case Sent => "sent"
    case Acknowledged => "acknowledged"
    case Completed => "completed"
    case Rejected => "rejected"
    case Escalated => "escalated"
    case Failed => "failed"
  }

  /** `RequestStatus(v)`: `None` where Python raises ValueError. */
  function StatusFromValue(v: string): (r: Option<RequestStatus>)
    ensures r.Some? ==> StatusValue(r.value) == v
  {
    if v == "draft" then Some(Draft)
    else if v == "pending" then Some(Pending)
    else if v == "sent" then Some(Sent)
    else if v == "acknowledged" then Some(Acknowledged)
    else if v == "completed" then Some(Completed)
    else if v == "rejected" then Some(Rejected)
    else if v == "escalated" then Some(Escalated)
    else if v == "failed" then Some(Failed)
    else None
  }

  /** Reading a stored status back yields the status that was written, and
      exactly the eight listed strings are accepted. */
  lemma StatusValueRoundTrip(s: RequestStatus, v: string)
    ensures StatusFromValue(StatusValue(s)) == Some(s)
    ensures StatusFromValue(v).Some? <==> v in ["draft", "pending", "sent", "acknowledged",
                                                  "completed", "rejected", "escalated", "failed"]
  {
  }

  /** The same for request types: four accepted strings, each read back as written. */
  lemma TypeValueRoundTrip(t: RequestType, v: string)
    ensures TypeFromValue(TypeValue(t)) == Some(t)
    ensures TypeFromValue(v).Some? <==> v in ["deletion", "access", "rectification", "objection"]
  {
  }

  /** The enumerations have exactly eight and four distinct members. */
  lemma EnumerationsAreComplete(s: RequestStatus, t: RequestType)
    ensures s in AllStatuses && t in AllRequestTypes
    ensures |AllStatuses| == 8 && |AllRequestTypes| == 4
    ensures forall i, j :: 0 <= i < j < |AllStatuses| ==> AllStatuses[i] != AllStatuses[j]
    ensures forall i, j :: 0 <= i < j < |AllRequestTypes| ==> AllRequestTypes[i] != AllRequestTypes[j]
  {
  }

  /** COMPLETED and REJECTED end the lifecycle. */
  predicate IsTerminal(s: RequestStatus) {
    s == Completed || s == Rejected
  }

  /** A company; `id` stays `None` until the store assigns one. */
  datatype Company = Company(
    id: Option<int>,
    name: string,
    email: string,
    website: Option<string>,
    dataProtectionOfficer: Option<string>,
    address: Option<string>,
    notes: Option<string>,
    createdAt: Time,
    updatedAt: Time)

  /** Identifies one of the four templates that exist; the template text is not modelled. */
  datatype TemplateId = DeletionDe | DeletionEn | ReminderDe | EscalationDe

  /** The variables a template is rendered with. */
  datatype TemplateVars = TemplateVars(
    companyName: Option<string>,
    userName: Option<string>,
    userEmail: Option<string>,
    reason: Option<string>,
    originalDate: Option<string>,
    date: string)

  /** A request body: a rendered template (named by template and bindings) or text
      written by the language model. */
  datatype Body = Templated(template: TemplateId, vars: TemplateVars) | AiWritten(text: string)

  /** A data-protection request. */
  datatype GdprRequest = GdprRequest(
    id: Option<int>,
    companyId: int,
    companyName: string,
    requestType: RequestType,
    status: RequestStatus,
    subject: string,
    body: Body,
    userName: Option<string>,
    userEmail: Option<string>,
    reason: Option<string>,
    createdAt: Time,
    sentAt: Option<Time>,
    acknowledgedAt: Option<Time>,
    completedAt: Option<Time>,
    deadline: Option<Time>,
    reminderCount: int,
    lastReminderAt: Option<Time>,
    responseText: Option<string>,
    notes: Option<string>)

  /** A scheduled follow-up action. `taskType` and `status` are free strings, as in the source. */
  datatype WorkflowTask = WorkflowTask(
    id: Option<int>,
    requestId: int,
    taskType: string,
    scheduledAt: Time,
    executedAt: Option<Time>,
    status: string,
    result: Option<string>,
    error: Option<string>)

  const TaskPending := "pending"
  const TaskCompleted := "completed"
  const TaskFailed := "failed"
  const ReminderTask := "send_reminder"
  const EscalationTask := "send_escalation"

  /** `Company(name=..., email=...)` with every optional field left at its default. */
  function NewCompany(name: string, email: string, now: Time): (c: Company)
    ensures c.id.None? && c.name == name && c.email == email
    ensures c.website.None? && c.dataProtectionOfficer.None? && c.address.None? && c.notes.None?
  {
    Company(None, name, email, None, None, None, None, now, now)
  }

  /** `GDPRRequest(...)` built from the required fields; status DRAFT, no reminders,
      every optional timestamp and text `None`. */
  function NewRequest(companyId: int, companyName: string, requestType: RequestType,
                      subject: string, body: Body, userName: Option<string>,
                      userEmail: Option<string>, reason: Option<string>, now: Time): (r: GdprRequest)
    ensures r.id.None? && r.status == Draft && r.reminderCount == 0
    ensures r.sentAt.None? && r.acknowledgedAt.None? && r.completedAt.None? && r.deadline.None?
    ensures r.lastReminderAt.None? && r.responseText.None? && r.notes.None?
    ensures r.companyId == companyId && r.companyName == companyName && r.requestType == requestType
    ensures r.subject == subject && r.body == body
    ensures r.userName == userName && r.userEmail == userEmail && r.reason == reason
  {
    GdprRequest(None, companyId, companyName, requestType, Draft, subject, body,
                userName, userEmail, reason, now, None, None, None, None, 0, None, None, None)
  }

  /** `WorkflowTask(...)`: status "pending", not executed, no result and no error. */
  function NewTask(requestId: int, taskType: string, scheduledAt: Time): (t: WorkflowTask)
    ensures t.id.None? && t.status == TaskPending
    ensures t.executedAt.None? && t.result.None? && t.error.None?
    ensures t.requestId == requestId && t.taskType == taskType && t.scheduledAt == scheduledAt
  {
    WorkflowTask(None, requestId, taskType, scheduledAt, None, TaskPending, None, None)
  }
}

=== FILE: orchestrator.dfy ===
/** The request lifecycle (src/workflow/orchestrator.py): creating and sending deletion
    requests, scheduling and running follow-ups, and applying a company's reply. E-mail
    delivery is an oracle: each sending operation takes whether the mail server accepted
    the message, and reports the message it would have sent. */
module Workflow {
  import opened Wrappers
  import opened Models
  import opened Calendar
  import opened Store
  import opened Sorting
  import opened Templates
  import opened RequestGenerator
  import opened ResponseAnalyzer

  /** The settings the orchestrator reads (src/core/config.py). */
  datatype Config = Config(retryDelayDays: nat, escalationDelayDays: nat, autoSendEnabled: bool)

  /** The environment defaults: reminder after 14 days, escalation after 30, no auto-send. */
  const DefaultConfig := Config(14, 30, false)

  /** A message handed to the mail sender. */
  datatype Email = Email(to: string, subject: string, body: Body)

  /** The outcome of a sending operation: its boolean result, the store afterwards and the
      message it tried to deliver, if it got that far. */
  datatype Effect = Effect(ok: bool, store: Store, mail: Option<Email>)

  /** The outcome of `create_and_send_request`. */
  datatype Creation = Creation(result: Result<int, string>, store: Store, mail: Option<Email>)

  /** The outcome of `process_response`: the analysis it returns and the store afterwards. */
  datatype Processed = Processed(analysis: Analysis, store: Store)

  /** What happened when the batch ran one task: the mail server's answer, or an exception
      raised before anything was written. */
  datatype Attempt = Deliver(delivered: bool) | Fault(message: string)

  datatype Executed = Executed(store: Store, completed: bool)

  /** The store after a batch and the number of tasks it counted as executed. */
  datatype Tally = Tally(store: Store, completed: nat)

  /** The store holds this company under the id the request refers to. */
  predicate HasCompanyFor(s: Store, id: int) {
    id in s.requests && s.requests[id].companyId in s.companies
  }

  // ------------------------------------------------------------ follow-ups

  /** Seconds in `days` days. */
  function Days(days: nat): nat {
    days * SecondsPerDay
  }

  /** `after` is `before` plus one pending reminder task due `retryDelayDays` after `now`
      and one pending escalation task due `escalationDelayDays` after `now`, both for
      request `id`, under two fresh ids. */
  ghost predicate FollowUpPair(before: map<int, WorkflowTask>, after: map<int, WorkflowTask>,
                               id: int, cfg: Config, now: Time, a: int, b: int) {
    a !in before && b !in before && a != b
    && after == before[a := WorkflowTask(Some(a), id, ReminderTask, now + Days(cfg.retryDelayDays), None, TaskPending, None, None)]
                      [b := WorkflowTask(Some(b), id, EscalationTask, now + Days(cfg.escalationDelayDays), None, TaskPending, None, None)]
  }

  ghost predicate FollowUpsScheduled(before: map<int, WorkflowTask>, after: map<int, WorkflowTask>,
                                     id: int, cfg: Config, now: Time) {
    exists a, b :: FollowUpPair(before, after, id, cfg, now, a, b)
  }

  /** `_schedule_followup_tasks`: two new pending tasks, nothing else changes. */
  function ScheduleFollowups(s: Store, cfg: Config, id: int, now: Time): (r: Store)
    ensures r.companies == s.companies && r.requests == s.requests
    ensures FollowUpsScheduled(s.tasks, r.tasks, id, cfg, now)
  {
    var reminder := AddTask(s, NewTask(id, ReminderTask, now + Days(cfg.retryDelayDays)));
    var escalation := AddTask(reminder.store, NewTask(id, EscalationTask, now + Days(cfg.escalationDelayDays)));
    assert FollowUpPair(s.tasks, escalation.store.tasks, id, cfg, now, reminder.id, escalation.id);
    escalation.store
  }

  // ------------------------------------------------------------ sending

  /** `send_request`: a missing request or company yields False and writes nothing;
      otherwise the stored subject and body go to the stored company's address. Delivered:
      status SENT, `sent_at` now, a "Sent at" note and both follow-ups scheduled. Not
      delivered: status FAILED with a failure note and no follow-ups. The request's current
      status is not consulted, so a request can be sent again. */
  function SendRequest(s: Store, cfg: Config, id: int, delivered: bool, now: Time): (r: Effect)
    ensures !HasCompanyFor(s, id) ==> !r.ok && r.store == s && r.mail.None?
    ensures r.store.companies == s.companies && r.store.requests.Keys == s.requests.Keys
    ensures forall k :: k in s.requests && k != id ==> r.store.requests[k] == s.requests[k]
    ensures HasCompanyFor(s, id) ==>
      var q := s.requests[id];
      && r.ok == delivered
      && r.mail == Some(Email(s.companies[q.companyId].email, q.subject, q.body))
    ensures HasCompanyFor(s, id) && delivered ==>
      var q, after := s.requests[id], r.store.requests[id];
      && after.status == Sent && after.sentAt == Some(now)
      && after.notes == Some("Sent at " + IsoFormat(now))
      && after.(status := q.status, sentAt := q.sentAt, notes := q.notes) == q
      && FollowUpsScheduled(s.tasks, r.store.tasks, id, cfg, now)
    ensures HasCompanyFor(s, id) && !delivered ==>
      var q, after := s.requests[id], r.store.requests[id];
      && after.status == Failed && after.notes == Some("Failed to send email")
      && after.(status := q.status, notes := q.notes) == q
      && r.store.tasks == s.tasks
  {
    if id !in s.requests then Effect(false, s, None)
    else
      var q := s.requests[id];
      if q.companyId !in s.companies then Effect(false, s, None)
      else
        var mail := Email(s.companies[q.companyId].email, q.subject, q.body);
        if delivered then Effect(true, MarkSent(s, cfg, id, now), Some(mail))
        else
          Effect(false, UpdateRequestStatus(s, id, Failed, Some("Failed to send email"), now), Some(mail))
  }

  /** The delivered branch of `send_request`: status SENT stamped now with a "Sent at" note,
      then both follow-ups scheduled; no other request or company changes. */
  function MarkSent(s: Store, cfg: Config, id: int, now: Time): (r: Store)
    requires id in s.requests
    ensures r.companies == s.companies
    ensures r.requests == s.requests[id := s.requests[id].(status := Sent, sentAt := Some(now),
                                                           notes := Some("Sent at " + IsoFormat(now)))]
    ensures FollowUpsScheduled(s.tasks, r.tasks, id, cfg, now)
  {
    var marked := UpdateRequestStatus(s, id, Sent, Some("Sent at " + IsoFormat(now)), now);
    ScheduleFollowups(marked, cfg, id, now)
  }

  /** The follow-up guard shared by `send_reminder` and `send_escalation`: the request
      exists, is not COMPLETED or REJECTED, and its company exists. */
  predicate FollowUpAllowed(s: Store, id: int) {
    id in s.requests && !IsTerminal(s.requests[id].status) && s.requests[id].companyId in s.companies
  }

  /** The date a follow-up cites: when the request was sent, else when it was created. */
  function OriginalDate(q: GdprRequest): Time {
    q.sentAt.GetOr(q.createdAt)
  }

  /** `send_reminder`: refused (False, nothing written, nothing sent) for a missing, closed
      or company-less request. Otherwise the German reminder citing the original date goes
      to the company; on delivery the reminder count rises by one and `last_reminder_at`
      becomes now. The status never changes. */
  function SendReminder(s: Store, id: int, delivered: bool, now: Time): (r: Effect)
    ensures !FollowUpAllowed(s, id) ==> !r.ok && r.store == s && r.mail.None?
    ensures FollowUpAllowed(s, id) ==>
      var q, c := s.requests[id], s.companies[s.requests[id].companyId];
      && r.ok == delivered && r.mail.Some?
      && r.mail.value.to == c.email && r.mail.value.subject == ReminderSubjectDe
      && r.mail.value.body.Templated? && r.mail.value.body.template == ReminderDe
      && r.mail.value.body.vars.originalDate == Some(FormatTime(OriginalDate(q)))
      && r.mail.value.body.vars.userName == q.userName
    ensures r.store.companies == s.companies && r.store.tasks == s.tasks
    ensures r.store.requests.Keys == s.requests.Keys
    ensures forall k :: k in s.requests && k != id ==> r.store.requests[k] == s.requests[k]
    ensures FollowUpAllowed(s, id) ==>
      var q, after := s.requests[id], r.store.requests[id];
      && after.reminderCount == (if delivered then q.reminderCount + 1 else q.reminderCount)
      && after.lastReminderAt == (if delivered then Some(now) else q.lastReminderAt)
      && after.(reminderCount := q.reminderCount, lastReminderAt := q.lastReminderAt) == q
  {
    if !FollowUpAllowed(s, id) then Effect(false, s, None)
    else
      var q := s.requests[id];
      var c := s.companies[q.companyId];
      var g := GenerateReminder(c, OriginalDate(q), q.userName, "de", now);
      var mail := Email(c.email, g.value.0, g.value.1);
      if delivered then Effect(true, AddReminder(s, id, now), Some(mail))
      else Effect(false, s, Some(mail))
  }

  /** The delivered branch of `send_escalation`: status ESCALATED with an "Escalated at"
      note; ESCALATED has no timestamp column, so nothing else changes. */
  function MarkEscalated(s: Store, id: int, now: Time): (r: Store)
    requires id in s.requests
    ensures r.companies == s.companies && r.tasks == s.tasks
    ensures r.requests == s.requests[id := s.requests[id].(status := Escalated, notes := Some("Escalated at " + IsoFormat(now)))]
  {
    UpdateRequestStatus(s, id, Escalated, Some("Escalated at " + IsoFormat(now)), now)
  }

  /** `send_escalation`: the same guard as the reminder. Otherwise the German final notice
      goes to the company; on delivery the status becomes ESCALATED with an "Escalated at"
      note, no timestamp column is stamped and nothing else changes. */
  function SendEscalation(s: Store, id: int, delivered: bool, now: Time): (r: Effect)
    ensures !FollowUpAllowed(s, id) ==> !r.ok && r.store == s && r.mail.None?
    ensures FollowUpAllowed(s, id) ==>
      var q, c := s.requests[id], s.companies[s.requests[id].companyId];
      && r.ok == delivered && r.mail.Some?
      && r.mail.value.to == c.email && r.mail.value.subject == EscalationSubjectDe
      && r.mail.value.body.Templated? && r.mail.value.body.template == EscalationDe
      && r.mail.value.body.vars.originalDate == Some(FormatTime(OriginalDate(q)))
      && r.mail.value.body.vars.userName == q.userName
    ensures r.store.companies == s.companies && r.store.tasks == s.tasks
    ensures r.store.requests.Keys == s.requests.Keys
    ensures forall k :: k in s.requests && k != id ==> r.store.requests[k] == s.requests[k]
    ensures FollowUpAllowed(s, id) && !delivered ==> r.store == s
    ensures FollowUpAllowed(s, id) && delivered ==>
      var q, after := s.requests[id], r.store.requests[id];
      && after.status == Escalated && after.notes == Some("Escalated at " + IsoFormat(now))
      && after.(status := q.status, notes := q.notes) == q
  {
    if !FollowUpAllowed(s, id) then Effect(false, s, None)
    else
      var q := s.requests[id];
      var c := s.companies[q.companyId];
      var g := GenerateEscalation(c, OriginalDate(q), q.userName, "de", now);
      var mail := Email(c.email, g.value.0, g.value.1);
      if delivered then Effect(true, MarkEscalated(s, id, now), Some(mail))
      else Effect(false, s, Some(mail))
  }

  // ------------------------------------------------------------ replies

  /** The status a reply moves a request to; an undetermined reply keeps the current one. */
  function StatusAfterReply(kind: ResponseType, current: RequestStatus): (st: RequestStatus)
    ensures kind == RespUnknown ==> st == current
    ensures kind != RespUnknown ==> st in {Acknowledged, Completed, Rejected, Pending}
    ensures kind !in {RespUnknown, RespNeedsInfo} ==> StatusValue(st) == ResponseValue(kind)
    ensures kind == RespNeedsInfo ==> st == Pending
  {
    match kind
    case RespAcknowledged => Acknowledged
    case RespCompleted => Completed
    case RespRejected => Rejected
    case RespNeedsInfo => Pending
    case RespUnknown => current
  }

  /** `process_response`: the reply is analysed first and the analysis is returned even for
      an unknown request, which is left untouched. For a known request the status follows
      the reply (undetermined: unchanged), the timestamp column of the resulting status is
      stamped (also when the status did not change), the note records the summary and the
      reply text is stored verbatim. Any current status is accepted. */
  function ProcessResponse(s: Store, id: int, text: string, classifier: Classifier, now: Time): (r: Processed)
    ensures r.analysis == AnalyzeResponse(text, classifier)
    ensures id !in s.requests ==> r.store == s
    ensures r.store.companies == s.companies && r.store.tasks == s.tasks
    ensures r.store.requests.Keys == s.requests.Keys
    ensures forall k :: k in s.requests && k != id ==> r.store.requests[k] == s.requests[k]
    ensures id in s.requests ==>
      var q, after := s.requests[id], r.store.requests[id];
      && after.status == StatusAfterReply(r.analysis.kind, q.status)
      && after.notes == Some("Response analyzed: " + r.analysis.summary)
      && after.responseText == Some(text)
      && after.sentAt == (if after.status == Sent then Some(now) else q.sentAt)
      && after.acknowledgedAt == (if after.status == Acknowledged then Some(now) else q.acknowledgedAt)
      && after.completedAt == (if after.status == Completed then Some(now) else q.completedAt)
      && after.(status := q.status, notes := q.notes, responseText := q.responseText, sentAt := q.sentAt,
                acknowledgedAt := q.acknowledgedAt, completedAt := q.completedAt) == q
  {
    var analysis := AnalyzeResponse(text, classifier);
    if id !in s.requests then Processed(analysis, s)
    else
      var status := StatusAfterReply(analysis.kind, s.requests[id].status);
      var updated := UpdateRequestStatus(s, id, status, Some("Response analyzed: " + analysis.summary), now);
      Processed(analysis, SetResponseText(updated, id, text))
  }

  // ------------------------------------------------------------ creation

  /** The first half of `create_and_send_request`, given what the generator produced: a
      generation failure (a language without a deletion template) or a company without an
      id fails before anything is written; otherwise a DRAFT deletion request with the
      generated subject and body is inserted under a fresh id, which is returned. */
  function InsertDraft(s: Store, generated: Result<(string, Body), string>, company: Company,
                       userName: Option<string>, userEmail: Option<string>, reason: Option<string>,
                       now: Time): (r: Creation)
    ensures r.result.Success? <==> generated.Success? && company.id.Some?
    ensures r.mail.None? && r.store.tasks == s.tasks && r.store.companies == s.companies
    ensures r.result.Failure? ==> r.store == s
    ensures r.result.Success? ==>
      var rid := r.result.value;
      && rid >= 1 && rid !in s.requests && r.store.requests.Keys == s.requests.Keys + {rid}
      && (forall k :: k in s.requests ==> r.store.requests[k] == s.requests[k])
    ensures r.result.Success? ==>
      var q := r.store.requests[r.result.value];
      && q.id == Some(r.result.value) && q.status == Draft
      && q.companyId == company.id.value && q.companyName == company.name
      && q.requestType == Deletion && q.subject == generated.value.0 && q.body == generated.value.1
      && q.userName == userName && q.userEmail == userEmail && q.reason == reason
      && q.createdAt == now && q.reminderCount == 0 && q.responseText.None? && q.notes.None?
      && q.sentAt.None? && q.acknowledgedAt.None? && q.completedAt.None? && q.lastReminderAt.None?
  {
    match generated
    case Failure(e) => Creation(Failure(e), s, None)
    case Success(g) =>
      if company.id.None? then Creation(Failure("company_id must be an integer"), s, None)
      else
        var q := NewRequest(company.id.value, company.name, Deletion, g.0, g.1, userName, userEmail, reason, now);
        var added := AddRequest(s, q, now);
        Creation(Success(added.id), added.store, None)
  }

  /** `create_and_send_request`: generates the message, inserts the draft and, with
      auto-send (argument or configuration), sends it at once to the address the store holds
      for its company. It succeeds exactly for a language with a deletion template and a
      company with an id, and then returns the new id whether or not the sending succeeded;
      a failure writes and sends nothing. */
  function CreateAndSendRequest(s: Store, cfg: Config, gen: Generator, company: Company,
                                userName: Option<string>, userEmail: Option<string>, reason: Option<string>,
                                language: string, autoSend: bool, delivered: bool, now: Time): (r: Creation)
    ensures r.result.Success? <==> language in {"de", "en"} && company.id.Some?
    ensures r.result.Success? ==> r.result.value in r.store.requests
    ensures r.result.Failure? ==> r.store == s && r.mail.None?
  {
    var generated := GenerateDeletionRequest(gen, company, userName, userEmail, reason, language, now);
    var draft := InsertDraft(s, generated, company, userName, userEmail, reason, now);
    if draft.result.Success? && (autoSend || cfg.autoSendEnabled) then
      var sent := SendRequest(draft.store, cfg, draft.result.value, delivered, now);
      Creation(draft.result, sent.store, sent.mail)
    else draft
  }

  /** A created request is the only new request row: companies and every earlier request
      are as they were, whatever the sending did. */
  lemma CreationFrame(s: Store, cfg: Config, gen: Generator, company: Company,
                      userName: Option<string>, userEmail: Option<string>, reason: Option<string>,
                      language: string, autoSend: bool, delivered: bool, now: Time)
    ensures var r := CreateAndSendRequest(s, cfg, gen, company, userName, userEmail, reason, language, autoSend, delivered, now);
      r.result.Success? ==>
        && r.store.companies == s.companies && r.store.requests.Keys == s.requests.Keys + {r.result.value}
        && (forall k :: k in s.requests ==> r.store.requests[k] == s.requests[k])
  {
    var generated := GenerateDeletionRequest(gen, company, userName, userEmail, reason, language, now);
    var draft := InsertDraft(s, generated, company, userName, userEmail, reason, now);
    if draft.result.Success? && (autoSend || cfg.autoSendEnabled) {
      var rid, d := draft.result.value, draft.store;
      var sent := SendRequest(d, cfg, rid, delivered, now);
      forall k | k in s.requests ensures sent.store.requests[k] == s.requests[k] {
        assert k != rid && k in d.requests;
      }
    }
  }

  /** The new row carries the company's id and name, the deletion type, the subject from
      the subject table, the requester's details and the creation time. */
  lemma CreatedRequestFields(s: Store, cfg: Config, gen: Generator, company: Company,
                             userName: Option<string>, userEmail: Option<string>, reason: Option<string>,
                             language: string, autoSend: bool, delivered: bool, now: Time)
    ensures var r := CreateAndSendRequest(s, cfg, gen, company, userName, userEmail, reason, language, autoSend, delivered, now);
      r.result.Success? ==>
        var q := r.store.requests[r.result.value];
        && q.id == Some(r.result.value) && q.companyId == company.id.value && q.companyName == company.name
        && q.requestType == Deletion && q.subject == GetSubject(Deletion, language)
        && q.userName == userName && q.userEmail == userEmail && q.reason == reason
        && q.createdAt == now && q.reminderCount == 0 && q.responseText.None?
  {
    var generated := GenerateDeletionRequest(gen, company, userName, userEmail, reason, language, now);
    var draft := InsertDraft(s, generated, company, userName, userEmail, reason, now);
    if draft.result.Success? && (autoSend || cfg.autoSendEnabled) {
      SendKeepsRequestFields(draft.store, cfg, draft.result.value, delivered, now);
    }
  }

  /** Sending changes only a request's status, send time and note. */
  lemma SendKeepsRequestFields(s: Store, cfg: Config, id: int, delivered: bool, now: Time)
    requires id in s.requests
    ensures var q, after := s.requests[id], SendRequest(s, cfg, id, delivered, now).store.requests[id];
      && after.id == q.id && after.companyId == q.companyId && after.companyName == q.companyName
      && after.requestType == q.requestType && after.subject == q.subject && after.body == q.body
      && after.userName == q.userName && after.userEmail == q.userEmail && after.reason == q.reason
      && after.createdAt == q.createdAt && after.reminderCount == q.reminderCount && after.responseText == q.responseText
  {
    var q, after := s.requests[id], SendRequest(s, cfg, id, delivered, now).store.requests[id];
    if HasCompanyFor(s, id) && delivered {
      assert after.(status := q.status, sentAt := q.sentAt, notes := q.notes) == q;
    } else if HasCompanyFor(s, id) {
      assert after.(status := q.status, notes := q.notes) == q;
    }
  }

  /** Without auto-send, or when the store holds no company under the given id, the new
      request stays a DRAFT that was never sent, no task is added and no message is sent. */
  lemma CreationWithoutSending(s: Store, cfg: Config, gen: Generator, company: Company,
                               userName: Option<string>, userEmail: Option<string>, reason: Option<string>,
                               language: string, autoSend: bool, delivered: bool, now: Time)
    ensures var r := CreateAndSendRequest(s, cfg, gen, company, userName, userEmail, reason, language, autoSend, delivered, now);
      r.result.Success? && (!(autoSend || cfg.autoSendEnabled) || company.id.value !in s.companies) ==>
        && r.store.requests[r.result.value].status == Draft && r.store.requests[r.result.value].sentAt.None?
        && r.store.tasks == s.tasks && r.mail.None?
  {
    var generated := GenerateDeletionRequest(gen, company, userName, userEmail, reason, language, now);
    var draft := InsertDraft(s, generated, company, userName, userEmail, reason, now);
    if draft.result.Success? && (autoSend || cfg.autoSendEnabled) && company.id.value !in s.companies {
      assert !HasCompanyFor(draft.store, draft.result.value);
    }
  }

  /** With auto-send and a stored company, the new request is sent to the stored company's
      address: SENT with a send time and both follow-ups when delivered, FAILED with no
      send time and no tasks otherwise. */
  lemma CreationSends(s: Store, cfg: Config, gen: Generator, company: Company,
                      userName: Option<string>, userEmail: Option<string>, reason: Option<string>,
                      language: string, autoSend: bool, delivered: bool, now: Time)
    ensures var r := CreateAndSendRequest(s, cfg, gen, company, userName, userEmail, reason, language, autoSend, delivered, now);
      r.result.Success? && (autoSend || cfg.autoSendEnabled) && company.id.value in s.companies ==>
        var q := r.store.requests[r.result.value];
        && r.mail.Some? && r.mail.value.to == s.companies[company.id.value].email
        && q.status == (if delivered then Sent else Failed)
        && (delivered ==> q.sentAt == Some(now) && FollowUpsScheduled(s.tasks, r.store.tasks, r.result.value, cfg, now))
        && (!delivered ==> q.sentAt.None? && r.store.tasks == s.tasks)
  {
    var generated := GenerateDeletionRequest(gen, company, userName, userEmail, reason, language, now);
    var draft := InsertDraft(s, generated, company, userName, userEmail, reason, now);
    if draft.result.Success? && (autoSend || cfg.autoSendEnabled) && company.id.value in s.companies {
      var rid := draft.result.value;
      assert HasCompanyFor(draft.store, rid);
      assert draft.store.companies == s.companies && draft.store.tasks == s.tasks;
      assert draft.store.requests[rid].sentAt.None?;
    }
  }

  // ------------------------------------------------------------ task batch

  /** Records a task's outcome on its row (a task without an id matches no row). */
  function MarkTask(s: Store, t: WorkflowTask, status: string, result: Option<string>,
                    error: Option<string>, now: Time): (r: Store)
    ensures r.companies == s.companies && r.requests == s.requests && r.tasks.Keys == s.tasks.Keys
    ensures forall k :: k in s.tasks && t.id != Some(k) ==> r.tasks[k] == s.tasks[k]
    ensures t.id.Some? && t.id.value in s.tasks ==>
      r.tasks[t.id.value] == s.tasks[t.id.value].(status := status, executedAt := Some(now), result := result, error := error)
  {
    if t.id.Some? then UpdateTaskStatus(s, t.id.value, status, result, error, now) else s
  }

  /** The dispatch on the task type: reminder, escalation, or an unknown type that fails. */
  function Dispatch(s: Store, t: WorkflowTask, delivered: bool, now: Time): (r: Effect)
    ensures r.store.companies == s.companies && r.store.tasks == s.tasks
    ensures r.store.requests.Keys == s.requests.Keys
    ensures forall k :: k in s.requests && k != t.requestId ==> r.store.requests[k] == s.requests[k]
    ensures r.ok <==> delivered && t.taskType in {ReminderTask, EscalationTask} && FollowUpAllowed(s, t.requestId)
    ensures !r.ok ==> r.store == s
    ensures r.mail.Some? <==> t.taskType in {ReminderTask, EscalationTask} && FollowUpAllowed(s, t.requestId)
    ensures r.mail.Some? ==>
      (r.mail.value.to == s.companies[s.requests[t.requestId].companyId].email
       && r.mail.value.subject == (if t.taskType == ReminderTask then ReminderSubjectDe else EscalationSubjectDe))
    ensures r.ok && t.taskType == ReminderTask ==>
      var q, after := s.requests[t.requestId], r.store.requests[t.requestId];
      && after.reminderCount == q.reminderCount + 1 && after.lastReminderAt == Some(now)
      && after.(reminderCount := q.reminderCount, lastReminderAt := q.lastReminderAt) == q
    ensures r.ok && t.taskType == EscalationTask ==>
      var q, after := s.requests[t.requestId], r.store.requests[t.requestId];
      && after.status == Escalated && after.notes == Some("Escalated at " + IsoFormat(now))
      && after.(status := q.status, notes := q.notes) == q
  {
    if t.taskType == ReminderTask then SendReminder(s, t.requestId, delivered, now)
    else if t.taskType == EscalationTask then SendEscalation(s, t.requestId, delivered, now)
    else Effect(false, s, None)
  }

  /** Dispatching `t` with outcome `a` returns True: the mail server accepted the message of
      a reminder or escalation task whose request passes the follow-up guard. */
  predicate DispatchSucceeds(s: Store, t: WorkflowTask, a: Attempt) {
    a == Deliver(true) && t.taskType in {ReminderTask, EscalationTask} && FollowUpAllowed(s, t.requestId)
  }

  /** One iteration of `execute_pending_tasks`: run the task and mark it "completed" with
      result "Success" when it returned True, otherwise "failed" with "Execution failed",
      or "failed" with the exception's message when it raised. */
  function ExecuteTask(s: Store, t: WorkflowTask, attempt: Attempt, now: Time): (r: Executed)
    ensures r.completed <==> DispatchSucceeds(s, t, attempt)
    ensures !r.completed ==> r.store.requests == s.requests
    ensures r.completed ==> r.store.requests == Dispatch(s, t, true, now).store.requests
    ensures r.store.companies == s.companies
    ensures r.store.requests.Keys == s.requests.Keys && r.store.tasks.Keys == s.tasks.Keys
    ensures forall k :: k in s.requests && k != t.requestId ==> r.store.requests[k] == s.requests[k]
    ensures forall k :: k in s.tasks && t.id != Some(k) ==> r.store.tasks[k] == s.tasks[k]
    ensures t.id.Some? && t.id.value in s.tasks ==>
      r.store.tasks[t.id.value] == s.tasks[t.id.value].(
        status := if r.completed then TaskCompleted else TaskFailed, executedAt := Some(now),
        result := if r.completed then Some("Success") else None,
        error := if r.completed then None else if attempt.Fault? then Some(attempt.message) else Some("Execution failed"))
  {
    match attempt
    case Fault(msg) => Executed(MarkTask(s, t, TaskFailed, None, Some(msg), now), false)
    case Deliver(delivered) =>
      var e := Dispatch(s, t, delivered, now);
      if e.ok then Executed(MarkTask(e.store, t, TaskCompleted, Some("Success"), None, now), true)
      else Executed(MarkTask(e.store, t, TaskFailed, None, Some("Execution failed"), now), false)
  }

  /** One step of a batch: the store before, the task, and its position in the batch. */
  type Step = (Store, WorkflowTask, nat) -> Executed

  /** A batch as a fold of `step` over a task list, counting the steps that report completion. */
  function Fold(s: Store, tasks: seq<WorkflowTask>, step: Step): (r: Tally)
    ensures r.completed <= |tasks|
    decreases |tasks|
  {
    if |tasks| == 0 then Tally(s, 0)
    else
      var n := |tasks| - 1;
      var p := Fold(s, tasks[..n], step);
      var e := step(p.store, tasks[n], n);
      Tally(e.store, p.completed + if e.completed then 1 else 0)
  }

  /** The batch's step: the i-th task meets `env(i)`. */
  function BatchStep(env: nat -> Attempt, now: Time): Step {
    (st: Store, t: WorkflowTask, i: nat) => ExecuteTask(st, t, env(i), now)
  }

  /** `execute_pending_tasks` over a given task list. */
  function RunBatch(s: Store, tasks: seq<WorkflowTask>, env: nat -> Attempt, now: Time): Tally {
    Fold(s, tasks, BatchStep(env, now))
  }

  /** The number of listed tasks whose row in `s` is marked "completed". */
  function CountCompleted(s: Store, tasks: seq<WorkflowTask>): nat
    decreases |tasks|
  {
    if |tasks| == 0 then 0
    else
      var t := tasks[|tasks| - 1];
      CountCompleted(s, tasks[..|tasks| - 1])
        + if t.id.Some? && t.id.value in s.tasks && s.tasks[t.id.value].status == TaskCompleted then 1 else 0
  }

  /** No id occurs twice in the list. */
  ghost predicate DistinctIds(tasks: seq<WorkflowTask>) {
    forall i, j :: 0 <= i < j < |tasks| ==> tasks[i].id != tasks[j].id
  }

  /** Every listed task is a row of `s` under its own id. */
  ghost predicate AllStored(s: Store, tasks: seq<WorkflowTask>) {
    forall j :: 0 <= j < |tasks| ==> tasks[j].id.Some? && tasks[j].id.value in s.tasks
  }

  /** `t` is not any of the listed tasks' rows. */
  ghost predicate NotListed(k: int, tasks: seq<WorkflowTask>) {
    forall j :: 0 <= j < |tasks| ==> tasks[j].id != Some(k)
  }

  // The properties of a single step that the batch proofs rely on.

  /** A step adds and removes no row, touches no company and writes no task row but its own. */
  ghost predicate StepFrames(step: Step) {
    forall st: Store, t: WorkflowTask, i: nat ::
      var e := step(st, t, i);
      && e.store.companies == st.companies && e.store.requests.Keys == st.requests.Keys
      && e.store.tasks.Keys == st.tasks.Keys
      && (forall k :: k in st.tasks && t.id != Some(k) ==> e.store.tasks[k] == st.tasks[k])
  }

  /** A step marks its own task "completed" exactly when it reports completion, else "failed". */
  ghost predicate StepMarks(step: Step) {
    forall st: Store, t: WorkflowTask, i: nat ::
      var e := step(st, t, i);
      t.id.Some? && t.id.value in st.tasks ==>
        t.id.value in e.store.tasks && e.store.tasks[t.id.value].status == (if e.completed then TaskCompleted else TaskFailed)
  }

  /** A step leaves COMPLETED and REJECTED requests alone. */
  ghost predicate StepKeepsClosed(step: Step) {
    forall st: Store, t: WorkflowTask, i: nat, k: int ::
      k in st.requests && IsTerminal(st.requests[k].status) ==>
        k in step(st, t, i).store.requests && step(st, t, i).store.requests[k] == st.requests[k]
  }

  /** A step adds at most one reminder to any request and never removes one. */
  ghost predicate StepAddsAtMostOneReminder(step: Step) {
    forall st: Store, t: WorkflowTask, i: nat, k: int ::
      k in st.requests ==>
        k in step(st, t, i).store.requests
        && st.requests[k].reminderCount <= step(st, t, i).store.requests[k].reminderCount <= st.requests[k].reminderCount + 1
  }

  /** A step neither opens nor closes the follow-up guard of any request. */
  ghost predicate StepKeepsGuard(step: Step) {
    forall st: Store, t: WorkflowTask, i: nat, k: int ::
      FollowUpAllowed(step(st, t, i).store, k) == FollowUpAllowed(st, k)
  }

  /** Running a task keeps every request's follow-up guard: a reminder changes no status, an
      escalation moves an open request to the open status ESCALATED, and no company or
      request row appears or disappears. */
  lemma ExecuteTaskKeepsGuard(s: Store, t: WorkflowTask, attempt: Attempt, now: Time, k: int)
    ensures FollowUpAllowed(ExecuteTask(s, t, attempt, now).store, k) == FollowUpAllowed(s, k)
  {
    var e := ExecuteTask(s, t, attempt, now);
    if e.completed && k == t.requestId {
      var d := Dispatch(s, t, true, now);
      assert d.ok && e.store.requests == d.store.requests;
      assert d.store.requests[k].companyId == s.requests[k].companyId;
    }
  }

  lemma BatchStepKeepsGuard(env: nat -> Attempt, now: Time)
    ensures StepKeepsGuard(BatchStep(env, now))
  {
    forall st: Store, t: WorkflowTask, i: nat, k: int
      ensures FollowUpAllowed(ExecuteTask(st, t, env(i), now).store, k) == FollowUpAllowed(st, k)
    {
      ExecuteTaskKeepsGuard(st, t, env(i), now, k);
    }
  }

  /** Running one task writes no other task row and no company, and adds or removes no row. */
  lemma BatchStepFrames(env: nat -> Attempt, now: Time)
    ensures StepFrames(BatchStep(env, now))
  {
    forall st: Store, t: WorkflowTask, i: nat
      ensures var e := ExecuteTask(st, t, env(i), now);
        && e.store.companies == st.companies && e.store.requests.Keys == st.requests.Keys
        && e.store.tasks.Keys == st.tasks.Keys
        && (forall k :: k in st.tasks && t.id != Some(k) ==> e.store.tasks[k] == st.tasks[k])
    {
    }
  }

  /** Running one task marks it "completed" when it reports completion and "failed" otherwise. */
  lemma BatchStepMarks(env: nat -> Attempt, now: Time)
    ensures StepMarks(BatchStep(env, now))
  {
    forall st: Store, t: WorkflowTask, i: nat
      ensures var e := ExecuteTask(st, t, env(i), now);
        t.id.Some? && t.id.value in st.tasks ==>
          t.id.value in e.store.tasks && e.store.tasks[t.id.value].status == (if e.completed then TaskCompleted else TaskFailed)
    {
    }
  }

  /** A follow-up task for a closed request is refused, so running it changes no request. */
  lemma BatchStepKeepsClosed(env: nat -> Attempt, now: Time)
    ensures StepKeepsClosed(BatchStep(env, now))
  {
    forall st: Store, t: WorkflowTask, i: nat, k: int | k in st.requests && IsTerminal(st.requests[k].status)
      ensures var e := ExecuteTask(st, t, env(i), now);
        k in e.store.requests && e.store.requests[k] == st.requests[k]
    {
      if k == t.requestId {
        assert !FollowUpAllowed(st, t.requestId);
      }
    }
  }

  /** One task adds at most one reminder to any request: only a delivered reminder adds one. */
  lemma ExecuteTaskReminderStep(s: Store, t: WorkflowTask, attempt: Attempt, now: Time, rid: int)
    requires rid in s.requests
    ensures var after := ExecuteTask(s, t, attempt, now).store;
      && rid in after.requests
      && s.requests[rid].reminderCount <= after.requests[rid].reminderCount <= s.requests[rid].reminderCount + 1
  {
    if attempt.Deliver? && rid == t.requestId && FollowUpAllowed(s, rid) {
      var e := Dispatch(s, t, attempt.delivered, now);
      if t.taskType == ReminderTask {
        assert e == SendReminder(s, rid, attempt.delivered, now);
      } else if t.taskType == EscalationTask {
        assert e == SendEscalation(s, rid, attempt.delivered, now);
        assert e.store.requests[rid].reminderCount == s.requests[rid].reminderCount;
      }
    }
  }

  lemma BatchStepReminders(env: nat -> Attempt, now: Time)
    ensures StepAddsAtMostOneReminder(BatchStep(env, now))
  {
    forall st: Store, t: WorkflowTask, i: nat, k: int | k in st.requests
      ensures var e := ExecuteTask(st, t, env(i), now);
        k in e.store.requests
        && st.requests[k].reminderCount <= e.store.requests[k].reminderCount <= st.requests[k].reminderCount + 1
    {
      ExecuteTaskReminderStep(st, t, env(i), now, k);
    }
  }

  // Fold lemmas, for any step with the properties above.

  lemma {:induction false} FoldShape(s: Store, tasks: seq<WorkflowTask>, step: Step)
    requires StepFrames(step)
    ensures var r := Fold(s, tasks, step).store;
      r.companies == s.companies && r.requests.Keys == s.requests.Keys && r.tasks.Keys == s.tasks.Keys
    decreases |tasks|
  {
    if |tasks| > 0 {
      var n := |tasks| - 1;
      FoldShape(s, tasks[..n], step);
      var p := Fold(s, tasks[..n], step);
      assert Fold(s, tasks, step).store == step(p.store, tasks[n], n).store;
    }
  }

  lemma {:induction false} FoldLeavesUnlisted(s: Store, tasks: seq<WorkflowTask>, step: Step, k: int)
    requires StepFrames(step) && k in s.tasks && NotListed(k, tasks)
    ensures var r := Fold(s, tasks, step).store;
      k in r.tasks && r.tasks[k] == s.tasks[k]
    decreases |tasks|
  {
    if |tasks| > 0 {
      var n := |tasks| - 1;
      assert NotListed(k, tasks[..n]) by {
        forall j | 0 <= j < n ensures tasks[..n][j].id != Some(k) {
          assert tasks[..n][j] == tasks[j];
        }
      }
      assert tasks[n].id != Some(k);
      FoldLeavesUnlisted(s, tasks[..n], step, k);
      var p := Fold(s, tasks[..n], step);
      assert Fold(s, tasks, step).store == step(p.store, tasks[n], n).store;
    }
  }

  lemma {:induction false} FoldMarksTask(s: Store, tasks: seq<WorkflowTask>, step: Step, j: nat)
    requires StepFrames(step) && StepMarks(step)
    requires j < |tasks| && tasks[j].id.Some? && tasks[j].id.value in s.tasks
    ensures var r := Fold(s, tasks, step).store;
      tasks[j].id.value in r.tasks && r.tasks[tasks[j].id.value].status in {TaskCompleted, TaskFailed}
    decreases |tasks|
  {
    var n := |tasks| - 1;
    var k := tasks[j].id.value;
    FoldShape(s, tasks[..n], step);
    var p := Fold(s, tasks[..n], step);
    var e := step(p.store, tasks[n], n);
    assert Fold(s, tasks, step).store == e.store;
    if tasks[n].id == Some(k) {
      assert e.store.tasks[k].status == (if e.completed then TaskCompleted else TaskFailed);
    } else {
      assert tasks[..n][j] == tasks[j];
      FoldMarksTask(s, tasks[..n], step, j);
      assert e.store.tasks[k] == p.store.tasks[k];
    }
  }

  /** Marking a task leaves the counts of the other listed tasks alone. */
  lemma {:induction false} CountCompletedFrame(a: Store, b: Store, tasks: seq<WorkflowTask>)
    requires forall j :: 0 <= j < |tasks| && tasks[j].id.Some? ==>
      (tasks[j].id.value in a.tasks <==> tasks[j].id.value in b.tasks)
      && (tasks[j].id.value in a.tasks ==> a.tasks[tasks[j].id.value].status == b.tasks[tasks[j].id.value].status)
    ensures CountCompleted(a, tasks) == CountCompleted(b, tasks)
    decreases |tasks|
  {
    if |tasks| > 0 {
      var n := |tasks| - 1;
      forall j | 0 <= j < n ensures tasks[..n][j] == tasks[j] { }
      CountCompletedFrame(a, b, tasks[..n]);
    }
  }

  /** Running one more task adds one to the count exactly when it marks that task
      "completed", and leaves the counts of the earlier tasks alone. */
  lemma CountStep(p: Store, pre: seq<WorkflowTask>, t: WorkflowTask, e: Executed)
    requires t.id.Some? && t.id.value in p.tasks && NotListed(t.id.value, pre)
    requires e.store.tasks.Keys == p.tasks.Keys
    requires forall k :: k in p.tasks && t.id != Some(k) ==> e.store.tasks[k] == p.tasks[k]
    requires e.store.tasks[t.id.value].status == (if e.completed then TaskCompleted else TaskFailed)
    ensures CountCompleted(e.store, pre + [t]) == CountCompleted(p, pre) + (if e.completed then 1 else 0)
  {
    var all := pre + [t];
    assert all[..|pre|] == pre && all[|pre|] == t;
    forall j | 0 <= j < |pre| && pre[j].id.Some?
      ensures (pre[j].id.value in p.tasks <==> pre[j].id.value in e.store.tasks)
           && (pre[j].id.value in p.tasks ==> p.tasks[pre[j].id.value].status == e.store.tasks[pre[j].id.value].status)
    {
      var k := pre[j].id.value;
      assert t.id != Some(k);
      assert k in p.tasks ==> e.store.tasks[k] == p.tasks[k];
    }
    CountCompletedFrame(p, e.store, pre);
  }

  /** A prefix of a list of distinct stored tasks is one too, and does not list the next task. */
  lemma PrefixOfDistinctStored(s: Store, tasks: seq<WorkflowTask>, n: nat)
    requires n < |tasks| && DistinctIds(tasks) && AllStored(s, tasks)
    ensures DistinctIds(tasks[..n]) && AllStored(s, tasks[..n])
    ensures tasks[n].id.Some? && NotListed(tasks[n].id.value, tasks[..n])
  {
    var pre := tasks[..n];
    forall j | 0 <= j < n ensures pre[j] == tasks[j] { }
    assert tasks[n].id.Some?;
  }

  lemma {:induction false} FoldCount(s: Store, tasks: seq<WorkflowTask>, step: Step)
    requires StepFrames(step) && StepMarks(step)
    requires DistinctIds(tasks) && AllStored(s, tasks)
    ensures Fold(s, tasks, step).completed == CountCompleted(Fold(s, tasks, step).store, tasks)
    decreases |tasks|
  {
    if |tasks| > 0 {
      var n := |tasks| - 1;
      var pre := tasks[..n];
      PrefixOfDistinctStored(s, tasks, n);
      FoldCount(s, pre, step);
      FoldShape(s, pre, step);
      var p := Fold(s, pre, step);
      var e := step(p.store, tasks[n], n);
      assert Fold(s, tasks, step) == Tally(e.store, p.completed + if e.completed then 1 else 0);
      assert CountCompleted(e.store, tasks) == CountCompleted(p.store, pre) + (if e.completed then 1 else 0) by {
        StepInstance(step, p.store, tasks[n], n);
        LastSplit(tasks);
        CountStep(p.store, pre, tasks[n], e);
      }
    }
  }

  /** The frame and marking facts of one step, for the given store, task and position. */
  lemma StepInstance(step: Step, st: Store, t: WorkflowTask, i: nat)
    requires StepFrames(step) && StepMarks(step)
    ensures var e := step(st, t, i);
      && e.store.tasks.Keys == st.tasks.Keys
      && (forall k :: k in st.tasks && t.id != Some(k) ==> e.store.tasks[k] == st.tasks[k])
      && (t.id.Some? && t.id.value in st.tasks ==> e.store.tasks[t.id.value].status == (if e.completed then TaskCompleted else TaskFailed))
  {
  }

  lemma {:induction false} FoldKeepsClosedRequests(s: Store, tasks: seq<WorkflowTask>, step: Step, rid: int)
    requires StepKeepsClosed(step)
    requires rid in s.requests && IsTerminal(s.requests[rid].status)
    ensures rid in Fold(s, tasks, step).store.requests
    ensures Fold(s, tasks, step).store.requests[rid] == s.requests[rid]
    decreases |tasks|
  {
    if |tasks| > 0 {
      var n := |tasks| - 1;
      FoldKeepsClosedRequests(s, tasks[..n], step, rid);
      var p := Fold(s, tasks[..n], step);
      assert Fold(s, tasks, step).store == step(p.store, tasks[n], n).store;
    }
  }

  lemma {:induction false} FoldReminderCounts(s: Store, tasks: seq<WorkflowTask>, step: Step, rid: int)
    requires StepAddsAtMostOneReminder(step)
    requires rid in s.requests
    ensures var after := Fold(s, tasks, step).store;
      && rid in after.requests
      && s.requests[rid].reminderCount <= after.requests[rid].reminderCount <= s.requests[rid].reminderCount + |tasks|
    decreases |tasks|
  {
    if |tasks| > 0 {
      var n := |tasks| - 1;
      FoldReminderCounts(s, tasks[..n], step, rid);
      var p := Fold(s, tasks[..n], step);
      assert Fold(s, tasks, step).store == step(p.store, tasks[n], n).store;
    }
  }

  lemma {:induction false} FoldKeepsGuard(s: Store, tasks: seq<WorkflowTask>, step: Step, k: int)
    requires StepKeepsGuard(step)
    ensures FollowUpAllowed(Fold(s, tasks, step).store, k) == FollowUpAllowed(s, k)
    decreases |tasks|
  {
    if |tasks| > 0 {
      var n := |tasks| - 1;
      FoldKeepsGuard(s, tasks[..n], step, k);
      var p := Fold(s, tasks[..n], step);
      assert Fold(s, tasks, step).store == step(p.store, tasks[n], n).store;
    }
  }

  /** The j-th task ends marked by the step that ran it: later steps leave its row alone. */
  lemma {:induction false} FoldFinalMark(s: Store, tasks: seq<WorkflowTask>, step: Step, j: nat)
    requires StepFrames(step) && StepMarks(step)
    requires DistinctIds(tasks) && AllStored(s, tasks) && j < |tasks|
    ensures var k, r := tasks[j].id.value, Fold(s, tasks, step).store;
      && k in r.tasks
      && r.tasks[k].status == (if step(Fold(s, tasks[..j], step).store, tasks[j], j).completed then TaskCompleted else TaskFailed)
    decreases |tasks|
  {
    var n := |tasks| - 1;
    var k := tasks[j].id.value;
    PrefixOfDistinctStored(s, tasks, n);
    FoldShape(s, tasks[..n], step);
    var p := Fold(s, tasks[..n], step);
    var e := step(p.store, tasks[n], n);
    assert Fold(s, tasks, step).store == e.store;
    StepInstance(step, p.store, tasks[n], n);
    if j < n {
      assert tasks[..n][j] == tasks[j] && tasks[..n][..j] == tasks[..j];
      FoldFinalMark(s, tasks[..n], step, j);
      assert tasks[n].id != Some(k);
    }
  }

  /** A non-empty list is its prefix followed by its last element. */
  lemma LastSplit(tasks: seq<WorkflowTask>)
    requires |tasks| > 0
    ensures tasks[..|tasks| - 1] + [tasks[|tasks| - 1]] == tasks
  {
  }

  /** Running one more task extends the fold by one step. */
  lemma FoldSnoc(s: Store, tasks: seq<WorkflowTask>, step: Step, i: nat)
    requires i < |tasks|
    ensures var p := Fold(s, tasks[..i], step);
      var e := step(p.store, tasks[i], i);
      Fold(s, tasks[..i + 1], step) == Tally(e.store, p.completed + if e.completed then 1 else 0)
  {
    assert tasks[..i + 1][..i] == tasks[..i];
  }

  // The batch of `execute_pending_tasks`.

  /** A batch writes only task rows it was given, marks each of them as no longer pending,
      adds and removes no row and touches no company. */
  lemma BatchFrame(s: Store, tasks: seq<WorkflowTask>, env: nat -> Attempt, now: Time)
    ensures var r := RunBatch(s, tasks, env, now).store;
      && r.companies == s.companies && r.requests.Keys == s.requests.Keys && r.tasks.Keys == s.tasks.Keys
      && (forall k :: k in s.tasks && NotListed(k, tasks) ==> r.tasks[k] == s.tasks[k])
      && (forall j :: 0 <= j < |tasks| && tasks[j].id.Some? && tasks[j].id.value in s.tasks ==>
            r.tasks[tasks[j].id.value].status in {TaskCompleted, TaskFailed})
  {
    var step := BatchStep(env, now);
    var r := Fold(s, tasks, step).store;
    BatchStepFrames(env, now);
    BatchStepMarks(env, now);
    FoldShape(s, tasks, step);
    forall k | k in s.tasks && NotListed(k, tasks) ensures r.tasks[k] == s.tasks[k] {
      FoldLeavesUnlisted(s, tasks, step, k);
    }
    forall j | 0 <= j < |tasks| && tasks[j].id.Some? && tasks[j].id.value in s.tasks
      ensures r.tasks[tasks[j].id.value].status in {TaskCompleted, TaskFailed}
    {
      FoldMarksTask(s, tasks, step, j);
    }
  }

  /** The batch's count is exactly the number of its tasks left marked "completed" (the
      fetched list holds each stored task once). */
  lemma BatchCount(s: Store, tasks: seq<WorkflowTask>, env: nat -> Attempt, now: Time)
    requires DistinctIds(tasks) && AllStored(s, tasks)
    ensures RunBatch(s, tasks, env, now).completed == CountCompleted(RunBatch(s, tasks, env, now).store, tasks)
  {
    BatchStepFrames(env, now);
    BatchStepMarks(env, now);
    FoldCount(s, tasks, BatchStep(env, now));
  }

  /** Each fetched task ends "completed" exactly when dispatching it returned True, judged on
      the store the batch started from: no step opens or closes a request's follow-up guard,
      so the i-th task succeeds iff its own attempt delivered, its type is a reminder or an
      escalation, and its request passed the guard before the batch; otherwise "failed". */
  lemma BatchTaskOutcome(s: Store, tasks: seq<WorkflowTask>, env: nat -> Attempt, now: Time, j: nat)
    requires DistinctIds(tasks) && AllStored(s, tasks) && j < |tasks|
    ensures var k, r := tasks[j].id.value, RunBatch(s, tasks, env, now).store;
      && k in r.tasks
      && r.tasks[k].status == (if DispatchSucceeds(s, tasks[j], env(j)) then TaskCompleted else TaskFailed)
  {
    var step := BatchStep(env, now);
    BatchStepFrames(env, now);
    BatchStepMarks(env, now);
    BatchStepKeepsGuard(env, now);
    FoldFinalMark(s, tasks, step, j);
    var p := Fold(s, tasks[..j], step);
    FoldKeepsGuard(s, tasks[..j], step, tasks[j].requestId);
    assert step(p.store, tasks[j], j) == ExecuteTask(p.store, tasks[j], env(j), now);
  }

  /** A COMPLETED or REJECTED request passes through a whole batch unchanged. */
  lemma BatchKeepsClosedRequests(s: Store, tasks: seq<WorkflowTask>, env: nat -> Attempt, now: Time, rid: int)
    requires rid in s.requests && IsTerminal(s.requests[rid].status)
    ensures rid in RunBatch(s, tasks, env, now).store.requests
    ensures RunBatch(s, tasks, env, now).store.requests[rid] == s.requests[rid]
  {
    BatchStepKeepsClosed(env, now);
    FoldKeepsClosedRequests(s, tasks, BatchStep(env, now), rid);
  }

  /** A batch never lowers a reminder count, and raises it by at most the batch size. */
  lemma BatchReminderCounts(s: Store, tasks: seq<WorkflowTask>, env: nat -> Attempt, now: Time, rid: int)
    requires rid in s.requests
    ensures var after := RunBatch(s, tasks, env, now).store;
      && rid in after.requests
      && s.requests[rid].reminderCount <= after.requests[rid].reminderCount <= s.requests[rid].reminderCount + |tasks|
  {
    BatchStepReminders(env, now);
    FoldReminderCounts(s, tasks, BatchStep(env, now), rid);
  }

  /** A task of the store after a batch over the tasks due at `now` is not due: either it
      was not fetched, and so was not due and is unchanged, or it was marked. */
  lemma NotDueAfterBatch(s: Store, env: nat -> Attempt, now: Time, k: int)
    requires k in RunBatch(s, GetPendingTasks(s, now), env, now).store.tasks
    ensures !IsDue(RunBatch(s, GetPendingTasks(s, now), env, now).store.tasks[k], now)
  {
    var tasks := GetPendingTasks(s, now);
    var r := RunBatch(s, tasks, env, now).store;
    BatchFrame(s, tasks, env, now);
    if !NotListed(k, tasks) {
      var j :| 0 <= j < |tasks| && tasks[j].id == Some(k);
      assert IsStoredTask(s, tasks[j]);
    }
  }

  /** After a batch over the tasks due at `now`, none is due any more. */
  lemma NoDueTaskLeft(s: Store, env: nat -> Attempt, now: Time)
    ensures GetPendingTasks(RunBatch(s, GetPendingTasks(s, now), env, now).store, now) == []
  {
    var r := RunBatch(s, GetPendingTasks(s, now), env, now).store;
    forall k | k in r.tasks ensures !IsDue(r.tasks[k], now) {
      NotDueAfterBatch(s, env, now, k);
    }
  }

  /** The due-task list holds each stored task once under its own id. */
  lemma DueTasksDistinctStored(s: Store, now: Time)
    ensures DistinctIds(GetPendingTasks(s, now)) && AllStored(s, GetPendingTasks(s, now))
  {
    var tasks := GetPendingTasks(s, now);
    forall a, b | 0 <= a < b < |tasks| ensures tasks[a].id != tasks[b].id {
      assert IsStoredTask(s, tasks[a]) && IsStoredTask(s, tasks[b]);
    }
    forall j | 0 <= j < |tasks| ensures tasks[j].id.Some? && tasks[j].id.value in s.tasks {
      assert IsStoredTask(s, tasks[j]);
    }
  }

  /** What a batch run over the tasks due at `now` leaves behind as store `r` with count
      `count`: no task due, the count equal to the number of fetched tasks marked "completed",
      the same companies and row ids, tasks not due and closed requests untouched. */
  ghost predicate BatchOutcome(s: Store, now: Time, r: Store, count: int) {
    var tasks := GetPendingTasks(s, now);
    && GetPendingTasks(r, now) == []
    && count == CountCompleted(r, tasks) <= |tasks|
    && r.companies == s.companies && r.tasks.Keys == s.tasks.Keys && r.requests.Keys == s.requests.Keys
    && (forall k :: k in s.tasks && !IsDue(s.tasks[k], now) ==> r.tasks[k] == s.tasks[k])
    && (forall k :: k in s.requests && IsTerminal(s.requests[k].status) ==> r.requests[k] == s.requests[k])
  }

  /** Running the batch over the tasks due at `now` leaves none due, counts exactly the
      tasks marked "completed", leaves tasks not due and closed requests untouched. */
  lemma BatchOverDueTasks(s: Store, env: nat -> Attempt, now: Time)
    ensures var b := RunBatch(s, GetPendingTasks(s, now), env, now); BatchOutcome(s, now, b.store, b.completed)
  {
    var tasks := GetPendingTasks(s, now);
    var r := RunBatch(s, tasks, env, now).store;
    NoDueTaskLeft(s, env, now);
    DueTasksDistinctStored(s, now);
    BatchCount(s, tasks, env, now);
    BatchFrame(s, tasks, env, now);
    forall k | k in s.tasks && !IsDue(s.tasks[k], now) ensures r.tasks[k] == s.tasks[k] {
      assert NotListed(k, tasks) by {
        forall j | 0 <= j < |tasks| ensures tasks[j].id != Some(k) {
          assert IsStoredTask(s, tasks[j]) && IsDue(tasks[j], now);
        }
      }
    }
    forall k | k in s.requests && IsTerminal(s.requests[k].status) ensures r.requests[k] == s.requests[k] {
      BatchKeepsClosedRequests(s, tasks, env, now, k);
    }
  }

  /** Task `t`'s row in `r` is marked "completed" if dispatching it with outcome `a` on the
      store `s` returned True, and "failed" otherwise. */
  ghost predicate MarkedByOutcome(s: Store, t: WorkflowTask, a: Attempt, r: Store) {
    t.id.Some? && t.id.value in r.tasks
    && r.tasks[t.id.value].status == (if DispatchSucceeds(s, t, a) then TaskCompleted else TaskFailed)
  }

  /** Every task due at `now` ends marked by whether its own dispatch returned True. */
  lemma DueTaskOutcomes(s: Store, env: nat -> Attempt, now: Time)
    ensures var tasks, r := GetPendingTasks(s, now), RunBatch(s, GetPendingTasks(s, now), env, now).store;
      forall j :: 0 <= j < |tasks| ==> MarkedByOutcome(s, tasks[j], env(j), r)
  {
    var tasks := GetPendingTasks(s, now);
    DueTasksDistinctStored(s, now);
    forall j | 0 <= j < |tasks|
      ensures MarkedByOutcome(s, tasks[j], env(j), RunBatch(s, tasks, env, now).store)
    {
      BatchTaskOutcome(s, tasks, env, now, j);
    }
  }

  /** `execute_pending_tasks`: fetches the tasks due now, runs each once in due order and
      returns how many it counted as executed. Afterwards no due task is left: each fetched
      task is marked "completed" when its dispatch succeeds against the store the batch
      started from and "failed" otherwise, the count is the number marked "completed",
      tasks not fetched are untouched and closed requests are unchanged. */
  method ExecutePendingTasks(s: Store, env: nat -> Attempt, now: Time) returns (r: Store, count: nat)
    ensures Tally(r, count) == RunBatch(s, GetPendingTasks(s, now), env, now)
    ensures BatchOutcome(s, now, r, count)
    ensures forall j :: 0 <= j < |GetPendingTasks(s, now)| ==> MarkedByOutcome(s, GetPendingTasks(s, now)[j], env(j), r)
  {
    var tasks := GetPendingTasks(s, now);
    r, count := RunTasks(s, tasks, BatchStep(env, now));
    BatchOverDueTasks(s, env, now);
    DueTaskOutcomes(s, env, now);
  }

  /** Runs `step` over `tasks` in order, threading the store and counting the steps that
      report success: the loop that computes `Fold`. */
  method RunTasks(s: Store, tasks: seq<WorkflowTask>, step: Step) returns (r: Store, count: nat)
    ensures Tally(r, count) == Fold(s, tasks, step)
    ensures count <= |tasks|
  {
    r, count := s, 0;
    var i := 0;
    while i < |tasks|
      invariant 0 <= i <= |tasks|
      invariant Tally(r, count) == Fold(s, tasks[..i], step)
    {
      FoldSnoc(s, tasks, step, i);
      var e := step(r, tasks[i], i);
      r := e.store;
      if e.completed {
        count := count + 1;
      }
      i := i + 1;
    }
    assert tasks[..i] == tasks;
  }

  // ------------------------------------------------------------ consequences

  /** Once a request is sent, its reminder is among the tasks due when the retry delay
      has passed, so the next batch after that moment picks it up. */
  lemma ReminderFallsDue(s: Store, cfg: Config, id: int, now: Time)
    requires HasCompanyFor(s, id)
    ensures var r := SendRequest(s, cfg, id, true, now).store;
      exists t :: t in GetPendingTasks(r, now + Days(cfg.retryDelayDays))
        && t.requestId == id && t.taskType == ReminderTask
  {
    var r := SendRequest(s, cfg, id, true, now).store;
    var a, b :| FollowUpPair(s.tasks, r.tasks, id, cfg, now, a, b);
    assert r.tasks[a].taskType == ReminderTask;
    assert IsDue(r.tasks[a], now + Days(cfg.retryDelayDays));
  }

  /** A reminder or escalation task for a COMPLETED or REJECTED request is marked "failed",
      because the follow-up guard returns False; it sends nothing and leaves every request as
      it was. */
  lemma FollowUpForClosedRequestFails(s: Store, t: WorkflowTask, attempt: Attempt, now: Time)
    requires IsStoredTask(s, t) && t.requestId in s.requests && IsTerminal(s.requests[t.requestId].status)
    ensures var e := ExecuteTask(s, t, attempt, now);
      && !e.completed && e.store.tasks[t.id.value].status == TaskFailed
      && e.store.requests == s.requests
  {
  }

  /** `send_request` does not look at the current status: a COMPLETED request that is sent
      again becomes SENT and gets a fresh pair of follow-ups. */
  lemma ResendingClosedRequest(s: Store, cfg: Config, id: int, now: Time)
    requires HasCompanyFor(s, id) && s.requests[id].status == Completed
    ensures var r := SendRequest(s, cfg, id, true, now);
      && r.ok && r.store.requests[id].status == Sent
      && FollowUpsScheduled(s.tasks, r.store.tasks, id, cfg, now)
  {
  }

  /** A model verdict of "acknowledged" on a DRAFT request (never sent) makes it
      ACKNOWLEDGED with an acknowledgement time but still no send time. */
  lemma AcknowledgedWithoutSending(s: Store, id: int, text: string, now: Time)
    requires id in s.requests && s.requests[id].status == Draft && s.requests[id].sentAt.None?
    requires !IsBlank(text)
    ensures var answer := Parsed("acknowledged", "Eingang bestätigt", true, "Warten", 80);
      var after := ProcessResponse(s, id, text, ModelAssisted(answer), now).store.requests[id];
      && after.status == Acknowledged && after.acknowledgedAt == Some(now) && after.sentAt.None?
  {
    assert CoerceResponseType("acknowledged") == RespAcknowledged;
  }

  /** A reply asking for more information reopens a COMPLETED request as PENDING. */
  lemma InformationRequestReopensClosedRequest(s: Store, id: int, text: string, now: Time)
    requires id in s.requests && s.requests[id].status == Completed
    requires !IsBlank(text)
    ensures var answer := Parsed("needs_info", "Nachweis erforderlich", true, "Nachweis senden", 80);
      ProcessResponse(s, id, text, ModelAssisted(answer), now).store.requests[id].status == Pending
  {
    assert CoerceResponseType("needs_info") == RespNeedsInfo;
  }

  /** An empty reply to a SENT request keeps it SENT but moves `sent_at` to the reply time:
      the stamping rule runs again for the unchanged status. */
  lemma EmptyReplyRestampsSentAt(s: Store, id: int, classifier: Classifier, now: Time)
    requires id in s.requests && s.requests[id].status == Sent
    ensures var after := ProcessResponse(s, id, "", classifier, now).store.requests[id];
      && after.status == Sent && after.sentAt == Some(now)
      && after.notes == Some("Response analyzed: " + EmptyAnalysis.summary) && after.responseText == Some("")
  {
  }
}

=== FILE: sorting.dfy ===
/** Ordering helpers shared by the store's ordered queries (`ORDER BY` clauses). */
module Sorting {

  ghost predicate Total<T(!new)>(le: (T, T) -> bool) {
    forall a, b :: le(a, b) || le(b, a)
  }

  ghost predicate Transitive<T(!new)>(le: (T, T) -> bool) {
    forall a, b, c :: le(a, b) && le(b, c) ==> le(a, c)
  }

  ghost predicate SortedBy<T>(s: seq<T>, le: (T, T) -> bool) {
    forall i, j :: 0 <= i < j < |s| ==> le(s[i], s[j])
  }

  ghost predicate Distinct<T>(s: seq<T>) {
    forall i, j :: 0 <= i < j < |s| ==> s[i] != s[j]
  }

  /** Inserts `x` before the first element it must precede. */
  function Insert<T>(x: T, s: seq<T>, le: (T, T) -> bool): (r: seq<T>)
    ensures multiset(r) == multiset(s) + multiset{x}
    ensures |r| == |s| + 1
  {
    if |s| == 0 then [x]
    else if le(x, s[0]) then [x] + s
    else
      assert s == [s[0]] + s[1..];
      [s[0]] + Insert(x, s[1..], le)
  }

  /** Inserting into an ordered sequence keeps it ordered. */
  lemma {:induction false} InsertKeepsOrder<T(!new)>(x: T, s: seq<T>, le: (T, T) -> bool)
    ensures Total(le) && Transitive(le) && SortedBy(s, le) ==> SortedBy(Insert(x, s, le), le)
  {
    if !(Total(le) && Transitive(le) && SortedBy(s, le)) || |s| == 0 {
    } else if le(x, s[0]) {
      PrependSmaller(x, s, le);
    } else {
      assert s == [s[0]] + s[1..];
      var tail := Insert(x, s[1..], le);
      InsertKeepsOrder(x, s[1..], le);
      assert le(s[0], x);
      forall k | 0 <= k < |tail|
        ensures le(s[0], tail[k])
      {
        assert tail[k] in multiset(tail);
        if tail[k] != x {
          assert tail[k] in multiset(s[1..]);
          var m :| 0 <= m < |s[1..]| && s[1..][m] == tail[k];
          assert s[m + 1] == tail[k];
        }
      }
      assert Insert(x, s, le) == [s[0]] + tail;
    }
  }

  lemma PrependSmaller<T(!new)>(x: T, s: seq<T>, le: (T, T) -> bool)
    requires Transitive(le) && SortedBy(s, le) && |s| > 0 && le(x, s[0])
    ensures SortedBy([x] + s, le)
  {
    forall k | 0 < k < |s|
      ensures le(x, s[k])
    {
      assert le(s[0], s[k]);
    }
  }

  /** Insertion sort: a permutation of `s`, ordered by `le` whenever `le` is a total preorder. */
  function InsertionSort<T(!new)>(s: seq<T>, le: (T, T) -> bool): (r: seq<T>)
    ensures multiset(r) == multiset(s)
    ensures |r| == |s|
    ensures Total(le) && Transitive(le) ==> SortedBy(r, le)
  {
    if |s| == 0 then []
    else
      assert s == [s[0]] + s[1..];
      var rest := InsertionSort(s[1..], le);
      InsertKeepsOrder(s[0], rest, le);
      Insert(s[0], rest, le)
  }

  /** A sequence without repetitions holds each of its elements exactly once. */
  lemma {:induction false} DistinctMultiplicity<T>(s: seq<T>, x: T)
    requires Distinct(s)
    ensures multiset(s)[x] <= 1
  {
    if |s| > 0 {
      assert s == [s[0]] + s[1..];
      DistinctMultiplicity(s[1..], x);
      if x == s[0] {
        assert x !in s[1..];
      }
    }
  }

  /** Rearranging a sequence without repetitions gives a sequence without repetitions. */
  lemma DistinctPermutation<T>(s: seq<T>, r: seq<T>)
    requires Distinct(s) && multiset(r) == multiset(s)
    ensures Distinct(r)
  {
    forall i, j | 0 <= i < j < |r|
      ensures r[i] != r[j]
    {
      if r[i] == r[j] {
        var x := r[i];
        assert r == r[..j] + r[j..];
        assert x in r[..j];
        assert x in r[j..];
        assert multiset(r)[x] == multiset(r[..j])[x] + multiset(r[j..])[x];
        DistinctMultiplicity(s, x);
      }
    }
  }

  /** Code-point lexicographic order on strings (SQLite's BINARY collation on UTF-8). */
  predicate StrLe(a: string, b: string) {
    if |a| == 0 then true
    else if |b| == 0 then false
    else if a[0] != b[0] then a[0] < b[0]
    else StrLe(a[1..], b[1..])
  }

  lemma {:induction false} StrLeTotal(a: string, b: string)
    ensures StrLe(a, b) || StrLe(b, a)
  {
    if |a| > 0 && |b| > 0 && a[0] == b[0] {
      StrLeTotal(a[1..], b[1..]);
    }
  }

  lemma {:induction false} StrLeTransitive(a: string, b: string, c: string)
    requires StrLe(a, b) && StrLe(b, c)
    ensures StrLe(a, c)
  {
    if |a| > 0 && |b| > 0 && |c| > 0 && a[0] == b[0] && b[0] == c[0] {
      StrLeTransitive(a[1..], b[1..], c[1..]);
    }
  }
}

=== FILE: store.dfy ===
/** The persistence gateway (src/core/database.py) as maps from row id to record.
    Ids follow SQLite's AUTOINCREMENT: each insert takes the next unused positive id.
    `CURRENT_TIMESTAMP` is the explicit `now` argument. */
module Store {
  import opened Wrappers
  import opened Models
  import opened Sorting

  datatype StoreState = StoreState(
    companies: map<int, Company>,
    requests: map<int, GdprRequest>,
    tasks: map<int, WorkflowTask>,
    nextCompanyId: int,
    nextRequestId: int,
    nextTaskId: int)
  {
    /** Every row sits under its own id, and every id is below the next one to be issued. */
    ghost predicate Valid() {
      && 1 <= nextCompanyId && 1 <= nextRequestId && 1 <= nextTaskId
      && (forall k :: k in companies ==> 1 <= k < nextCompanyId && companies[k].id == Some(k))
      && (forall k :: k in requests ==> 1 <= k < nextRequestId && requests[k].id == Some(k))
      && (forall k :: k in tasks ==> 1 <= k < nextTaskId && tasks[k].id == Some(k))
    }
  }

  type Store = s: StoreState | s.Valid() witness StoreState(map[], map[], map[], 1, 1, 1)

  const EmptyStore: Store := StoreState(map[], map[], map[], 1, 1, 1)

  /** The result of an insert: the new store and the row id it issued. */
  datatype Added = Added(store: Store, id: int)

  /** `t` is the row stored under its own id. */
  ghost predicate IsStoredTask(s: Store, t: WorkflowTask) {
    t.id.Some? && t.id.value in s.tasks && s.tasks[t.id.value] == t
  }

  ghost predicate IsStoredRequest(s: Store, r: GdprRequest) {
    r.id.Some? && r.id.value in s.requests && s.requests[r.id.value] == r
  }

  ghost predicate IsStoredCompany(s: Store, c: Company) {
    c.id.Some? && c.id.value in s.companies && s.companies[c.id.value] == c
  }

  /** The ids in `[lo, hi)` of rows that satisfy `keep`, in increasing order (a table scan). */
  function SelectIds<V>(m: map<int, V>, keep: V -> bool, lo: int, hi: int): (r: seq<int>)
    ensures forall i :: 0 <= i < |r| ==> r[i] in m && keep(m[r[i]]) && lo <= r[i] < hi
    ensures forall k :: lo <= k < hi && k in m && keep(m[k]) ==> k in r
    ensures forall i, j :: 0 <= i < j < |r| ==> r[i] < r[j]
    decreases hi - lo
  {
    if hi <= lo then []
    else if lo in m && keep(m[lo]) then [lo] + SelectIds(m, keep, lo + 1, hi)
    else SelectIds(m, keep, lo + 1, hi)
  }

  /** The rows under the given ids. */
  function RowsAt<V>(m: map<int, V>, ids: seq<int>): (r: seq<V>)
    requires forall i :: 0 <= i < |ids| ==> ids[i] in m
    ensures |r| == |ids| && forall i :: 0 <= i < |ids| ==> r[i] == m[ids[i]]
  {
    seq(|ids|, i requires 0 <= i < |ids| => m[ids[i]])
  }

  /** The rows under ids in `[lo, hi)` that satisfy `keep`, each exactly once, ordered by
      `le` (a `SELECT ... WHERE ... ORDER BY`). `key` reads a row's own id. */
  function SortedSelection<V(!new)>(m: map<int, V>, keep: V -> bool, lo: int, hi: int,
                                    le: (V, V) -> bool, key: V -> Option<int>): (r: seq<V>)
    requires forall k :: k in m ==> key(m[k]) == Some(k)
    ensures forall i :: 0 <= i < |r| ==> key(r[i]).Some? && key(r[i]).value in m && m[key(r[i]).value] == r[i] && keep(r[i])
    ensures forall k :: lo <= k < hi && k in m && keep(m[k]) ==> m[k] in r
    ensures Distinct(r)
    ensures Total(le) && Transitive(le) ==> SortedBy(r, le)
    ensures |r| == 0 <==> forall k :: lo <= k < hi && k in m ==> !keep(m[k])
  {
    var ids := SelectIds(m, keep, lo, hi);
    var rows := RowsAt(m, ids);
    var r := InsertionSort(rows, le);
    RowsAtDistinct(m, ids, key);
    DistinctPermutation(rows, r);
    SortedRowsComplete(m, keep, lo, hi, ids, r);
    SortedRowsStored(m, keep, ids, key, r);
    r
  }

  /** Rows under increasing ids are pairwise different, since each row names its own id. */
  lemma RowsAtDistinct<V>(m: map<int, V>, ids: seq<int>, key: V -> Option<int>)
    requires forall k :: k in m ==> key(m[k]) == Some(k)
    requires forall i :: 0 <= i < |ids| ==> ids[i] in m
    requires forall i, j :: 0 <= i < j < |ids| ==> ids[i] < ids[j]
    ensures Distinct(RowsAt(m, ids))
  {
    var rows := RowsAt(m, ids);
    forall i, j | 0 <= i < j < |rows| ensures rows[i] != rows[j] {
      assert rows[i] == m[ids[i]] && rows[j] == m[ids[j]];
      assert key(m[ids[i]]) == Some(ids[i]);
      assert key(m[ids[j]]) == Some(ids[j]);
    }
  }

  /** A rearrangement of the selected rows still holds every selected row. */
  lemma SortedRowsComplete<V>(m: map<int, V>, keep: V -> bool, lo: int, hi: int, ids: seq<int>, r: seq<V>)
    requires forall k :: lo <= k < hi && k in m && keep(m[k]) ==> k in ids
    requires forall i :: 0 <= i < |ids| ==> ids[i] in m
    requires multiset(r) == multiset(RowsAt(m, ids))
    ensures forall k :: lo <= k < hi && k in m && keep(m[k]) ==> m[k] in r
  {
    var rows := RowsAt(m, ids);
    forall k | lo <= k < hi && k in m && keep(m[k]) ensures m[k] in r {
      var i :| 0 <= i < |ids| && ids[i] == k;
      assert rows[i] in multiset(r);
    }
  }

  /** Every element of a rearrangement of the selected rows is a kept row under its own id. */
  lemma SortedRowsStored<V>(m: map<int, V>, keep: V -> bool, ids: seq<int>, key: V -> Option<int>, r: seq<V>)
    requires forall k :: k in m ==> key(m[k]) == Some(k)
    requires forall i :: 0 <= i < |ids| ==> ids[i] in m && keep(m[ids[i]])
    requires multiset(r) == multiset(RowsAt(m, ids))
    ensures forall i :: 0 <= i < |r| ==> key(r[i]).Some? && key(r[i]).value in m && m[key(r[i]).value] == r[i] && keep(r[i])
  {
    var rows := RowsAt(m, ids);
    forall i | 0 <= i < |r|
      ensures key(r[i]).Some? && key(r[i]).value in m && m[key(r[i]).value] == r[i] && keep(r[i])
    {
      assert r[i] in multiset(rows);
      var j :| 0 <= j < |rows| && rows[j] == r[i];
      var k := ids[j];
      assert r[i] == m[k] && k in m && keep(m[k]);
      assert key(m[k]) == Some(k);
    }
  }

  // ---------------------------------------------------------------- companies

  /** The row `add_company` writes: the given fields, the new id, both timestamps `now`. */
  function CompanyRow(c: Company, id: int, now: Time): Company {
    c.(id := Some(id), createdAt := now, updatedAt := now)
  }

  /** `add_company`: inserts under a fresh positive id and changes no other row. */
  function AddCompany(s: Store, c: Company, now: Time): (r: Added)
    ensures r.id >= 1 && r.id !in s.companies
    ensures r.store.companies == s.companies[r.id := CompanyRow(c, r.id, now)]
    ensures r.store.requests == s.requests && r.store.tasks == s.tasks
  {
    var id := s.nextCompanyId;
    Added(s.(companies := s.companies[id := CompanyRow(c, id, now)], nextCompanyId := id + 1), id)
  }

  /** `get_company`. */
  function GetCompany(s: Store, id: int): Option<Company> {
    if id in s.companies then Some(s.companies[id]) else None
  }

  /** After `add_company`, `get_company` on the returned id yields the stored fields,
      and every other id reads as before. */
  lemma AddThenGetCompany(s: Store, c: Company, now: Time, other: int)
    ensures var a := AddCompany(s, c, now);
      && GetCompany(a.store, a.id).Some?
      && var got := GetCompany(a.store, a.id).value;
      && got.id == Some(a.id) && got.name == c.name && got.email == c.email
      && got.website == c.website && got.dataProtectionOfficer == c.dataProtectionOfficer
      && got.address == c.address && got.notes == c.notes
      && (other != a.id ==> GetCompany(a.store, other) == GetCompany(s, other))
  {
  }

  /** The first company (in id order from `k` on) with the given name. */
  function FindCompanyByName(s: Store, name: string, k: int): (r: Option<Company>)
    requires 1 <= k
    ensures r.Some? ==> IsStoredCompany(s, r.value) && r.value.name == name && k <= r.value.id.value
    ensures r.Some? ==> forall j :: k <= j < r.value.id.value && j in s.companies ==> s.companies[j].name != name
    ensures r.None? ==> forall j :: k <= j && j in s.companies ==> s.companies[j].name != name
    decreases s.nextCompanyId - k
  {
    if s.nextCompanyId <= k then None
    else if k in s.companies && s.companies[k].name == name then Some(s.companies[k])
    else FindCompanyByName(s, name, k + 1)
  }

  /** `get_company_by_name`: some company of that name exists iff one is returned; the
      row SQLite returns first is taken to be the one with the lowest id. */
  function GetCompanyByName(s: Store, name: string): (r: Option<Company>)
    ensures r.Some? ==> IsStoredCompany(s, r.value) && r.value.name == name
    ensures r.None? <==> forall j :: j in s.companies ==> s.companies[j].name != name
  {
    FindCompanyByName(s, name, 1)
  }

  /** `update_company`: overwrites the editable fields of the company with `c.id` and
      stamps `updated_at`; an id that is `None` or absent matches no row. */
  function UpdateCompany(s: Store, c: Company, now: Time): (r: Store)
    ensures r.requests == s.requests && r.tasks == s.tasks && r.companies.Keys == s.companies.Keys
    ensures forall k :: k in s.companies && Some(k) != c.id ==> r.companies[k] == s.companies[k]
    ensures c.id.Some? && c.id.value in s.companies ==>
      r.companies[c.id.value] == c.(createdAt := s.companies[c.id.value].createdAt, updatedAt := now)
  {
    if c.id.Some? && c.id.value in s.companies then
      var id := c.id.value;
      s.(companies := s.companies[id := c.(createdAt := s.companies[id].createdAt, updatedAt := now)])
    else s
  }

  function NameLe(a: Company, b: Company): bool {
    StrLe(a.name, b.name)
  }

  /** `list_companies`: every stored company exactly once, ordered by name. */
  function ListCompanies(s: Store): (r: seq<Company>)
    ensures forall i :: 0 <= i < |r| ==> IsStoredCompany(s, r[i])
    ensures forall k :: k in s.companies ==> s.companies[k] in r
    ensures Distinct(r)
    ensures forall i, j :: 0 <= i < j < |r| ==> StrLe(r[i].name, r[j].name)
  {
    assert Total(NameLe) by {
      forall a: Company, b: Company ensures NameLe(a, b) || NameLe(b, a) {
        StrLeTotal(a.name, b.name);
      }
    }
    assert Transitive(NameLe) by {
      forall a: Company, b: Company, c: Company | NameLe(a, b) && NameLe(b, c)
        ensures NameLe(a, c)
      {
        StrLeTransitive(a.name, b.name, c.name);
      }
    }
    SortedSelection(s.companies, (c: Company) => true, 1, s.nextCompanyId, NameLe, (c: Company) => c.id)
  }

  // ---------------------------------------------------------------- requests

  /** The row `add_request` writes: only the inserted columns come from the argument;
      id, `created_at` and all lifecycle columns take their schema defaults. */
  function RequestRow(q: GdprRequest, id: int, now: Time): GdprRequest {
    q.(id := Some(id), createdAt := now, sentAt := None, acknowledgedAt := None,
       completedAt := None, deadline := None, reminderCount := 0, lastReminderAt := None,
       responseText := None, notes := None)
  }

  /** `add_request`: inserts under a fresh positive id and changes no other row. */
  function AddRequest(s: Store, q: GdprRequest, now: Time): (r: Added)
    ensures r.id >= 1 && r.id !in s.requests
    ensures r.store.requests == s.requests[r.id := RequestRow(q, r.id, now)]
    ensures r.store.companies == s.companies && r.store.tasks == s.tasks
  {
    var id := s.nextRequestId;
    Added(s.(requests := s.requests[id := RequestRow(q, id, now)], nextRequestId := id + 1), id)
  }

  /** `get_request`. */
  function GetRequest(s: Store, id: int): Option<GdprRequest> {
    if id in s.requests then Some(s.requests[id])
    else None
  }

  /** After `add_request`, `get_request` on the returned id yields the inserted fields with
      the schema defaults: no reminders, no lifecycle timestamps, no reply, no notes. */
  lemma AddThenGetRequest(s: Store, q: GdprRequest, now: Time, other: int)
    ensures var a := AddRequest(s, q, now);
      && GetRequest(a.store, a.id).Some?
      && var got := GetRequest(a.store, a.id).value;
      && got.id == Some(a.id) && got.companyId == q.companyId && got.companyName == q.companyName
      && got.requestType == q.requestType && got.status == q.status
      && got.subject == q.subject && got.body == q.body
      && got.userName == q.userName && got.userEmail == q.userEmail && got.reason == q.reason
      && got.createdAt == now && got.reminderCount == 0
      && got.sentAt.None? && got.acknowledgedAt.None? && got.completedAt.None?
      && got.deadline.None? && got.lastReminderAt.None? && got.responseText.None? && got.notes.None?
      && (other != a.id ==> GetRequest(a.store, other) == GetRequest(s, other))
  {
  }

  predicate MatchesFilter(q: GdprRequest, filter: Option<RequestStatus>) {
    filter.None? || q.status == filter.value
  }

  function NewestFirst(a: GdprRequest, b: GdprRequest): bool {
    a.createdAt >= b.createdAt
  }

  /** `list_requests(status)`: exactly the stored requests with that status (all of them
      without a filter), each once, newest `created_at` first. */
  function ListRequests(s: Store, filter: Option<RequestStatus>): (r: seq<GdprRequest>)
    ensures forall i :: 0 <= i < |r| ==> IsStoredRequest(s, r[i]) && MatchesFilter(r[i], filter)
    ensures forall k :: k in s.requests && MatchesFilter(s.requests[k], filter) ==> s.requests[k] in r
    ensures Distinct(r)
    ensures forall i, j :: 0 <= i < j < |r| ==> r[i].createdAt >= r[j].createdAt
  {
    SortedSelection(s.requests, (q: GdprRequest) => MatchesFilter(q, filter), 1, s.nextRequestId,
                    NewestFirst, (q: GdprRequest) => q.id)
  }

  /** The lifecycle timestamp columns that `update_request_status` can stamp. */
  datatype StampField = SentAtField | AcknowledgedAtField | CompletedAtField

  /** The status-to-timestamp table: one status, one timestamp column. */
  function StampFieldFor(status: RequestStatus): Option<StampField> {
    match status
    case Sent => Some(SentAtField)
    case Acknowledged => Some(AcknowledgedAtField)
    case Completed => Some(CompletedAtField)
    case _ => None
  }

  function Stamp(q: GdprRequest, f: Option<StampField>, now: Time): GdprRequest {
    match f
    case None => q
    case Some(SentAtField) => q.(sentAt := Some(now))
    case Some(AcknowledgedAtField) => q.(acknowledgedAt := Some(now))
    case Some(CompletedAtField) => q.(completedAt := Some(now))
  }

  /** No two statuses stamp the same column. */
  lemma StampTableIsInjective(a: RequestStatus, b: RequestStatus)
    ensures StampFieldFor(a).Some? && StampFieldFor(a) == StampFieldFor(b) ==> a == b
    ensures StampFieldFor(a).Some? <==> a in {Sent, Acknowledged, Completed}
  {
  }

  /** `update_request_status`: sets status and notes (notes overwritten even by `None`),
      stamps `sent_at`, `acknowledged_at` or `completed_at` exactly when the new status is
      SENT, ACKNOWLEDGED or COMPLETED, and changes nothing else; an unknown id matches no row. */
  function UpdateRequestStatus(s: Store, id: int, status: RequestStatus, notes: Option<string>, now: Time): (r: Store)
    ensures r.companies == s.companies && r.tasks == s.tasks && r.requests.Keys == s.requests.Keys
    ensures forall k :: k in s.requests && k != id ==> r.requests[k] == s.requests[k]
    ensures id !in s.requests ==> r == s
    ensures id in s.requests ==>
      var before, after := s.requests[id], r.requests[id];
      && after.status == status && after.notes == notes
      && after.sentAt == (if status == Sent then Some(now) else before.sentAt)
      && after.acknowledgedAt == (if status == Acknowledged then Some(now) else before.acknowledgedAt)
      && after.completedAt == (if status == Completed then Some(now) else before.completedAt)
      && after.(status := before.status, notes := before.notes, sentAt := before.sentAt,
                acknowledgedAt := before.acknowledgedAt, completedAt := before.completedAt) == before
  {
    if id in s.requests then
      var q := s.requests[id];
      s.(requests := s.requests[id := Stamp(q.(status := status, notes := notes), StampFieldFor(status), now)])
    else s
  }

  /** `add_reminder`: one more reminder, stamped `now`; nothing else changes. */
  function AddReminder(s: Store, id: int, now: Time): (r: Store)
    ensures r.companies == s.companies && r.tasks == s.tasks && r.requests.Keys == s.requests.Keys
    ensures forall k :: k in s.requests && k != id ==> r.requests[k] == s.requests[k]
    ensures id !in s.requests ==> r == s
    ensures id in s.requests ==>
      var before, after := s.requests[id], r.requests[id];
      && after.reminderCount == before.reminderCount + 1
      && after.lastReminderAt == Some(now)
      && after.(reminderCount := before.reminderCount, lastReminderAt := before.lastReminderAt) == before
  {
    if id in s.requests then
      var q := s.requests[id];
      s.(requests := s.requests[id := q.(reminderCount := q.reminderCount + 1, lastReminderAt := Some(now))])
    else s
  }

  /** The `UPDATE ... SET response_text` that `process_response` issues directly:
      stores the reply verbatim and changes nothing else. */
  function SetResponseText(s: Store, id: int, text: string): (r: Store)
    ensures r.companies == s.companies && r.tasks == s.tasks && r.requests.Keys == s.requests.Keys
    ensures forall k :: k in s.requests && k != id ==> r.requests[k] == s.requests[k]
    ensures id !in s.requests ==> r == s
    ensures id in s.requests ==>
      r.requests[id].responseText == Some(text)
      && r.requests[id].(responseText := s.requests[id].responseText) == s.requests[id]
  {
    if id in s.requests then s.(requests := s.requests[id := s.requests[id].(responseText := Some(text))])
    else s
  }

  // ---------------------------------------------------------------- tasks

  /** The row `add_task` writes: request, type, due time and status from the argument;
      `executed_at`, result and error start empty. */
  function TaskRow(t: WorkflowTask, id: int): WorkflowTask {
    t.(id := Some(id), executedAt := None, result := None, error := None)
  }

  /** `add_task`: inserts under a fresh positive id and changes no other row. */
  function AddTask(s: Store, t: WorkflowTask): (r: Added)
    ensures r.id >= 1 && r.id !in s.tasks
    ensures r.store.tasks == s.tasks[r.id := TaskRow(t, r.id)]
    ensures r.store.companies == s.companies && r.store.requests == s.requests
  {
    var id := s.nextTaskId;
    Added(s.(tasks := s.tasks[id := TaskRow(t, id)], nextTaskId := id + 1), id)
  }

  /** The filter of the due-task query. */
  predicate IsDue(t: WorkflowTask, before: Time) {
    t.status == TaskPending && t.scheduledAt <= before
  }

  function EarliestFirst(a: WorkflowTask, b: WorkflowTask): bool {
    a.scheduledAt <= b.scheduledAt
  }

  /** `get_pending_tasks(before)`: exactly the stored tasks that are "pending" and due at or
      before `before`, each once, in non-decreasing due time (ties in no promised order);
      empty exactly when no stored task is due. */
  function GetPendingTasks(s: Store, before: Time): (r: seq<WorkflowTask>)
    ensures forall i :: 0 <= i < |r| ==> IsStoredTask(s, r[i]) && IsDue(r[i], before)
    ensures forall k :: k in s.tasks && IsDue(s.tasks[k], before) ==> s.tasks[k] in r
    ensures Distinct(r)
    ensures forall i, j :: 0 <= i < j < |r| ==> r[i].scheduledAt <= r[j].scheduledAt
    ensures |r| == 0 <==> forall k :: k in s.tasks ==> !IsDue(s.tasks[k], before)
  {
    SortedSelection(s.tasks, (t: WorkflowTask) => IsDue(t, before), 1, s.nextTaskId,
                    EarliestFirst, (t: WorkflowTask) => t.id)
  }

  /** `update_task_status`: sets status, result, error and `executed_at` on the named task
      only; an unknown id is a no-op. */
  function UpdateTaskStatus(s: Store, id: int, status: string, result: Option<string>,
                            error: Option<string>, now: Time): (r: Store)
    ensures r.companies == s.companies && r.requests == s.requests && r.tasks.Keys == s.tasks.Keys
    ensures forall k :: k in s.tasks && k != id ==> r.tasks[k] == s.tasks[k]
    ensures id !in s.tasks ==> r == s
    ensures id in s.tasks ==>
      var after := r.tasks[id];
      && after.status == status && after.result == result && after.error == error
      && after.executedAt == Some(now)
      && after.requestId == s.tasks[id].requestId && after.taskType == s.tasks[id].taskType
      && after.scheduledAt == s.tasks[id].scheduledAt && after.id == Some(id)
  {
    if id in s.tasks then
      var t := s.tasks[id];
      s.(tasks := s.tasks[id := t.(status := status, executedAt := Some(now), result := result, error := error)])
    else s
  }

  /** A task whose status is set to anything but "pending" drops out of every later
      due-task query, so it cannot be fetched again. */
  lemma MarkedTaskLeavesQueue(s: Store, id: int, status: string, result: Option<string>,
                              error: Option<string>, now: Time, before: Time)
    requires id in s.tasks && status != TaskPending
    ensures forall t :: t in GetPendingTasks(UpdateTaskStatus(s, id, status, result, error, now), before)
                        ==> t.id != Some(id)
  {
  }
}

=== FILE: templates.dfy ===
/** Template lookup and subjects (src/utils/templates.py). The Jinja text of the templates
    is not modelled: a rendered body is the template it came from plus its bindings. */
module Templates {
  import opened Wrappers
  import opened Models
  import opened Calendar

  /** The keys of `TEMPLATES`. A key's first component is compared as a string, since
      `RequestType` is a string enumeration: `RequestType.DELETION == "deletion"`. */
  function TemplateFor(kind: string, language: string): Option<TemplateId> {
    if kind == TypeValue(Deletion) then
      if language == "de" then Some(DeletionDe) else if language == "en" then Some(DeletionEn) else None
    else if kind == "reminder" && language == "de" then Some(ReminderDe)
    else if kind == "escalation" && language == "de" then Some(EscalationDe)
    else None
  }

  /** The template table has exactly four keys, each naming its own template. */
  lemma TemplateKeys(kind: string, language: string)
    ensures TemplateFor(kind, language).Some? <==>
      (kind, language) in {("deletion", "de"), ("deletion", "en"), ("reminder", "de"), ("escalation", "de")}
    ensures TemplateFor("deletion", "de") == Some(DeletionDe) && TemplateFor("deletion", "en") == Some(DeletionEn)
    ensures TemplateFor("reminder", "de") == Some(ReminderDe) && TemplateFor("escalation", "de") == Some(EscalationDe)
  {
  }

  /** `render_template`: fails (ValueError) unless (kind, language) is one of the four
      keys; the date binding is the caller's if given and otherwise today's `dd.mm.yyyy`. */
  function RenderTemplate(kind: string, language: string, companyName: Option<string>,
                          userName: Option<string>, userEmail: Option<string>, reason: Option<string>,
                          originalDate: Option<string>, date: Option<string>, now: Time): (r: Result<Body, string>)
    ensures r.Success? <==> TemplateFor(kind, language).Some?
    ensures r.Success? ==> r.value.Templated? && Some(r.value.template) == TemplateFor(kind, language)
    ensures r.Success? ==> r.value.vars.date == date.GetOr(FormatTime(now))
    ensures r.Success? ==> r.value.vars == TemplateVars(companyName, userName, userEmail, reason, originalDate, r.value.vars.date)
    ensures r.Failure? ==> r.error == "Template not found for " + kind + " in " + language
  {
    match TemplateFor(kind, language)
    case None => Failure("Template not found for " + kind + " in " + language)
    case Some(id) =>
      var day := match date case Some(d) => d case None => FormatTime(now);
      Success(Templated(id, TemplateVars(companyName, userName, userEmail, reason, originalDate, day)))
  }

  /** `get_subject`. */
  function GetSubject(t: RequestType, language: string): (r: string)
    ensures t == Deletion && language == "de" ==> r == "DSGVO Löschantrag gemäß Art. 17 DSGVO"
    ensures t == Deletion && language == "en" ==> r == "GDPR Deletion Request according to Art. 17 GDPR"
    ensures t == Access && language == "de" ==> r == "DSGVO Auskunftsantrag gemäß Art. 15 DSGVO"
    ensures t == Access && language == "en" ==> r == "GDPR Access Request according to Art. 15 GDPR"
    ensures r == "DSGVO Antrag" <==> !(t in {Deletion, Access} && language in {"de", "en"})
  {
    match (t, language)
    case (Deletion, "de") => "DSGVO Löschantrag gemäß Art. 17 DSGVO"
    case (Deletion, "en") => "GDPR Deletion Request according to Art. 17 GDPR"
    case (Access, "de") => "DSGVO Auskunftsantrag gemäß Art. 15 DSGVO"
    case (Access, "en") => "GDPR Access Request according to Art. 15 GDPR"
    case _ => "DSGVO Antrag"
  }

  const ReminderSubjectDe := "Erinnerung: DSGVO Löschantrag"
  const ReminderSubjectEn := "Reminder: GDPR Deletion Request"
  const EscalationSubjectDe := "Letzte Mahnung: DSGVO Löschantrag"
  const EscalationSubjectEn := "Final Notice: GDPR Deletion Request"

  /** `get_reminder_subject`: German exactly for "de", English for any other language. */
  function GetReminderSubject(language: string): (r: string)
    ensures r == ReminderSubjectDe <==> language == "de"
    ensures r == ReminderSubjectEn <==> language != "de"
  {
    if language == "de" then ReminderSubjectDe else ReminderSubjectEn
  }

  /** `get_escalation_subject`: German exactly for "de", English for any other language. */
  function GetEscalationSubject(language: string): (r: string)
    ensures r == EscalationSubjectDe <==> language == "de"
    ensures r == EscalationSubjectEn <==> language != "de"
  {
    if language == "de" then EscalationSubjectDe else EscalationSubjectEn
  }

  /** There is no English reminder or escalation template: rendering one fails. */
  lemma NoEnglishFollowUpTemplates(now: Time)
    ensures RenderTemplate("reminder", "en", None, None, None, None, None, None, now).Failure?
    ensures RenderTemplate("escalation", "en", None, None, None, None, None, None, now).Failure?
  {
    TemplateKeys("reminder", "en");
    TemplateKeys("escalation", "en");
  }
}

=== FILE: wrappers.dfy ===
/** Failure-compatible Option and Result datatypes used throughout the model.
    `None`/`Failure` stand for Python's `None` return and for a raised exception. */
module Wrappers {

  datatype Option<+T> = None | Some(value: T) {

    /** Python's `x or default` for an optional value that is truthy whenever present. */
    function GetOr(default: T): T {
      match this
      case Some(v) => v
      case None => default
    }
  }

  datatype Result<+R, +E> = Success(value: R) | Failure(error: E)
}
